=== FILE: README.md ===
# Kamiwaza SDK core in Dafny

This project models the deterministic core of the Kamiwaza Python SDK and proves properties about it. That core is the code that decides what an SDK call sends, how the client's `_request` loop reacts to the server's answers, and how the small parsers, validators and selectors of the SDK, its command-line client, its test harness and its RAG example behave. The HTTP server, the transport and everything on the other side of a call are not modelled. They appear only as parameters: a function from the call the SDK makes to the JSON result or error it gets back, or a script of replies for the request loop.

The modules follow the program's structure:

- `Common`: the shared vocabulary.
  - `Option`, `Result` and `Json` values.
  - The SDK's exception kinds.
  - A `Call` record: verb, path, query parameters, body, headers, file and raw-response flag.
  - A keyword argument is one of three cases: not passed, passed as `None`, or passed with a value.
  - Also: the `model_dump(exclude_none=True)` filter, the 404 to `NotFoundError` guard, and list validation.
- `Text`: the Python string operations the code relies on.
  - `strip` with Python's whitespace set, `lstrip`/`rstrip` of one character, `lower`/`upper`, `split`/`join`, `partition`, `rsplit(..., 1)`, `replace`, `splitlines`, `str(int)` and `int(str)`.
  - Each comes with its inverse or its characterising lemmas.
- `PercentEncoding`: `urllib.parse.quote(..., safe="")` over UTF-8, as the catalog uses it to put URNs into paths (sections 2.1 and 2.3 of RFC 3986).
- `RecentCache`, `Client`, `RetryLoop` and `ClientRequest`: the `KamiwazaClient`.
  - Base-URL resolution and URL joining (`Client`).
  - The recent-dataset cache: ordered, with a 30-second time-to-live and at most 1024 entries (`RecentCache`).
  - The `_request` loop, which refreshes the token at most once and retries a dataset-schema `PUT` on the schema-not-found 404 following a fixed delay schedule (`Client`), with its scenarios (`RetryLoop`).
  - The whole `_request` call: arming the retry from the cache, running the loop and classifying the final response (`ClientRequest`).
- `DummyClient`: the record-and-replay HTTP stub of the unit tests.
- `Catalog`, `Context`, `Enclaves`, `Authz`, `Workrooms`, `Extensions`, `OAuthBroker`, `OAuthProxy`: the request shaping of the service wrappers and the validation rules of their request models.
  - Which keys go into query, body and headers, depending on which optional arguments are given.
  - Defaults, bounds and closed enumerations.
- `ModelSearch`: the hub-name normaliser and the search-request defaults.
- `Serving`: instance selection and the box arithmetic of the deployment records' `__str__`.
- `Cli`: the command-line client's name formatter, error wrapper and selections.
- `EnvFile`: the `.env` loader of the test suite.
- `Compose`: the pure helpers of the integration-test harness: loopback rewriting, `docker compose port` parsing, Docker-host choice and memoisation, and the SSL switch.
- `Rag`: the context-budget accumulator and the Markdown file listing of the interactive RAG example.

Time is a natural number of milliseconds read from a monotonic clock that the caller passes in. Sleeps are recorded as events.

## Model

| member | source | states |
|---|---|---|
| Common.DropNone | kamiwaza_sdk/services/oauth_broker/proxy.py:155 | the top level of one model's dump without `None`: exactly the fields whose value is not null are kept, each unchanged (a nested model is dumped by its own member, as `Catalog.DumpSchema`) |
| Common.OptField | kamiwaza_sdk/services/oauth_broker/proxy.py:264-276 | an optional argument adds its key exactly when it is given, and no other key changes |
| Common.NotFoundAs | kamiwaza_sdk/services/workrooms.py:108-110 | a 404 becomes `NotFoundError` with the message; every other error passes unchanged, and no 404 `APIError` escapes |
| Common.Guarded | kamiwaza_sdk/services/workrooms.py:104-111 | success passes through unchanged, and an error passes through the 404 guard |
| Common.ValidateAll | kamiwaza_sdk/services/workrooms.py:90 | every item is validated in order when all validate; otherwise the error is that of the first item that fails |
| Text.TrimStart | tests/conftest.py:18 | the result is a suffix of the text that does not start with whitespace, and everything dropped was whitespace |
| Text.TrimEnd | tests/conftest.py:18 | the result is a prefix of the text that does not end with whitespace, and everything dropped was whitespace |
| Text.Strip | tests/conftest.py:18-25 | the stripped text occurs in the original and neither starts nor ends with whitespace |
| Text.StripIdempotent | tests/conftest.py:18-25 | stripping a stripped text changes nothing |
| Text.StripNoEdgeSpace | tests/conftest.py:18-25 | a text with no whitespace at either edge is its own strip |
| Text.StripSub | tests/conftest.py:18-25 | stripping never introduces a character |
| Text.StripTrailingSpace | tests/integration/conftest.py:211 | a trailing whitespace character after clean text is removed by stripping |
| Text.LStripChar | kamiwaza_sdk/client.py:132 | the result is a suffix not starting with the character, and only that character was dropped |
| Text.RStripChar | kamiwaza_sdk/client.py:132 | the result is a prefix not ending with the character, and only that character was dropped |
| Text.Lower | kamiwaza_client/cli/utils.py:25 | lower-casing keeps the length and maps each character on its own |
| Text.LowerHasNoUpper | kamiwaza_client/cli/utils.py:25 | a lower-cased text has no upper-case letter, and lower-casing it again changes nothing |
| Text.LowerConcat | kamiwaza_client/cli/utils.py:25 | lower-casing a concatenation lower-cases each part |
| Text.Upper | kamiwaza_sdk/client.py:148 | upper-casing keeps the length and maps each character on its own |
| Text.IndexOf | tests/integration/conftest.py:154 | the first occurrence of a character, absent exactly when the character does not occur |
| Text.LastIndexOf | tests/integration/conftest.py:215 | the last occurrence of a character, absent exactly when the character does not occur |
| Text.Split | tests/integration/conftest.py:150 | splitting gives at least one piece and no piece holds the separator |
| Text.JoinSplit | tests/integration/conftest.py:150-157 | joining the pieces of a split with the same separator restores the text |
| Text.SplitJoin | kamiwaza_sdk/services/oauth_broker/base.py:137 | splitting a join of separator-free pieces gives the pieces back |
| Text.SplitAtFirst | tests/integration/conftest.py:150 | splitting at a separator the first piece lacks cuts off that piece |
| Text.Partition | tests/integration/conftest.py:154 | the three parts concatenate to the text, the head holds no separator, and the separator part is empty exactly when the separator does not occur, in which case the tail is empty too |
| Text.PartitionAt | tests/conftest.py:23 | partitioning `a + c + b` at `c` gives `a`, `c` and `b` when `a` holds no `c` |
| Text.AfterLast | tests/integration/conftest.py:215 | the text after the last separator holds no separator; it is the whole text when there is no separator |
| Text.AfterLastSplit | tests/integration/conftest.py:215 | the text after the last `c` of `a + c + b` is `b` when `b` holds no `c` |
| Text.ReplaceAll | kamiwaza_client/cli/utils.py:25 | replacing a pattern by no longer text never lengthens the text |
| Text.ReplaceAllSkip | kamiwaza_client/cli/utils.py:25 | text holding no first character of the pattern is copied unchanged |
| Text.ReplaceAllChars | kamiwaza_client/cli/utils.py:25 | replacing never introduces a character that neither the text nor the replacement holds |
| Text.ReplaceAllNoUpper | kamiwaza_client/cli/utils.py:25 | replacing with upper-case-free text keeps upper-case-free text so |
| Text.ReplaceAllAbsent | kamiwaza_client/cli/utils.py:25 | text in which the pattern does not occur is returned unchanged |
| Text.ReplaceAllFirst | kamiwaza_client/cli/utils.py:25 | when no occurrence starts inside `a`, `(a + pat + b).replace(pat, rep)` is `a + rep` followed by the replacement applied to `b` |
| Text.ReplaceAllLast | kamiwaza_client/cli/utils.py:25 | a text ending in its only occurrence of the pattern has exactly that occurrence replaced |
| Text.SplitLines | tests/integration/conftest.py:211 | the lines of a non-empty text hold no line break, there are none exactly for the empty text, and the first line runs to the first break |
| Text.IntToString | tests/integration/conftest.py:215 | the decimal form of an integer is digits with an optional leading minus and ends in a digit |
| Text.ParseInt | tests/integration/conftest.py:215 | `int()` succeeds only when the stripped text is an optional leading sign followed by digits and underscores ending in a digit, and a negative result needs the minus sign |
| Text.SignedShape | tests/integration/conftest.py:215 | once whitespace is gone, an accepted text has a sign only in front and digits or underscores after it |
| Text.ParsePadded | tests/integration/conftest.py:215 | `int(w1 + str(i) + w2) == i` for every integer and any whitespace `w1` and `w2` |
| Text.StripPadded | tests/integration/conftest.py:215 | stripping removes exactly the whitespace around a text that neither starts nor ends with whitespace |
| Text.ParseIntToString | tests/integration/conftest.py:215 | `int(str(i)) == i` for every integer |
| Text.NatToStringValue | tests/integration/conftest.py:215 | the decimal form of a natural number is a digit body whose value is the number |
| PercentEncoding.Utf8Char | kamiwaza_sdk/services/catalog.py:23-25 | a code point takes one to four bytes, one exactly when it is ASCII, and every byte after the first is a continuation byte |
| PercentEncoding.Utf8RoundTrip | kamiwaza_sdk/services/catalog.py:23-25 | strict UTF-8 decoding inverts the UTF-8 encoding the quoting starts from |
| PercentEncoding.QuoteByte | kamiwaza_sdk/services/catalog.py:25 | an unreserved ASCII byte stands for itself and every other byte becomes `%` and two upper-case hex digits |
| PercentEncoding.QuoteRoundTrip | kamiwaza_sdk/services/catalog.py:23-25 | percent-decoding the encoded segment, then decoding UTF-8, gives back the original text |
| PercentEncoding.QuoteInjective | kamiwaza_sdk/services/catalog.py:23-25 | different texts never share an encoded segment |
| PercentEncoding.QuoteEncoded | kamiwaza_sdk/services/catalog.py:23-25 | every encoded segment consists only of unreserved characters and `%XX` triplets with upper-case hex digits |
| PercentEncoding.EncodedChars | kamiwaza_sdk/services/catalog.py:23-25 | every character of an encoded segment is unreserved, `%` or an upper-case hex digit |
| PercentEncoding.ReservedEscaped | kamiwaza_sdk/services/catalog.py:23-25 | `/`, `(`, `)`, `,`, `:` and the space never survive encoding |
| PercentEncoding.QuoteIdentity | kamiwaza_sdk/services/catalog.py:23-25 | a text is its own encoding exactly when it is made only of unreserved characters |
| PercentEncoding.QuoteAppend | kamiwaza_sdk/services/catalog.py:23-25 | the encoding of a concatenation is the concatenation of the encodings |
| PercentEncoding.QuoteLonger | kamiwaza_sdk/services/catalog.py:23-25 | any character that is not unreserved makes the encoding longer than the text |
| PercentEncoding.EscapeExamples | tests/unit/test_catalog_service.py:106-108 | `/`, `(`, `,` and the space encode as `%2F`, `%28`, `%2C` and `%20` |
| DummyClient.NewStub | tests/conftest.py:115-117 | a new stub holds the given canned responses and an empty call log |
| DummyClient.Dispatch | tests/conftest.py:119-125 | the call is appended to the log before the lookup, so failed calls are logged too; a known `(method, path)` returns its canned response unchanged, and an unknown one raises `AssertionError` naming the method and path; the table never changes |
| DummyClient.Invoke | tests/conftest.py:127-137 | the stub as written: `get`, `post`, `patch` and `delete` dispatch under their own names; any other method name, `put` included, fails on attribute lookup and logs nothing |
| DummyClient.PutNotDispatched | tests/conftest.py:119-137 | a `put` fails on the stub as written even when a canned `("put", path)` response exists that dispatching would have returned |
| DummyClient.InvokeFixed | tests/conftest.py:127-137 | the stub with `put` added dispatches all five verbs and still rejects any other name |
| DummyClient.FixedPutReplays | tests/conftest.py:119-125 | with `put` added, a registered put is answered from the table and logged |
| DummyClient.Replay | tests/conftest.py:119-125 | a sequence of calls gives one answer per call and leaves the table unchanged |
| DummyClient.ReplayLog | tests/conftest.py:119-125 | replaying a test's calls appends exactly the dispatched calls to the log, in order, whether or not they were answered |
| DummyClient.ReplayAnswers | tests/conftest.py:119-125 | the i-th answer of a replay depends only on the i-th call and the table |
| DummyClient.VerbName | tests/conftest.py:127-137 | every verb the services use names a method of the corrected stub, and only PUT is missing from the stub as written |
| DummyClient.KwEntry | tests/conftest.py:119-120 | a keyword argument is recorded under its key exactly when it was passed, as `None` when passed as `None`; no other key changes |
| DummyClient.Kwargs | tests/conftest.py:119-120 | the recorded kwargs hold `params`, `json`, `headers`, `files` and `expect_json` exactly when the wrapper passed them, with the values passed |
| DummyClient.Send | tests/conftest.py:119-125 | a wrapper's call through the corrected stub is logged with its method name, path and kwargs, and is answered exactly when the table has its `(method, path)` |
| Enclaves.RequestHeaders | kamiwaza_sdk/services/enclaves.py:110-117 | the caller's headers are all kept with their values; the system-high header is added only for a non-empty classification and never overrides a value the caller set; no other header appears; `None` is sent exactly when the merged headers are empty |
| Enclaves.CallerClassificationKept | kamiwaza_sdk/services/enclaves.py:110-112 | a system-high header already in the caller's headers wins over the `system_high` argument |
| Enclaves.RequestHeadersIdempotent | kamiwaza_sdk/services/enclaves.py:110-117 | feeding the sent headers back in with the same classification sends the same headers again |
| Enclaves.ConnectorListParams | kamiwaza_sdk/services/enclaves.py:35-45 | `limit`, `offset` and `enabled` are sent exactly when not `None` (so `enabled=False` is sent), `source_type` and `tag` exactly when non-empty, each with its value and no other key |
| Enclaves.ConnectorList | kamiwaza_sdk/services/enclaves.py:26-46 | a GET on `/enclaves/connectors/` whose query is the filter map, sent as `None` exactly when every filter is off |
| Enclaves.ConnectorListDefaults | kamiwaza_sdk/services/enclaves.py:29-30 | with the default arguments only `limit=50` and `offset=0` are sent |
| Enclaves.ConnectorListAllFilters | tests/unit/test_enclaves_service.py:87-104 | the unit test's five filters are sent under their own names with their values |
| Enclaves.ConnectorListDisabledIsSent | kamiwaza_sdk/services/enclaves.py:36-46 | turning off every filter sends `params=None`, while `enabled=False` alone is still sent |
| Enclaves.ConnectorCall | kamiwaza_sdk/services/enclaves.py:49-73 | each single-connector operation's verb and path; payloads are sent as their dump without `None` fields; an update is the only PUT |
| Enclaves.ConnectorRoundTripPaths | tests/unit/test_enclaves_service.py:128-136 | get, update and delete of one connector share one path, and the update is dispatched as `put` |
| Enclaves.UpdateOnStubFails | tests/unit/test_enclaves_service.py:128-141 | through the unit tests' stub client the update fails with a missing `put` attribute even when its response is registered |
| Enclaves.DocumentListParams | kamiwaza_sdk/services/enclaves.py:100-108 | `source_id` is always sent; `limit` and `offset` exactly when not `None`; `item_type` and `tag` exactly when non-empty; no other key |
| Enclaves.DocumentList | kamiwaza_sdk/services/enclaves.py:89-119 | a GET on `/enclaves/documents/` with the document query and the classified headers |
| Enclaves.DocumentGet | kamiwaza_sdk/services/enclaves.py:121-138 | a GET on the document's path whose query is exactly `source_id` and whose headers follow the listing rule |
| Enclaves.DocumentGetMatchesList | kamiwaza_sdk/services/enclaves.py:100-137 | a get sends the query of an unpaged listing and exactly the listing's headers |
| Enclaves.DocumentCallsClassified | tests/unit/test_enclaves_service.py:187-232 | with no caller headers and `system_high="U"`, the classification is the only header sent by list and get |
| Authz.TenantPayload | kamiwaza_sdk/services/authz.py:26-28 | every non-`None` field of the relationship is kept with its value and every `None` field is dropped; `tenant_id` is added from a non-empty tenant argument only when the relationship does not carry one |
| Authz.TenantPayloadStable | kamiwaza_sdk/services/authz.py:26-28 | rebuilding a built body with the same tenant changes nothing, and a tenant already present is never replaced by any other |
| Authz.NullTenantReplaced | kamiwaza_sdk/services/authz.py:26-28 | a relationship whose own `tenant_id` is `None` takes the tenant argument, because `None` fields are dropped first |
| Authz.TupleCall | kamiwaza_sdk/services/authz.py:20-51 | upsert posts to `/auth/tuples`, delete and object-delete use DELETE on `/auth/tuples` and `/auth/tuples/object`; each sends the tenant payload and does not decode the response |
| Authz.UpsertDeleteSymmetric | kamiwaza_sdk/services/authz.py:20-40 | upsert and delete of one tuple send the same body to the same path and differ only in the verb |
| Authz.CheckAccess | kamiwaza_sdk/services/authz.py:53-55 | an access check posts to `/auth/check` the full request dump with every key and value, and decodes the response |
| Authz.CheckKeepsNone | kamiwaza_sdk/services/authz.py:26-55 | a `None` field reaches an access check but never a tuple call |
| Context.MergeHeaders | kamiwaza_sdk/services/context.py:17-25 | a non-empty workroom id sets `X-Workroom-ID`, overwriting any caller value; an empty or missing id gives back the caller's headers (none counts as empty); every other header keeps its presence and value |
| Context.MergeHeadersIdempotent | kamiwaza_sdk/services/context.py:17-25 | merging the merged headers again with the same workroom changes nothing |
| Context.MergeHeadersOnlyWorkroom | kamiwaza_sdk/services/context.py:17-25 | two merges of the same headers with non-empty workrooms agree exactly when the workrooms are equal |
| Context.WorkroomParams | kamiwaza_sdk/services/context.py:27-31 | `None` exactly for a missing or empty id, otherwise the single entry `workroom_id` |
| Context.ScopedHeaders | kamiwaza_sdk/services/context.py:17-25 | the header map a context call passes is never `None` and holds exactly the workroom header when the id is non-empty, and nothing otherwise |
| Context.CreateVectorDb | kamiwaza_sdk/services/context.py:58-80 | the body always holds name, engine and replicas (default 1), and holds config and `workroom_id` exactly when they are not `None` |
| Context.EmptyWorkroomBodyOnly | kamiwaza_sdk/services/context.py:74-79 | an empty workroom id reaches the body but not the header |
| Context.MinimalVectorDbBody | tests/unit/test_context_service.py:31-39 | a bare creation sends exactly name, engine and `replicas=1` |
| Context.UpdateVectorDb | kamiwaza_sdk/services/context.py:82-100 | a PUT whose body holds exactly the non-`None` settings among config and replicas, scoped by the workroom query and header |
| Context.QueryPayload | kamiwaza_sdk/services/context.py:139-147 | a vector query always sends the given collection and vectors and the limit (default 10), and adds the given params and output fields exactly when they are given |
| Context.QueryVectors | kamiwaza_sdk/services/context.py:128-152 | the path-scoped query names the database in its path and never in its body; the body is exactly the query payload, no query string is sent, and the workroom header is the scoped one |
| Context.QueryVectorsGlobal | kamiwaza_sdk/services/context.py:154-179 | the global query names the database in its body on the shared query path; every other body field is the query payload's, with its value, and the workroom header is the scoped one |
| Context.QueryGlobalAddsId | kamiwaza_sdk/services/context.py:128-179 | the two query variants send the same body except for `vectordb_id`, and the same headers |
| Context.InsertPayload | kamiwaza_sdk/services/context.py:192-199 | an insert always sends the given collection, vectors and metadata and `create_if_missing` (default true), and adds the given field list exactly when it is given |
| Context.InsertVectors | kamiwaza_sdk/services/context.py:181-204 | the path-scoped insert names the database in its path and never in its body; the body is exactly the insert payload, no query string is sent, and the workroom header is the scoped one |
| Context.InsertVectorsGlobal | kamiwaza_sdk/services/context.py:206-230 | the global insert names the database in its body; every other body field is the insert payload's, with its value, and the workroom header is the scoped one |
| Context.InsertGlobalAddsId | kamiwaza_sdk/services/context.py:181-230 | the two insert variants send the same body except for `vectordb_id` |
| Context.ListPipelineJobs | kamiwaza_sdk/services/context.py:442-457 | the query always holds limit and offset (defaults 50 and 0) and holds status exactly when it is not `None` |
| Context.AgenticSearch | kamiwaza_sdk/services/context.py:518-547 | the body always holds the given query, the id list (`[]` when missing), collection, iterations, threshold and top-k with their defaults, plus ontology and groups exactly when not `None`; the call is sent with the given workroom as its header |
| Context.AgenticEmptyIds | kamiwaza_sdk/services/context.py:531 | no id list and an empty id list give the same request |
| Context.UploadFile | kamiwaza_sdk/services/context.py:549-570 | the attachment carries the file name and content type (default `application/octet-stream`); the query holds exactly the options given, and is `None` when neither is given |
| Context.UploadRecorded | tests/unit/test_context_service.py:146-167 | the stub records an upload with the name and content type in the attachment, and with `params=None` when no option is given |
| Workrooms.TypeName | kamiwaza_sdk/schemas/workrooms.py:11-15 | every workroom type's value string validates back to that type |
| Workrooms.ParseType | kamiwaza_sdk/schemas/workrooms.py:11-15 | a `type` validates exactly when it is `ephemeral` or `persistent` |
| Workrooms.ParseStatus | kamiwaza_sdk/schemas/workrooms.py:18-24 | a status validates exactly when it is one of the four lifecycle names |
| Workrooms.StatusRoundTrip | kamiwaza_sdk/schemas/workrooms.py:18-24 | status names and status parsing are inverse to each other in both directions |
| Workrooms.CreateProblem | kamiwaza_sdk/schemas/workrooms.py:27-42 | a create request is accepted exactly when the name has 1..255 characters, the type is valid, the description has at most 1024 characters and the classification at most 255 |
| Workrooms.CreateValidIsUpdateValid | kamiwaza_sdk/schemas/workrooms.py:45-53 | every field of an update is optional, and whatever create accepts an update accepts too |
| Workrooms.DetailValue | kamiwaza_sdk/schemas/workrooms.py:32-42 | an optional field has a wire value only under its own name and never as `None` |
| Workrooms.DetailFields | kamiwaza_sdk/services/workrooms.py:62-73 | the dump holds exactly the given optional fields with their values, and is empty exactly when none is given |
| Workrooms.Create | kamiwaza_sdk/services/workrooms.py:62-75 | validation fails before anything is sent, naming the offending field; otherwise a POST to `/workrooms/` with name, the type's value string and exactly the given optional fields, never a `None` |
| Workrooms.MinimalCreate | tests/unit/test_workroom_service.py:546-552 | a create with only the required fields sends exactly `name` and `type` |
| Workrooms.EnsureUuid | kamiwaza_sdk/services/workrooms.py:343-348 | UUID values pass through unchanged; strings are parsed, and an unparsable string raises `ValueError` |
| Workrooms.EnsureUuidStable | kamiwaza_sdk/services/workrooms.py:343-348 | a string and the UUID it parses to denote the same workroom |
| Workrooms.UpdatePayload | kamiwaza_sdk/services/workrooms.py:143-151 | the update body holds exactly the keyword fields that are not `None`, with their values, and is empty exactly when none is given |
| Workrooms.UpdateSendsOnlyGiven | tests/unit/test_workroom_service.py:272-276 | an update of name and labels sends exactly those two keys |
| Workrooms.IdCall | kamiwaza_sdk/services/workrooms.py:104-337 | each id-based operation's verb and path under the workroom's id; only update sends a body (a PATCH of the update payload) and only the bundle export skips JSON decoding |
| Workrooms.Perform | kamiwaza_sdk/services/workrooms.py:104-111 | the id is parsed before anything is sent; a 404 from the client becomes `NotFoundError` naming the workroom, while success and every other error pass through unchanged, so a 404 never escapes |
| Workrooms.GuardIdempotent | kamiwaza_sdk/services/workrooms.py:108-111 | applying the 404 guard twice is applying it once |
| Workrooms.List | kamiwaza_sdk/services/workrooms.py:86-89 | the query is `{"include_archived": "true"}` exactly when the flag is set, and otherwise the empty map, which is still passed |
| Workrooms.AdminList | kamiwaza_sdk/services/workrooms.py:309-312 | the query always holds skip and limit and holds `include_deleted="true"` exactly when the flag is set |
| Workrooms.AdminListDefaults | kamiwaza_sdk/services/workrooms.py:295-297 | with the defaults exactly `skip=0` and `limit=100` are sent |
| Workrooms.ListResult | kamiwaza_sdk/services/workrooms.py:90 | a response without `items` raises `KeyError`; empty items give `[]`; otherwise each item is validated in order, one result per item |
| Workrooms.LaxInt | kamiwaza_sdk/schemas/workrooms.py:106-112 | a counter value validates as an integer when it is one, as 1 or 0 when it is a boolean, when it is a float with no fractional part, or when it is a text holding a signed run of decimal digits between whitespace; `null`, lists and objects never validate |
| Workrooms.LaxIntForms | kamiwaza_sdk/schemas/workrooms.py:106-112 | the same number sent as an integer, as an integral float or as its decimal text with any whitespace around it validates to that number |
| Workrooms.Counter | kamiwaza_sdk/schemas/workrooms.py:106-112 | a counter left out of the response is 0; a value the lax integer rule accepts is taken as that integer, an integer as it is; any other value fails validation of that field |
| Workrooms.Counts | kamiwaza_sdk/schemas/workrooms.py:107 | counts by source type are empty when left out; otherwise they validate exactly when the value is an object whose every value the lax integer rule accepts, and then have the same keys with those integers |
| Workrooms.ParseSummary | kamiwaza_sdk/schemas/workrooms.py:102-112 | a summary validates exactly when every counter validates under the lax integer rule, and then carries each counter's value |
| Workrooms.SummaryDefaults | kamiwaza_sdk/schemas/workrooms.py:106-112 | a response reporting no counters gives zeros and no counts by source type |
| Extensions.ExtensionPath | kamiwaza_sdk/services/extensions.py:42 | an extension is addressed by `/extensions/` followed by its name, which can be read back from the path |
| Extensions.NotFoundMessage | kamiwaza_sdk/services/extensions.py:46 | the not-found message names the extension |
| Extensions.ListExtensions | kamiwaza_sdk/services/extensions.py:26-27 | an empty response gives `[]`; the listing succeeds exactly when every item validates, and then holds one result per item, in order |
| Extensions.GetExtension | kamiwaza_sdk/services/extensions.py:41-47 | a successful GET is returned; a 404 becomes `NotFoundError` naming the extension; any other error is re-raised unchanged |
| Extensions.CreateExtension | kamiwaza_sdk/services/extensions.py:61-64 | creation posts to `/extensions` the full model dump, every key with its value |
| Extensions.DeleteExtension | kamiwaza_sdk/services/extensions.py:80-86 | deletion returns `True` exactly when the client succeeds, whatever it returns; a 404 becomes `NotFoundError` naming the extension; any other error is re-raised |
| Extensions.DeleteSendsNoKwargs | kamiwaza_sdk/services/extensions.py:81 | the delete call passes the client no keyword arguments |
| Extensions.GetDeleteSameErrors | kamiwaza_sdk/services/extensions.py:41-86 | get and delete turn the same client error into the same exception |
| Extensions.MakePort | kamiwaza_sdk/schemas/extensions.py:16-22 | a port is accepted exactly when the container port lies in 1..65535 and the protocol, `TCP` when not given, is `TCP` or `UDP` |
| Extensions.PortRoundTrip | kamiwaza_sdk/schemas/extensions.py:16-22 | a validated port written back out validates to itself |
| Extensions.MakeServiceSpec | kamiwaza_sdk/schemas/extensions.py:39-44 | a service is accepted exactly when its replica count is not negative; `primary` defaults to false, ports to none and replicas to 1 |
| Extensions.ServiceSpecDefaults | kamiwaza_sdk/schemas/extensions.py:41-44 | a service with only the required fields is one non-primary replica without ports |
| Extensions.MakeSecurity | kamiwaza_sdk/schemas/extensions.py:76-78 | security settings are accepted exactly when the risk tier, default 1, lies in 0..2; the source type defaults to `kamiwaza` and `verified` to false |
| Extensions.MakeCreate | kamiwaza_sdk/schemas/extensions.py:86-94 | a creation request is accepted exactly when the type is `app` or `tool` and at least one service is given; the type is checked first |
| Extensions.CreateTypeRoundTrip | kamiwaza_sdk/schemas/extensions.py:87-89 | a type name is read back as the same type |
| Extensions.ReadServiceStatus | kamiwaza_sdk/schemas/extensions.py:102-105 | a missing `ready` reads as false and missing replica counts as 0; reported values are kept |
| OAuthBroker.ParseProvider | kamiwaza_sdk/schemas/oauth_broker.py:14-18 | a provider validates exactly when it is `google` or `microsoft` |
| OAuthBroker.ParseStatus | kamiwaza_sdk/schemas/oauth_broker.py:21-27 | a connection status validates exactly when it is one of the four status strings |
| OAuthBroker.EnumRoundTrips | kamiwaza_sdk/schemas/oauth_broker.py:14-27 | provider and status values and their strings are inverse to each other in both directions |
| OAuthBroker.ProviderString | kamiwaza_sdk/services/oauth_broker/base.py:190 | a `Provider` argument is sent as its value string, which reads back as the same provider; a plain string is sent unchanged |
| OAuthBroker.ProviderFormsAgree | kamiwaza_sdk/services/oauth_broker/base.py:190-210 | passing the enum and passing its value string send the same text |
| OAuthBroker.CreateAppBody | kamiwaza_sdk/schemas/oauth_broker.py:33-46 | an app is accepted exactly when its name has 1..255 characters, its description at most 1000 and no unknown field is given; the dump always holds the name and the allowed tools (default none), and holds the given description and metadata exactly when they are given |
| OAuthBroker.MinimalApp | kamiwaza_sdk/schemas/oauth_broker.py:38-46 | the smallest app sends its name and an empty tool list |
| OAuthBroker.UpdateAppBody | kamiwaza_sdk/schemas/oauth_broker.py:49-60 | an update is accepted exactly when a given name and description keep the create bounds, and its dump holds exactly the fields given, each with its given value |
| OAuthBroker.EmptyUpdate | kamiwaza_sdk/services/oauth_broker/base.py:97-100 | an update with nothing given sends an empty body |
| OAuthBroker.ListApps | kamiwaza_sdk/services/oauth_broker/base.py:53-69 | the app listing always sends `limit` and `offset` (defaults 100 and 0) |
| OAuthBroker.AppCall | kamiwaza_sdk/services/oauth_broker/base.py:48-110 | create posts its body to the collection, update patches its body at the app's path, and get and delete address the app by id without a body |
| OAuthBroker.StartGoogleAuth | kamiwaza_sdk/services/oauth_broker/base.py:135-138 | the authorization start sends the app id and all scopes joined by single spaces |
| OAuthBroker.ScopesRecoverable | kamiwaza_sdk/services/oauth_broker/base.py:137 | splitting the sent scope string on spaces gives back the requested scopes when none contains a space and at least one is requested |
| OAuthBroker.GoogleCallback | kamiwaza_sdk/services/oauth_broker/base.py:160-167 | `code` and `state` are always sent and `scope` exactly when it is non-empty; nothing else is sent |
| OAuthBroker.ConnectionCall | kamiwaza_sdk/services/oauth_broker/base.py:172-214 | status (GET) and disconnect (DELETE) send the same query: the app id and the provider string |
| OAuthBroker.LeaseDuration | kamiwaza_sdk/schemas/oauth_broker.py:139-144 | a lease duration defaults to 300 and is accepted exactly when it lies in 60..900, then unchanged |
| OAuthBroker.LeaseDurationStable | kamiwaza_sdk/schemas/oauth_broker.py:139-144 | an accepted duration is accepted again unchanged |
| OAuthBroker.TokenType | kamiwaza_sdk/schemas/oauth_broker.py:160 | the token type is `Bearer` when the server leaves it out, and otherwise the reported value |
| OAuthBroker.MakeToolPolicy | kamiwaza_sdk/schemas/oauth_broker.py:208-231 | a tool policy is accepted exactly when its tool id has 1..255 characters; both allow-lists default to empty |
| OAuthBroker.PolicyDefaults | kamiwaza_sdk/schemas/oauth_broker.py:221-228 | a policy created with no allow-lists allows nothing |
| OAuthProxy.Problem | kamiwaza_sdk/schemas/oauth_broker.py:270-302 | only the operations with a request model can fail validation: out-of-range `max_results` or `page_size` (1..200) or an unknown `msg_format` |
| OAuthProxy.Body | kamiwaza_sdk/services/oauth_broker/proxy.py:150-155 | search, get-message and send dump their model in full; modify and list-files drop `None` fields, so the labels and the Drive query are sent exactly when given; no value is ever `None` |
| OAuthProxy.Query | kamiwaza_sdk/services/oauth_broker/proxy.py:264-276 | every call sends the app id and tool id; the event listing adds the calendar and its limit, and each time bound exactly when it is not `None`, so an empty bound is still sent |
| OAuthProxy.ProxyCall | kamiwaza_sdk/services/oauth_broker/proxy.py:53-58 | the request model is validated before anything is sent; operations with a body POST it and body-less reads GET, all under the proxy root with the shared query |
| OAuthProxy.RouteInjective | kamiwaza_sdk/services/oauth_broker/proxy.py:55-276 | no two kinds of operation share a route: equal routes mean the same kind of operation, and for a Drive file fetch the same file id |
| OAuthProxy.DefaultsValid | kamiwaza_sdk/schemas/oauth_broker.py:274-302 | every operation called with its default arguments passes validation |
| OAuthProxy.MarkReadBody | kamiwaza_sdk/services/oauth_broker/proxy.py:150-155 | marking a message read sends only its id and the labels to remove |
| OAuthProxy.EventDefaults | kamiwaza_sdk/services/oauth_broker/proxy.py:232-273 | the default event listing asks for ten events of the primary calendar without time bounds, and an empty bound is still sent |
| Catalog.BasePath | kamiwaza_sdk/services/catalog.py:31 | every sub-client's base path lies under `/catalog/` |
| Catalog.BasePathsDiffer | kamiwaza_sdk/services/catalog.py:31-151 | the three collections have distinct base paths |
| Catalog.EncodePathUrn | kamiwaza_sdk/services/catalog.py:81-84 | the encoded segment percent-decodes back to the URN, consists of unreserved characters and `%XX` escapes only, never holds `/`, `(`, `)`, `,`, `:` or a space, and equals the URN exactly when the URN is all unreserved characters |
| Catalog.EncodePathUrnInjective | kamiwaza_sdk/services/catalog.py:23-25 | two URNs share an encoded segment only when they are the same URN |
| Catalog.EncodedParen | tests/unit/test_catalog_service.py:106-108 | an opening parenthesis in a URN becomes `%28`, with the text on each side encoded on its own |
| Catalog.DumpField | kamiwaza_sdk/schemas/catalog.py:10-16 | a field's dump always holds its name and type, holds a description exactly when one is given, and holds no `None` |
| Catalog.DumpSchema | kamiwaza_sdk/schemas/catalog.py:19-26 | a schema's dump holds its name and platform, a version exactly when one is given, its fields each dumped the same way, and no `None` at either level |
| Catalog.FieldRoundTrip | kamiwaza_sdk/schemas/catalog.py:10-16 | a dumped field validates back to the field it came from |
| Catalog.FieldsRoundTrip | kamiwaza_sdk/schemas/catalog.py:24 | a dumped list of fields validates back to the same list |
| Catalog.SchemaRoundTrip | kamiwaza_sdk/services/catalog.py:67-79 | what `update_schema` puts validates back, as `get_schema` reads it, to the schema that was put |
| Catalog.ClobberFlag | kamiwaza_sdk/services/catalog.py:157 | the clobber flag is sent as exactly `true` or `false`, matching the boolean |
| Catalog.QueryParams | kamiwaza_sdk/services/catalog.py:42 | a list sends `{"query": q}` exactly when `q` is non-empty, and `params=None` otherwise |
| Catalog.CreateCall | kamiwaza_sdk/services/catalog.py:35-38 | a create posts to the collection root; this helper states the verb and path only, and `Catalog.CallOf` states the body of the full call |
| Catalog.GetCall | kamiwaza_sdk/services/catalog.py:47-50 | a get reads the collection's `by-urn` route; this helper states the verb and path only, and `Catalog.CallOf` states the query of the full call |
| Catalog.CallOf | kamiwaza_sdk/services/catalog.py:33-242 | each wrapper's call: lists send the query rule, every by-URN call sends the URN as a query parameter, creates and updates send their payload without top-level `None` fields, the schema update sends the schema's own dump, the secret create sends its clobber flag, and only the schema update is a PUT |
| Catalog.ListQueryDistinguishes | kamiwaza_sdk/services/catalog.py:42-43 | no query and an empty query give the same call, and two non-empty queries give the same call only when equal |
| Catalog.OnlySchemaUpdateArms | kamiwaza_sdk/services/catalog.py:74-79 | of all catalog calls, only a schema update with a non-empty URN can arm the client's schema retry |
| Catalog.UpdateSchemaArms | kamiwaza_sdk/services/catalog.py:74-79 | a schema update arms the retry exactly when its dataset changed recently |
| Catalog.DatasetPayload | kamiwaza_sdk/services/catalog.py:218-227 | the given name and platform are sent; environment defaults to `PROD`, missing tags and properties become empty ones, and description, container URN and schema are `None` exactly when not given and otherwise carry the given value (the schema as its dump) |
| Catalog.UpdateSchemaBody | kamiwaza_sdk/services/catalog.py:74-79 | a schema update puts a body with no `None` at the top or in any field, and the body reads back as the schema |
| Catalog.CreateDatasetSchema | kamiwaza_sdk/services/catalog.py:33-39 | a dataset created with a schema posts that schema nested, free of `None`, and reading back as the schema |
| Catalog.MinimalDatasetBody | kamiwaza_sdk/services/catalog.py:218-227 | with only a name and a platform the posted body holds those, `PROD`, no tags and no properties |
| Catalog.CreateDatasetOn | kamiwaza_sdk/services/catalog.py:205-229 | creating a dataset posts the payload first and makes at most one more call, a fetch by URN, which happens whenever the result is a success |
| Catalog.CreateDatasetRoundTrip | tests/unit/test_catalog_service.py:30-32 | when the post answers a URN and the fetch answers a dataset, that dataset is returned after one post and one fetch by the URN the post returned |
| EnvFile.ParseLine | tests/conftest.py:18-29 | blank lines, comments and lines without `=` give nothing; an accepted line has a non-empty key, stripped, holding no `=` |
| EnvFile.ParseWrittenLine | tests/conftest.py:18-29 | a written `KEY=VALUE` line reads back as that key and the dequoted value, which may itself hold `=` |
| EnvFile.ApplyLine | tests/conftest.py:30-31 | an existing variable is never changed, and a new one comes only from the parsed line |
| EnvFile.ApplyAll | tests/conftest.py:17-31 | every variable set before the file is read keeps its value |
| EnvFile.FirstWins | tests/conftest.py:17-31 | a variable not set before ends up with its first definition in the file, and is set only when the file defines it |
| EnvFile.FirstDefinitionWins | tests/conftest.py:30-31 | of two lines for the same key the first one's value is kept |
| EnvFile.LoadEnvFile | tests/conftest.py:14-31 | a missing file changes nothing, and existing variables are never overwritten |
| Compose.RuntimeTarget | tests/integration/conftest.py:142 | the target is `KAMIWAZA_RUNTIME_HOST` stripped, else the stripped host alias, and never has whitespace at either end |
| Compose.DefaultTarget | tests/integration/conftest.py:51 | with neither variable set the target is `host.docker.internal` |
| Compose.RuntimeHost | tests/integration/conftest.py:140-145 | a loopback spelling is replaced by a non-empty target; any other host, or an empty target, leaves the host alone |
| Compose.RuntimeHostIdempotent | tests/integration/conftest.py:140-145 | rewriting an already rewritten host changes nothing |
| Compose.HostOf | tests/integration/conftest.py:154 | the host is the entry's prefix up to its first `:`, the whole entry when there is none |
| Compose.RewriteEntryShape | tests/integration/conftest.py:154-156 | a rewritten entry is the rewritten host followed by the rest of the entry verbatim; a kept host keeps the whole entry |
| Compose.RewriteEntryNoComma | tests/integration/conftest.py:154-156 | rewriting cannot introduce a `,` that neither the entry nor the target holds |
| Compose.EntriesClean | tests/integration/conftest.py:150-153 | every entry that survives is non-blank with no whitespace at either end |
| Compose.RewritePartsEntries | tests/integration/conftest.py:149-156 | the loop over the pieces is exactly a rewrite of each non-blank, stripped entry, in order |
| Compose.RuntimeBootstrapEntries | tests/integration/conftest.py:148-157 | splitting the rewritten list at `,` gives one rewritten entry per non-blank input entry, in input order |
| Compose.EmptyTargetKeepsList | tests/integration/conftest.py:143-157 | with an empty target a list of clean entries comes back unchanged |
| Compose.ComposePort | tests/integration/conftest.py:209-217 | the port parser as written raises `IndexError` exactly when the command succeeded with non-empty, all-whitespace output, and otherwise agrees with the corrected parser |
| Compose.NewlineOutputRaises | tests/integration/conftest.py:209-211 | output consisting of a single line break raises `IndexError` |
| Compose.ComposePortFixed | tests/integration/conftest.py:209-217 | a failed command or blank output gives no port; a port is only read from a first line holding `:` |
| Compose.ComposePortRoundTrip | tests/integration/conftest.py:211-215 | a printed `host:port` line reads back as that port, whatever `:`s the host holds |
| Compose.AddCandidates | tests/integration/conftest.py:89-96 | the loop only appends, and only given, non-empty host values |
| Compose.AddCandidatesDistinct | tests/integration/conftest.py:95-96 | no host is listed twice |
| Compose.AddCandidatesCover | tests/integration/conftest.py:95-96 | every given, non-empty host is listed |
| Compose.AddCandidatesAppend | tests/integration/conftest.py:90-96 | earlier candidates precede later ones: the loop over two runs of hosts is the loop over each in turn |
| Compose.AddCandidatesAgain | tests/integration/conftest.py:95-96 | offering the same hosts again adds nothing |
| Compose.CandidateHosts | tests/integration/conftest.py:89-96 | one to three distinct candidates, exactly the non-empty values of the two variables and the Podman socket |
| Compose.TryHosts | tests/integration/conftest.py:98-104 | the first candidate under which `docker info` succeeds is chosen, and none when no candidate works |
| Compose.Probe | tests/integration/conftest.py:79-111 | a missing CLI fails with its own message; an environment under which `docker info` already succeeds is kept as is; otherwise any success is the environment with `DOCKER_HOST` set to one of the candidate hosts, and always one under which `docker info` succeeds |
| Compose.ResolveComposeEnv | tests/integration/conftest.py:71-111 | a cached answer is returned again; otherwise a missing CLI, a working environment, a working candidate or the unavailable error is recorded, and a success is always an environment under which `docker info` succeeded |
| Compose.ResolveSticky | tests/integration/conftest.py:74-77 | once settled, later calls give the same answer whatever the environment or the daemon looks like |
| Compose.UnavailableMessage | tests/integration/conftest.py:106-110 | the recorded error quotes the last probe error when there is one |
| Compose.ComposeEnv | tests/integration/conftest.py:114-120 | the resolved environment with the extra variables overriding it; resolution errors pass through |
| Compose.VerifySslEnabled | tests/integration/conftest.py:220-221 | verification is off exactly when the variable is set and lower-cases to `false` |
| Compose.VerifySslAgrees | tests/integration/conftest.py:220-221 | the test harness and the client read the variable the same way |
| RecentCache.Find | kamiwaza_sdk/client.py:113 | the position of the URN's entry, absent exactly when the URN has no entry |
| RecentCache.Remove | kamiwaza_sdk/client.py:118 | the URN is forgotten, every other URN stays, and order and uniqueness are kept |
| RecentCache.Prune | kamiwaza_sdk/client.py:100-108 | only oldest entries are dropped, and what is left starts fresh and has at most 1024 entries |
| RecentCache.PruneSorted | kamiwaza_sdk/client.py:100-108 | in a time-ordered cache every kept entry is fresh, and exactly the oldest entries are dropped, up to the longest fresh, in-bound suffix |
| RecentCache.PruneKeepsFreshTail | kamiwaza_sdk/client.py:104-108 | a fresh newest entry is never pruned |
| RecentCache.PruneNothingToDo | kamiwaza_sdk/client.py:106-107 | a fresh cache within bound is left as it is |
| RecentCache.Touch | kamiwaza_sdk/client.py:90-98 | a non-empty URN ends up as the newest entry, stamped now, in a cache of at most 1024 entries; anything else changes nothing |
| RecentCache.TouchWf | kamiwaza_sdk/client.py:90-98 | stamping keeps one entry per URN, ordered by time, and adds no URN but the one stamped |
| RecentCache.Query | kamiwaza_sdk/client.py:110-121 | a positive answer leaves the cache alone; an empty or non-string URN is never recent |
| RecentCache.QueryWf | kamiwaza_sdk/client.py:110-121 | asking keeps the cache well formed, and a URN reported stale is gone afterwards |
| RecentCache.QueryAnswer | kamiwaza_sdk/client.py:110-121 | the answer is yes exactly when the URN has an entry stamped within 30 seconds |
| RecentCache.TouchThenQuery | kamiwaza_sdk/client.py:90-121 | right after a change, a later query says "recent" exactly when at most 30 seconds have passed |
| Client.RetryDelayMs | kamiwaza_sdk/client.py:44 | the `i`-th retry delay of the schedule, in milliseconds |
| Client.RetryWindow | kamiwaza_sdk/client.py:42-44 | the delays add up to five seconds and a call makes at most ten attempts |
| Client.ResolveBaseUrl | kamiwaza_sdk/client.py:60-66 | the argument, else `KAMIWAZA_BASE_URL`, else `KAMIWAZA_BASE_URI`, each skipped when empty, with trailing slashes removed; `ValueError` exactly when all three are missing or empty |
| Client.HasAuthenticator | kamiwaza_sdk/client.py:82-86 | an authenticator exists exactly when one is passed in or an API key comes from the argument or either variable |
| Client.SslVerificationDisabled | kamiwaza_sdk/client.py:70-73 | verification is off exactly when the variable is set and lower-cases to `false` |
| Client.SslDefaultEnabled | kamiwaza_sdk/client.py:71-72 | `FALSE` in capitals also switches verification off |
| Client.PathOf | kamiwaza_sdk/client.py:133 | the path never starts with a slash |
| Client.JoinUrl | kamiwaza_sdk/client.py:132 | the URL is the base, one slash, then the endpoint without its leading slashes |
| Client.JoinUrlLeadingSlash | kamiwaza_sdk/client.py:132 | a leading slash on the endpoint never changes the URL |
| Client.JoinUrlSamePath | kamiwaza_sdk/client.py:132-133 | on one base, two endpoints reach the same URL exactly when they name the same path once leading slashes are gone |
| Client.JoinUrlSingleSlash | kamiwaza_sdk/client.py:66-132 | with a resolved base URL the join has exactly one slash between base and path |
| Client.Decide | kamiwaza_sdk/client.py:166-230 | one pass refreshes exactly on the first 401 with an authenticator on an authenticated call, retries only an armed schema 404 with delays left, sleeping the next delay, leaves the loop exactly below 400, and raises `VectorDBUnavailableError` only on a `vectordb` path |
| Client.Loop | kamiwaza_sdk/client.py:157-230 | the loop ends with a response below 400 or with one of the request errors |
| Client.LoopAttempts | kamiwaza_sdk/client.py:157-230 | every pass sends once; passes continue only after the one refresh or a sleep |
| Client.LoopSleeps | kamiwaza_sdk/client.py:197-212 | sleeps follow the retry schedule from the current index, and there are none unless the retry is armed |
| Client.SchedulePrefix | kamiwaza_sdk/client.py:197-203 | sleeps taken from the start of the schedule are a prefix of it and add up to no more than five seconds |
| ClientRequest.Finish | kamiwaza_sdk/client.py:232-269 | without JSON the response itself; 204 gives nothing; a 2xx body that parses is returned; everything else raises |
| ClientRequest.FinishNever404 | kamiwaza_sdk/client.py:257-269 | after the loop a non-2xx status always ends in `APIError` with that status: the 404 test there is never reached |
| ClientRequest.ArmRetry | kamiwaza_sdk/client.py:144-151 | for a `PUT` with a truthy schema URN the result is the cache's answer for `str()` of that URN; another verb, a missing URN or a falsy one leaves the retry unarmed and the cache untouched |
| ClientRequest.PyStr | kamiwaza_sdk/client.py:151 | `str()` of a string is the string itself; floats, lists and dicts are rendered by the given `show` |
| ClientRequest.ArmRetryOnUrn | kamiwaza_sdk/client.py:144-151 | a `PUT` naming a non-empty URN asks the recent-change cache about exactly that URN |
| ClientRequest.Run | kamiwaza_sdk/client.py:140-269 | at most ten sends and one refresh, a refresh only with an authenticator on an authenticated call, sleeps a prefix of the schedule and only when armed, and only request errors are raised |
| ClientRequest.Request | kamiwaza_sdk/client.py:125-269 | the same bounds for the whole call, with the URL joined from the base and the cache as the arming query leaves it |
| ClientRequest.RunFollowsLoop | kamiwaza_sdk/client.py:140-269 | a call sends, refreshes and sleeps exactly as its loop does |
| RetryLoop.FirstAnswerDecides | kamiwaza_sdk/client.py:166-230 | an answer below 400 ends the loop after one attempt, with no refresh and no sleep |
| RetryLoop.TwoUnauthorized | kamiwaza_sdk/client.py:172-177 | two 401s with an authenticator: one refresh, then `AuthenticationError` |
| RetryLoop.UnauthorizedWithoutRefresh | kamiwaza_sdk/client.py:166-178 | a 401 on an unauthenticated call or without an authenticator raises at once without refreshing |
| RetryLoop.DashboardBeforeRetry | kamiwaza_sdk/client.py:189-195 | a dashboard-looking 404 raises `NonAPIResponseError` before any retry |
| RetryLoop.ErrorStatus | kamiwaza_sdk/client.py:214-228 | any other error status raises `VectorDBUnavailableError` exactly for a 501 on a `vectordb` path, else `APIError` with the status |
| RetryLoop.RetryPass | kamiwaza_sdk/client.py:197-212 | an armed schema 404 with delays left sends, sleeps the next delay and goes round again |
| RetryLoop.LastRetryFails | kamiwaza_sdk/client.py:197-228 | once the schedule is used up a schema 404 raises `APIError` 404 without sleeping |
| RetryLoop.RetriesExhausted | kamiwaza_sdk/client.py:197-228 | a schema 404 on every attempt sleeps each remaining delay in order, with one more attempt than sleeps, then raises `APIError` 404 |
| RetryLoop.FullRetryWindow | kamiwaza_sdk/client.py:197-228 | an armed retry against a dataset that never appears makes nine attempts over five seconds of sleeps, then raises `APIError` 404 |
| RetryLoop.SchemaNotFoundReply | kamiwaza_sdk/client.py:184-201 | the server's schema-not-found answer is JSON and does not look like the dashboard |
| ClientRequest.SchemaPutArms | kamiwaza_sdk/client.py:144-151 | the schema `PUT` for a URN arms the retry exactly as the cache's answer for that URN |
| ClientRequest.TouchedPutArmed | kamiwaza_sdk/client.py:144-151 | a schema `PUT` made within the 30-second time-to-live of a change to its dataset arms the retry |
| RetryLoop.RetryThenSuccess | kamiwaza_sdk/client.py:166-230 | an armed schema 404 then an answer below 400: the answer goes through after two attempts and one 100 ms sleep |
| ClientRequest.SchemaPutRetriesAfterTouch | kamiwaza_sdk/client.py:144-241 | a schema `PUT` within 30 seconds of a change to the dataset is retried once and returns the success body |
| ClientRequest.SchemaPutUnknownDataset | kamiwaza_sdk/client.py:144-228 | the same `PUT` for a dataset never changed raises `APIError` 404 after one attempt |
| ClientRequest.UnarmedNotFound | kamiwaza_sdk/client.py:197-228 | without the retry armed a schema 404 ends the loop at once |
| Rag.ParseMode | examples/interactive_rag.py:221-236 | `rechunk` and `around` are recognised exactly; every other value reads from the offset |
| Rag.SnippetSource | examples/interactive_rag.py:221-236 | a chunk is used exactly when re-chunking finds one; otherwise `around` and the fallback read `pre + post` bytes from no earlier than the file start, and `from` reads `post` bytes at the offset |
| Rag.ReadRange | examples/interactive_rag.py:37-38 | seek position and byte count are clamped at zero and otherwise kept |
| Rag.RechunkFallsBackToAround | examples/interactive_rag.py:231-234 | when re-chunking finds nothing the snippet is the one `around` reads |
| Rag.WindowNeverNegative | examples/interactive_rag.py:232-237 | no mode reads before the start of the file; with the defaults `around` reads 2500 bytes from 500 before the hit |
| Rag.TakenStep | examples/interactive_rag.py:217-246 | an unusable hit is passed over, a usable hit that does not fit ends the accumulation, one that fits is taken |
| Rag.TakenWithinBudget | examples/interactive_rag.py:241-246 | the parts taken never add up to more than the budget |
| Rag.ContextWithinBudget | examples/interactive_rag.py:241-246 | the parts of the built context add up to at most `max_total_chars` |
| Rag.TakenUsableInOrder | examples/interactive_rag.py:211-218 | only hits with an existing source are taken, in hit order |
| Rag.RefusalEndsAccumulation | examples/interactive_rag.py:242-243 | once a usable hit is refused no later hit is taken, however short |
| Rag.ContextStopsAtRefusal | examples/interactive_rag.py:242-243 | when a usable hit's part is left out every part in the context belongs to an earlier hit |
| Rag.SkippedHitKeepsNumber | examples/interactive_rag.py:211-238 | a skipped hit still uses up its number, so the first part can be headed `[Source 2]` |
| Rag.SingleHit | examples/interactive_rag.py:238-248 | one usable hit that fits is the whole context with one citation; one that does not fit gives an empty context |
| Rag.BuildContext | examples/interactive_rag.py:194-248 | the context is the parts of exactly the accepted hits joined by blank lines, with their citations in the same order |
| Rag.Suffix | examples/interactive_rag.py:21 | the suffix is empty or a dotted tail of the name that is not the whole name and holds no further dot |
| Rag.Kept | examples/interactive_rag.py:24-27 | only walked paths outside notebook checkpoints are kept |
| Rag.KeptPrefix | examples/interactive_rag.py:24-28 | walking further only adds paths at the end |
| Rag.ListMarkdownFiles | examples/interactive_rag.py:18-31 | a file root is listed alone when its suffix is `.md` in any case; a directory lists the first kept paths, at most `max_files` but at least one when one exists |
| Rag.HiddenNameIsNotMarkdown | examples/interactive_rag.py:20-23 | a file named exactly `.md` has no suffix and is not listed |
| Rag.UpperCaseSuffixIsMarkdown | examples/interactive_rag.py:21 | `README.MD` is listed |
| Serving.NewCreateDeployment | kamiwaza_client/schemas/serving/serving.py:8-22 | a request with only the two ids has one starting and minimum copy, port 0, autoscaling and CPU forcing off, and every optional field absent |
| Serving.AnyDeployed | kamiwaza_client/schemas/serving/serving.py:147-150 | available exactly when some instance has status `DEPLOYED` |
| Serving.FirstDeployed | kamiwaza_client/schemas/serving/serving.py:152-155 | the position of a deployed instance with none deployed before it, and none exactly when no instance is deployed |
| Serving.ActiveInstance | kamiwaza_client/schemas/serving/serving.py:152-155 | the active instance is the first deployed instance in list order: when the instance at some position is deployed and none before it is, that instance is the answer |
| Serving.FirstDeployedExists | kamiwaza_client/schemas/serving/serving.py:147-155 | a first deployed instance exists exactly when some instance is deployed |
| Serving.ActiveInstanceIffAvailable | kamiwaza_client/schemas/serving/serving.py:147-155 | there is an active instance exactly when the deployment is available |
| Serving.DeployedCount | kamiwaza_client/schemas/serving/serving.py:171-172 | the active count never exceeds the instance count |
| Serving.DeployedCountPositive | kamiwaza_client/schemas/serving/serving.py:150-171 | the active count is positive exactly when the deployment is available |
| Serving.DeployedCountAll | kamiwaza_client/schemas/serving/serving.py:171-173 | all instances are counted active exactly when all are deployed |
| Serving.PadRight | kamiwaza_client/schemas/serving/serving.py:181-186 | left alignment keeps the text as a prefix and pads to at least the field width |
| Serving.ActiveWidth | kamiwaza_client/schemas/serving/serving.py:159-164 | the box is at least 44 wide and wide enough for the name, the endpoint and the port, and no wider than the widest of them |
| Serving.StatusIcon | kamiwaza_client/schemas/serving/serving.py:167 | the filled circle appears exactly for an available deployment |
| Serving.ActiveLines | kamiwaza_client/schemas/serving/serving.py:179-188 | the box has eight lines |
| Serving.ActiveBoxAligned | kamiwaza_client/schemas/serving/serving.py:157-188 | borders, name, port and endpoint rows all have the same length; status and instance rows line up whenever their text fits |
| Serving.ActivePortRowFits | kamiwaza_client/schemas/serving/serving.py:162-176 | the width leaves room for the port row |
| Serving.ActiveEndpointRowFits | kamiwaza_client/schemas/serving/serving.py:161-177 | the width leaves room for the endpoint row |
| Serving.UiWidth | kamiwaza_client/schemas/serving/serving.py:101-105 | the UI box is at least 44 wide, wide enough for the name and endpoint, and no wider than the widest of them |
| Serving.UiStatusText | kamiwaza_client/schemas/serving/serving.py:108-109 | the UI icon is filled exactly when the record's own status is `DEPLOYED` |
| Serving.UiEndpointText | kamiwaza_client/schemas/serving/serving.py:115-117 | a missing or empty endpoint reads `Not available` |
| Serving.UiLines | kamiwaza_client/schemas/serving/serving.py:119-127 | the UI box has seven lines |
| Serving.UiBoxAligned | kamiwaza_client/schemas/serving/serving.py:99-127 | the UI box's borders, name row and endpoint row line up |
| ModelSearch.NormalizeHub | kamiwaza_sdk/schemas/models/model_search.py:54-66 | a Hugging Face alias in any case and with any surrounding whitespace becomes `HubsHf`; anything else is kept, stripped, with its case |
| ModelSearch.NormalizeHubIdempotent | kamiwaza_sdk/schemas/models/model_search.py:62-66 | normalising a normalised hub changes nothing |
| ModelSearch.NormalizeHubTrim | kamiwaza_sdk/schemas/models/model_search.py:62 | normalisation only looks at the stripped text |
| ModelSearch.NormalizeToCanonical | kamiwaza_sdk/schemas/models/model_search.py:62-66 | a hub becomes the canonical `HubsHf` exactly when its stripped text is a Hugging Face alias in some case, so no other hub is ever renamed to it |
| ModelSearch.SearchRequest | kamiwaza_sdk/schemas/models/model_search.py:8-12 | a search request with only a query is inexact, limited to 100 results and names no hubs |
| ModelSearch.DumpSearch | kamiwaza_sdk/schemas/models/model_search.py:8-12 | the dump has the four fields holding the given query, `exact` and limit; `hubs_to_search` is null exactly when no hubs are named and otherwise lists them |
| ModelSearch.DefaultSearchDump | kamiwaza_sdk/schemas/models/model_search.py:8-12 | the dump of a bare request without its `None` values holds only the query, `exact` and `limit` |
| Cli.FormatModelName | kamiwaza_client/cli/utils.py:20-25 | the friendly name is no longer than the last path segment, holds no `/` and no upper-case letter |
| Cli.FormatIgnoresOwner | kamiwaza_client/cli/utils.py:25 | any owner prefix before the last `/` is ignored |
| Cli.FormatQwen | kamiwaza_client/cli/utils.py:23 | the documented example `Qwen/Qwen2.5-7B-Instruct-GGUF` gives `qwen2.5-7b-instruct` |
| Cli.DropGgufSuffix | kamiwaza_client/cli/utils.py:25 | removing `-gguf` from a name with no `g` before its final `-gguf`, and no `-` right before it, drops just that suffix |
| Cli.HandleError | kamiwaza_client/cli/utils.py:27-36 | a command's own result passes through; any exception becomes exit status 1 |
| Cli.RunGuard | kamiwaza_client/cli/commands.py:32-36 | an unknown model name ends `run` with status 1; a known one gives its repository id |
| Cli.ModelMapNamesFormat | kamiwaza_client/cli/commands.py:12-14 | every name `run` accepts is the friendly name of its repository |
| Cli.AllDownloadsComplete | kamiwaza_client/cli/commands.py:63-64 | complete exactly when every file is at 100 percent |
| Cli.NoFilesComplete | kamiwaza_client/cli/commands.py:63-81 | a poll that reports no files ends the wait |
| Cli.ChooseConfig | kamiwaza_client/cli/commands.py:89 | an empty config list raises `IndexError`; otherwise the choice is the first config flagged default, or the first config when none is flagged |
| Cli.FirstDefault | kamiwaza_client/cli/commands.py:89 | the first config flagged default, absent exactly when none is |
| Cli.ChooseConfigDefault | kamiwaza_client/cli/commands.py:89 | the choice is flagged default exactly when some config is; when a config is flagged and no earlier one is, it is chosen; when none is, the first config is chosen |
| Cli.EndpointUrl | kamiwaza_client/cli/commands.py:20-25 | `Not available` without a serve path, else the base URL directly followed by the path |
| Cli.FindForStop | kamiwaza_client/cli/commands.py:150-155 | the first deployment whose name matches ignoring case or whose id matches exactly, absent exactly when none does |
| Cli.StopCmd | kamiwaza_client/cli/commands.py:144-164 | status 1 and nothing stopped exactly when no deployment matches; otherwise status 0 and the id of the first matching deployment in list order is stopped |
| Cli.StopIgnoresCase | kamiwaza_client/cli/commands.py:152 | letter case in the name does not change which deployment is stopped |

## Left out

- The HTTP transport is left out: `requests`, sessions, SSL warnings and logging. Every service call goes through a `send` parameter, and the request loop reads a script of replies. A script that runs out stands for a connection error.
- The authenticator classes are not part of this model. A token refresh is an event in the loop's trace, and whether a client has an authenticator is a flag.
- `time.monotonic` and `time.sleep` become a clock argument and recorded sleeps. The float delays of the retry schedule become whole milliseconds.
- Floating-point values are carried as opaque JSON numbers. This covers vector contents, scores, VRAM and GPU allocations, and the average download progress.
- Pydantic's parsing of UUIDs and datetimes is a parameter. So is the `UUID(...)` call of `_ensure_uuid`.
- `Text.Lower` and `Text.Upper` change ASCII letters only. Python's full Unicode case mapping is not modelled.
- `_runtime_endpoint` (tests/integration/conftest.py:123-137) is left out because it depends on `urllib.parse.urlparse`.
- The subprocess, socket and fixture code of the integration harness is left out: running `docker`, `docker info` itself, port probing and reservation. `docker info` appears only as its outcome, a predicate on environments.
- `RUNTIME_HOST_ALIAS` is read once when the module is imported. `Compose.RuntimeTarget` reads it from the same environment as `KAMIWAZA_RUNTIME_HOST`.
- Pure pass-through services are left out because they have no shaping logic of their own: the legacy `kamiwaza_client` package, ingestion, token, policy and retrieval.
- The other `ContextService` calls are not modelled one by one. These are health, the vector database list, get, scale and delete, ontologies, knowledge, memory, collections, pipeline job create, get and cancel, the supported file types, search and retrieve. They use the same workroom header and parameter helpers that `Context.MergeHeaders` and `Context.WorkroomParams` model.
- The legacy flat module `kamiwaza_sdk/services/oauth_broker.py` is left out. It duplicates the `oauth_broker` package with different rules. Only the package (`base.py`, `proxy.py`) is modelled.
- The token cache of `kamiwaza_sdk/cli.py` is left out because it needs the filesystem and the clock.
- Schemas without constraints are plain records with nothing to prove. These are the remaining catalog models and the enclaves, vectordb, model, model file, downloads and embedding schemas. The catalog's `Schema` and `SchemaField` are modelled, because they are dumped nested.
- `reveal_secrets`, applied to the secret-creation body, is not part of this model. The body is passed through as given.
- Workrooms.LaxInt: a text is accepted only as an optional sign and plain decimal digits between Python whitespace. Texts with `_` separators are rejected, and so are texts with a zero fraction such as `"5.0"`; whatever pydantic's own integer parser does with these, and with whitespace outside Python's set, is not modelled. Decimal values and texts over pydantic's length bound are not modelled either.
- Workrooms.Counter: inherits the text cases `Workrooms.LaxInt` leaves out.
- Workrooms.Counts: inherits the text cases `Workrooms.LaxInt` leaves out.
- Workrooms.ParseSummary: inherits the text cases `Workrooms.LaxInt` leaves out.
- Rag.BuildContext: the snippet text is an input. Re-chunking is a parameter, and so is whether the source file exists. The UTF-8 decoding of the byte window, with its fallback, is not modelled. The model states which window is read (`Rag.ReadRange`), not what it decodes to. Hit metadata is taken to be absent or well-typed: `Rag.Offset` reads a missing offset as 0 and `Rag.FileName` a missing file name as "". An explicit `null` offset makes `int()` raise `TypeError` for the whole call, even on a hit that would be skipped. A numeric text offset such as `"12"` is accepted by `int()`. A `null` file name is printed as `None`. None of these three cases is modelled.
- Rag.ListMarkdownFiles: the recursive walk of `rglob` is an input sequence of paths in walk order.
- OAuthBroker.UpdateAppBody: does not reject unknown fields. The update model forbids extra fields just as the create model does, but the modelled keyword arguments cannot carry one. `OAuthBroker.CreateAppBody` models the rejection.
- ClientRequest.Finish: the 404 HTML test after the loop (kamiwaza_sdk/client.py:257-264) is kept as written. `ClientRequest.FinishNever404` shows it can never fire, because the loop raises on every status of 400 or above.
- Common.DropNone: values inside free-form `Dict[str, Any]` fields (properties, extras) are carried as given. The model does not filter inside them.
- Catalog.SchemaRoundTrip: validation (`Catalog.LoadSchema`) is modelled for JSON that already has the declared types. Pydantic's lax coercions, such as a numeric string for `version`, are not modelled. The round trip is stated for extras that hold no `None` and no declared name.
- ClientRequest.PyStr: Python's `str()` of floats, lists and dicts is the parameter `show`. Only strings, integers, booleans and `None` are rendered exactly.
- Text.ParseInt: only the decimal form accepted by `int()` is modelled: surrounding whitespace, a sign, digits and single underscores. Non-ASCII digits are not.
- Serving: string lengths count Unicode code points, as Python's `len` does. How wide the box-drawing characters and emoji render on a terminal is not modelled.

## Findings

| source | as written | input that shows it | evidently intended | confidence | as-written member | corrected member |
|---|---|---|---|---|---|---|
| tests/conftest.py:119-137 | `DummyAPIClient` has `get`, `post`, `patch` and `delete` but no `put`. The connector round trip (tests/unit/test_enclaves_service.py:128-141) and the vector-database update test (tests/unit/test_context_service.py:99-114) register a `put` response, and the services call `client.put`, which raises `AttributeError` | `ConnectorClient.update` on a stub whose responses hold `("put", "/enclaves/connectors/<id>")` | a `put` that records the call and replays the canned response like the other verbs | not executed | DummyClient.PutNotDispatched | DummyClient.FixedPutReplays |
| tests/integration/conftest.py:209-211 | a successful `docker compose port` whose output is only whitespace passes the `not result.stdout` test. `strip().splitlines()` is then empty, and `[0]` raises `IndexError` outside the `try` | return code 0 with output `"\n"` | no port (`None`), as for empty output | not executed | Compose.NewlineOutputRaises | Compose.ComposePortRoundTrip |

=== FILE: authz.dfy ===
/** `AuthzService`: relationship tuples are written and deleted with their
    `None` fields dropped and a tenant filled in only where the relationship
    does not name one; access checks send the request in full. Pydantic
    models are carried as their field maps. */
module Authz {
  import opened Common

  const TenantKey := "tenant_id"

  /** The body of a tuple call: the relationship without its `None` fields,
      plus `tenant_id` when a non-empty tenant is given and the relationship
      has none of its own. */
  function TenantPayload(relationship: map<string, Json>, tenantId: Option<string>): (p: map<string, Json>)
    ensures forall k :: k != TenantKey ==> (k in p <==> k in relationship && relationship[k] != JNull)
    ensures forall k :: k in p && k != TenantKey ==> p[k] == relationship[k]
    ensures TenantKey in p <==> (TenantKey in relationship && relationship[TenantKey] != JNull) || Truthy(tenantId)
    ensures TenantKey in relationship && relationship[TenantKey] != JNull ==> p[TenantKey] == relationship[TenantKey]
    ensures (TenantKey !in relationship || relationship[TenantKey] == JNull) && Truthy(tenantId) ==>
      p[TenantKey] == JStr(tenantId.value)
    ensures forall k :: k in p ==> p[k] != JNull
  {
    var payload := DropNone(relationship);
    if Truthy(tenantId) && TenantKey !in payload then payload[TenantKey := JStr(tenantId.value)] else payload
  }

  /** Building the body from a body already built, with the same tenant or any
      other, changes nothing: the tenant it carries is never replaced. */
  lemma TenantPayloadStable(relationship: map<string, Json>, t1: Option<string>, t2: Option<string>)
    ensures TenantKey in TenantPayload(relationship, t1) ==>
      TenantPayload(TenantPayload(relationship, t1), t2) == TenantPayload(relationship, t1)
    ensures TenantPayload(TenantPayload(relationship, t1), t1) == TenantPayload(relationship, t1)
  {
    var once := TenantPayload(relationship, t1);
    assert TenantPayload(once, t1).Keys == once.Keys;
    if TenantKey in once {
      assert TenantPayload(once, t2).Keys == once.Keys;
    }
  }

  /** A relationship whose own tenant is `None` takes the given tenant: the
      `None` field is dropped before the tenant is considered. */
  lemma NullTenantReplaced(relationship: map<string, Json>, tenant: string)
    requires TenantKey in relationship && relationship[TenantKey] == JNull
    requires tenant != ""
    ensures TenantPayload(relationship, Some(tenant))[TenantKey] == JStr(tenant)
  {
  }

  /** The tuple endpoints. */
  datatype TupleOp = UpsertTuple | DeleteTuple | DeleteObject

  /** The tuple calls post or delete the payload and do not decode the
      response (`expect_json=False`). */
  function TupleCall(op: TupleOp, relationship: map<string, Json>, tenantId: Option<string>): (c: Call)
    ensures c.verb == (if op.UpsertTuple? then Post else Delete)
    ensures c.path == (if op.DeleteObject? then "/auth/tuples/object" else "/auth/tuples")
    ensures c.body == Pass(JObj(TenantPayload(relationship, tenantId)))
    ensures c.rawResponse
    ensures c.params.Omitted? && c.headers.Omitted? && c.files.None?
  {
    var path := if op.DeleteObject? then "/auth/tuples/object" else "/auth/tuples";
    var verb := if op.UpsertTuple? then Post else Delete;
    Bare(verb, path).(body := Pass(JObj(TenantPayload(relationship, tenantId))), rawResponse := true)
  }

  /** Upserting and deleting the same tuple send the same body to the same
      path and differ only in the verb. */
  lemma UpsertDeleteSymmetric(relationship: map<string, Json>, tenantId: Option<string>)
    ensures TupleCall(UpsertTuple, relationship, tenantId).(verb := Delete) ==
            TupleCall(DeleteTuple, relationship, tenantId)
  {
  }

  /** `check_access`: the request is dumped in full, `None` fields included,
      and the response is decoded. */
  function CheckAccess(request: map<string, Json>): (c: Call)
    ensures c.verb == Post && c.path == "/auth/check"
    ensures c.body.Pass? && c.body.value.JObj?
    ensures BodyFields(c).Keys == request.Keys
    ensures forall k :: k in request ==> BodyFields(c)[k] == request[k]
    ensures !c.rawResponse && c.params.Omitted? && c.headers.Omitted? && c.files.None?
  {
    Bare(Post, "/auth/check").(body := Pass(JObj(request)))
  }

  /** Unlike a tuple call, an access check keeps a `None` field. */
  lemma CheckKeepsNone(request: map<string, Json>, k: string)
    requires k in request && request[k] == JNull
    ensures k in BodyFields(CheckAccess(request))
    ensures k !in TenantPayload(request, None)
  {
  }
}

=== FILE: catalog.dfy ===
/** The catalog service wrappers (`DatasetClient`, `ContainerClient`,
    `SecretClient`, `CatalogService`): which path, query parameters and body
    each call carries, the percent-encoding of URNs for path segments, and the
    create-then-fetch sequence of `create_dataset`. */
module Catalog {
  import opened Common
  import opened Text
  import PercentEncoding
  import ClientRequest
  import DummyClient
  import RecentCache

  datatype Collection = Datasets | Containers | Secrets

  /** `_BASE_PATH` of each sub-client. */
  function BasePath(k: Collection): (p: string)
    ensures |p| > 9 && p[..9] == "/catalog/"
  {
    match k
    case Datasets => "/catalog/datasets"
    case Containers => "/catalog/containers"
    case Secrets => "/catalog/secrets"
  }

  lemma BasePathsDiffer(k1: Collection, k2: Collection)
    requires k1 != k2
    ensures BasePath(k1) != BasePath(k2)
  {
    assert BasePath(k1)[9] != BasePath(k2)[9];
  }

  // ---------------------------------------------------------------- path segments

  /** `_encode_path_segment` (and so `encode_path_urn` and `encode_urn`):
      `quote(value, safe="")`. The result decodes back to the URN, is made of
      unreserved characters and `%XX` escapes only, never holds a path or
      URN delimiter, and equals the URN exactly when the URN needed no
      escaping. */
  function EncodePathUrn(urn: string): (r: string)
    ensures PercentEncoding.Unquote(r) == Some(urn)
    ensures PercentEncoding.IsEncoded(r)
    ensures forall i :: 0 <= i < |r| ==> r[i] !in {'/', '(', ')', ',', ':', ' '}
    ensures r == urn <==> PercentEncoding.AllUnreserved(urn)
  {
    var r := PercentEncoding.Quote(urn);
    PercentEncoding.QuoteRoundTrip(urn);
    PercentEncoding.QuoteEncoded(urn);
    PercentEncoding.QuoteIdentity(urn);
    assert forall i :: 0 <= i < |r| ==> r[i] !in {'/', '(', ')', ',', ':', ' '} by {
      forall i | 0 <= i < |r| ensures r[i] !in {'/', '(', ')', ',', ':', ' '} {
        PercentEncoding.ReservedEscaped(urn, i);
      }
    }
    r
  }

  /** Two URNs share an encoded segment only if they are the same URN. */
  lemma EncodePathUrnInjective(a: string, b: string)
    requires EncodePathUrn(a) == EncodePathUrn(b)
    ensures a == b
  {
  }

  /** An opening parenthesis inside a URN shows up as `%28` in its segment,
      with the text on either side encoded on its own. */
  lemma EncodedParen(a: string, b: string)
    ensures EncodePathUrn(a + "(" + b) == EncodePathUrn(a) + "%28" + EncodePathUrn(b)
  {
    PercentEncoding.QuoteAppend(a + "(", b);
    PercentEncoding.QuoteAppend(a, "(");
    PercentEncoding.EscapeExamples();
  }

  // ---------------------------------------------------------------- schemas

  /** `SchemaField`: one column of a dataset schema. The model accepts keys
      beyond its declared ones; `extra` holds them. */
  datatype SchemaField = SchemaField(name: string, kind: string, description: Option<string>, extra: map<string, Json>)

  /** `Schema`: a dataset schema with an optional version, also open to
      extra keys. */
  datatype Schema = Schema(name: string, platform: string, version: Option<int>, fields: seq<SchemaField>,
                           extra: map<string, Json>)

  const FieldKeys: set<string> := {"name", "type", "description"}
  const SchemaKeys: set<string> := {"name", "platform", "version", "fields"}

  /** The extra keys of a model: a declared name is never an extra. */
  function Extras(m: map<string, Json>, declared: set<string>): (r: map<string, Json>)
    ensures forall k :: k in r <==> k in m && k !in declared
    ensures forall k :: k in r ==> r[k] == m[k]
  {
    map k | k in m && k !in declared :: m[k]
  }

  /** Extras a dump keeps as they are: no declared name and no `None`. */
  predicate CleanExtras(m: map<string, Json>, declared: set<string>) {
    forall k :: k in m ==> k !in declared && m[k] != JNull
  }

  predicate CleanSchema(s: Schema) {
    && CleanExtras(s.extra, SchemaKeys)
    && forall i :: 0 <= i < |s.fields| ==> CleanExtras(s.fields[i].extra, FieldKeys)
  }

  /** No value of the object is `None`. */
  predicate NullFree(m: map<string, Json>) {
    forall k :: k in m ==> m[k] != JNull
  }

  /** `SchemaField.model_dump(exclude_none=True)`: name and type always, the
      description only when it is given, and the extra keys whose value is
      not `None`. */
  function DumpField(f: SchemaField): (m: map<string, Json>)
    ensures "name" in m && m["name"] == JStr(f.name)
    ensures "type" in m && m["type"] == JStr(f.kind)
    ensures "description" in m <==> f.description.Some?
    ensures "description" in m ==> m["description"] == JStr(f.description.value)
    ensures NullFree(m)
  {
    DropNone(Extras(f.extra, FieldKeys) + map["name" := JStr(f.name), "type" := JStr(f.kind),
                                             "description" := JsonOrNull(OptStr(f.description))])
  }

  function DumpFields(fs: seq<SchemaField>): (items: seq<Json>)
    ensures |items| == |fs|
    ensures forall i :: 0 <= i < |fs| ==> items[i] == JObj(DumpField(fs[i]))
  {
    seq(|fs|, i requires 0 <= i < |fs| => JObj(DumpField(fs[i])))
  }

  /** `Schema.model_dump(exclude_none=True)`. Pydantic carries `exclude_none`
      into nested models, so a field without a description loses that key
      just as a schema without a version loses `version`: no `None` is left
      at either level. */
  function DumpSchema(s: Schema): (m: map<string, Json>)
    ensures "name" in m && m["name"] == JStr(s.name)
    ensures "platform" in m && m["platform"] == JStr(s.platform)
    ensures "version" in m <==> s.version.Some?
    ensures "version" in m ==> m["version"] == JInt(s.version.value)
    ensures "fields" in m && m["fields"] == JArr(DumpFields(s.fields))
    ensures NullFree(m)
    ensures forall i :: 0 <= i < |s.fields| ==> NullFree(m["fields"].items[i].fields)
  {
    DropNone(Extras(s.extra, SchemaKeys) + map["name" := JStr(s.name), "platform" := JStr(s.platform),
                                              "version" := JsonOrNull(OptInt(s.version)),
                                              "fields" := JArr(DumpFields(s.fields))])
  }

  /** An optional string field as validation reads it: missing or `None` is
      `None`, a string is that string, anything else is rejected. */
  function LoadOptStr(m: map<string, Json>, key: string): Option<Option<string>> {
    if key !in m || m[key] == JNull then Some(None)
    else if m[key].JStr? then Some(Some(m[key].s))
    else None
  }

  function LoadOptInt(m: map<string, Json>, key: string): Option<Option<int>> {
    if key !in m || m[key] == JNull then Some(None)
    else if m[key].JInt? then Some(Some(m[key].i))
    else None
  }

  /** `SchemaField.model_validate` on JSON whose values already have the
      declared types. */
  function LoadField(j: Json): (r: Option<SchemaField>)
    ensures r.Some? ==> j.JObj? && "name" in j.fields && j.fields["name"] == JStr(r.value.name)
  {
    if j.JObj? && "name" in j.fields && j.fields["name"].JStr? && "type" in j.fields && j.fields["type"].JStr?
       && LoadOptStr(j.fields, "description").Some?
    then Some(SchemaField(j.fields["name"].s, j.fields["type"].s, LoadOptStr(j.fields, "description").value,
                          Extras(j.fields, FieldKeys)))
    else None
  }

  function LoadFields(items: seq<Json>): (r: Option<seq<SchemaField>>)
    ensures r.Some? ==> |r.value| == |items|
  {
    if items == [] then Some([])
    else
      match (LoadField(items[0]), LoadFields(items[1..]))
      case (Some(f), Some(fs)) => Some([f] + fs)
      case _ => None
  }

  /** `Schema.model_validate`, as `get_schema` applies it to the response. */
  function LoadSchema(j: Json): (r: Option<Schema>)
    ensures r.Some? ==> j.JObj? && "fields" in j.fields && j.fields["fields"].JArr?
  {
    if j.JObj? && "name" in j.fields && j.fields["name"].JStr? && "platform" in j.fields && j.fields["platform"].JStr?
       && LoadOptInt(j.fields, "version").Some? && "fields" in j.fields && j.fields["fields"].JArr?
       && LoadFields(j.fields["fields"].items).Some?
    then Some(Schema(j.fields["name"].s, j.fields["platform"].s, LoadOptInt(j.fields, "version").value,
                     LoadFields(j.fields["fields"].items).value, Extras(j.fields, SchemaKeys)))
    else None
  }

  /** A dumped field reads back as the field it came from. */
  lemma FieldRoundTrip(f: SchemaField)
    requires CleanExtras(f.extra, FieldKeys)
    ensures LoadField(JObj(DumpField(f))) == Some(f)
  {
    var m := DumpField(f);
    assert Extras(m, FieldKeys) == f.extra;
  }

  lemma {:induction false} FieldsRoundTrip(fs: seq<SchemaField>)
    requires forall i :: 0 <= i < |fs| ==> CleanExtras(fs[i].extra, FieldKeys)
    ensures LoadFields(DumpFields(fs)) == Some(fs)
  {
    if fs != [] {
      FieldRoundTrip(fs[0]);
      FieldsRoundTrip(fs[1..]);
      assert DumpFields(fs)[1..] == DumpFields(fs[1..]);
      assert [fs[0]] + fs[1..] == fs;
    }
  }

  /** A dumped schema reads back as the schema it came from: dropping the
      `None` fields at both levels loses nothing validation cannot restore. */
  lemma SchemaRoundTrip(s: Schema)
    requires CleanSchema(s)
    ensures LoadSchema(JObj(DumpSchema(s))) == Some(s)
  {
    var m := DumpSchema(s);
    FieldsRoundTrip(s.fields);
    SchemaExtrasKept(s);
    assert LoadOptInt(m, "version") == Some(s.version);
  }

  lemma SchemaExtrasKept(s: Schema)
    requires CleanExtras(s.extra, SchemaKeys)
    ensures Extras(DumpSchema(s), SchemaKeys) == s.extra
  {
  }

  // ---------------------------------------------------------------- calls

  /** Every call a catalog wrapper makes. Payloads are the models' own fields
      with `None` as `JNull`; a nested dataset schema in them is already
      dumped by `DumpSchema`, since pydantic dumps nested models with the same
      `exclude_none`. The secret body is the payload after `reveal_secrets`,
      which is not part of this model. */
  datatype Op =
    | CreateDataset(payload: map<string, Json>)
    | CreateContainer(payload: map<string, Json>)
    | CreateSecret(body: map<string, Json>, clobber: bool)
    | List(kind: Collection, query: Option<string>)
    | GetItem(kind: Collection, urn: string)
    | UpdateDataset(urn: string, update: map<string, Json>)
    | UpdateContainer(urn: string, update: map<string, Json>)
    | DeleteItem(kind: Collection, urn: string)
    | GetSchema(urn: string)
    | UpdateSchema(urn: string, schema: Schema)
    | AddDataset(containerUrn: string, datasetUrn: string)
    | RemoveDataset(containerUrn: string, datasetUrn: string)
    | Health
    | Metadata

  predicate ByUrn(op: Op) {
    op.GetItem? || op.UpdateDataset? || op.UpdateContainer? || op.DeleteItem? || op.GetSchema? || op.UpdateSchema?
  }

  /** `str(clobber).lower()`. */
  function ClobberFlag(clobber: bool): (t: string)
    ensures t == "true" <==> clobber
    ensures t == "false" <==> !clobber
  {
    Lower(if clobber then "True" else "False")
  }

  /** The list query: `{"query": q}` when `q` is truthy, otherwise `None`. */
  function QueryParams(query: Option<string>): (k: Kw<map<string, Json>>)
    ensures k.Pass? <==> Truthy(query)
    ensures k.Pass? ==> k.value == map["query" := JStr(query.value)]
    ensures !k.Pass? ==> k.PassNone?
  {
    if Truthy(query) then Pass(map["query" := JStr(query.value)]) else PassNone
  }

  function UrnParams(urn: string): Kw<map<string, Json>> {
    Pass(map["urn" := JStr(urn)])
  }

  /** The path of a call made by urn: the collection's `by-urn` route. */
  function ByUrnPath(k: Collection, suffix: string): string {
    BasePath(k) + "/by-urn" + suffix
  }

  /** `create`: post the non-`None` fields of the payload to the collection. */
  function CreateCall(k: Collection, payload: map<string, Json>): (c: Call)
    ensures c.verb == Post && c.path == BasePath(k) + "/"
  {
    Call(Post, BasePath(k) + "/", Omitted, Pass(JObj(DropNone(payload))), Omitted, None, false)
  }

  /** `get`: fetch an item by its URN, given as a query parameter. */
  function GetCall(k: Collection, urn: string): (c: Call)
    ensures c.verb == Get && c.path == BasePath(k) + "/by-urn"
  {
    Call(Get, ByUrnPath(k, ""), UrnParams(urn), Omitted, Omitted, None, false)
  }

  /** The call each wrapper makes. */
  function CallOf(op: Op): (c: Call)
    ensures c.verb == Put <==> op.UpdateSchema?
    ensures c.headers.Omitted? && c.files.None? && !c.rawResponse
    ensures op.List? ==> c.verb == Get && c.path == BasePath(op.kind) + "/" && c.params == QueryParams(op.query)
    ensures ByUrn(op) ==> c.params == UrnParams(op.urn)
    ensures op.CreateSecret? ==> c.params == Pass(map["clobber" := JStr(ClobberFlag(op.clobber))])
    ensures op.CreateDataset? || op.CreateContainer? ==> c.verb == Post && c.body == Pass(JObj(DropNone(op.payload)))
    ensures op.UpdateDataset? || op.UpdateContainer? ==> c.verb == Patch && c.body == Pass(JObj(DropNone(op.update)))
    ensures op.UpdateSchema? ==> c.body == Pass(JObj(DumpSchema(op.schema)))
  {
    match op
    case CreateDataset(p) => CreateCall(Datasets, p)
    case CreateContainer(p) => CreateCall(Containers, p)
    case CreateSecret(b, clobber) =>
      Call(Post, BasePath(Secrets) + "/", Pass(map["clobber" := JStr(ClobberFlag(clobber))]), Pass(JObj(b)), Omitted, None, false)
    case List(k, q) => Call(Get, BasePath(k) + "/", QueryParams(q), Omitted, Omitted, None, false)
    case GetItem(k, urn) => GetCall(k, urn)
    case UpdateDataset(urn, u) => Call(Patch, ByUrnPath(Datasets, ""), UrnParams(urn), Pass(JObj(DropNone(u))), Omitted, None, false)
    case UpdateContainer(urn, u) => Call(Patch, ByUrnPath(Containers, ""), UrnParams(urn), Pass(JObj(DropNone(u))), Omitted, None, false)
    case DeleteItem(k, urn) => Call(Delete, ByUrnPath(k, ""), UrnParams(urn), Omitted, Omitted, None, false)
    case GetSchema(urn) => Call(Get, ByUrnPath(Datasets, "/schema"), UrnParams(urn), Omitted, Omitted, None, false)
    case UpdateSchema(urn, s) => Call(Put, ByUrnPath(Datasets, "/schema"), UrnParams(urn), Pass(JObj(DumpSchema(s))), Omitted, None, false)
    case AddDataset(cu, du) =>
      Call(Post, ByUrnPath(Containers, "/datasets"), Pass(map["container_urn" := JStr(cu)]),
           Pass(JObj(map["dataset_urn" := JStr(du)])), Omitted, None, false)
    case RemoveDataset(cu, du) =>
      Call(Delete, ByUrnPath(Containers, "/datasets"),
           Pass(map["container_urn" := JStr(cu), "dataset_urn" := JStr(du)]), Omitted, Omitted, None, false)
    case Health => Bare(Get, "/catalog/health")
    case Metadata => Bare(Get, "/catalog/")
  }

  /** A list with no query and a list with an empty query are the same call,
      and two non-empty queries give the same call only when they are equal. */
  lemma ListQueryDistinguishes(k: Collection, q1: Option<string>, q2: Option<string>)
    ensures CallOf(List(k, Some(""))) == CallOf(List(k, None))
    ensures Truthy(q1) && Truthy(q2) && CallOf(List(k, q1)) == CallOf(List(k, q2)) ==> q1 == q2
  {
    if Truthy(q1) && Truthy(q2) && CallOf(List(k, q1)) == CallOf(List(k, q2)) {
      assert map["query" := JStr(q1.value)]["query"] == JStr(q1.value);
    }
  }

  // ---------------------------------------------------------------- request loop

  /** The method name the client passes to `_request`. */
  function HttpMethod(v: Verb): string {
    match v
    case Get => "GET"
    case Post => "POST"
    case Put => "PUT"
    case Patch => "PATCH"
    case Delete => "DELETE"
  }

  lemma UpperMethod(v: Verb)
    ensures Upper(HttpMethod(v)) == "PUT" <==> v == Put
  {
    var m := HttpMethod(v);
    if v != Put && |m| == 3 {
      assert Upper(m)[0] != 'P';
    }
    if v == Put {
      assert Upper(m) == "PUT";
    }
  }

  /** How the client sees a wrapper's call: a `params` value that is not a
      map (omitted or `None`) counts as no parameters. */
  function SpecOf(c: Call): ClientRequest.RequestSpec {
    ClientRequest.RequestSpec(HttpMethod(c.verb), c.path, if c.params.Pass? then Some(c.params.value) else None,
                       !c.rawResponse, false)
  }

  /** Of all catalog calls, only a schema update with a non-empty URN can arm
      the client's schema retry. */
  lemma OnlySchemaUpdateArms(op: Op, recent: RecentCache.Cache, now: nat, show: Json -> string)
    ensures ClientRequest.ArmRetry(recent, SpecOf(CallOf(op)), now, show).0 ==> op.UpdateSchema? && op.urn != ""
  {
    var c := CallOf(op);
    UpperMethod(c.verb);
    if c.verb != Put {
      NotPutNotArmed(SpecOf(c), recent, now, show);
    } else if op.urn == "" {
      assert SpecOf(c).params == Some(map["urn" := JStr("")]);
      EmptyUrnNotArmed(SpecOf(c), recent, now, show);
    }
  }

  lemma NotPutNotArmed(q: ClientRequest.RequestSpec, recent: RecentCache.Cache, now: nat, show: Json -> string)
    requires Upper(q.verb) != "PUT"
    ensures !ClientRequest.ArmRetry(recent, q, now, show).0
  {
  }

  lemma EmptyUrnNotArmed(q: ClientRequest.RequestSpec, recent: RecentCache.Cache, now: nat, show: Json -> string)
    requires q.params == Some(map["urn" := JStr("")])
    ensures !ClientRequest.ArmRetry(recent, q, now, show).0
  {
    assert ClientRequest.SchemaUrn(q).Some? ==> ClientRequest.SchemaUrn(q).value == JStr("");
  }

  /** A schema update is exactly the `PUT` the retry logic watches for: it is
      armed precisely when the dataset changed recently. */
  lemma UpdateSchemaArms(recent: RecentCache.Cache, urn: string, schema: Schema, now: nat, show: Json -> string)
    requires urn != ""
    ensures ClientRequest.ArmRetry(recent, SpecOf(CallOf(UpdateSchema(urn, schema))), now, show)
      == RecentCache.Query(recent, Some(urn), now)
  {
    UpdateSchemaSpec(urn, schema);
    ClientRequest.SchemaPutArms(recent, urn, now, show);
  }

  /** The request a schema update makes is the schema `PUT` of its URN. */
  lemma UpdateSchemaSpec(urn: string, schema: Schema)
    ensures SpecOf(CallOf(UpdateSchema(urn, schema))) == ClientRequest.SchemaPut(urn)
  {
    var c := CallOf(UpdateSchema(urn, schema));
    assert c.path == ByUrnPath(Datasets, "/schema") && c.params == UrnParams(urn);
    SchemaRoute();
  }

  lemma SchemaRoute()
    ensures ByUrnPath(Datasets, "/schema") == "/catalog/datasets/by-urn/schema"
  {
  }

  // ---------------------------------------------------------------- create_dataset

  /** The arguments of `CatalogService.create_dataset`; `None` for an
      argument stands for "not given". */
  datatype DatasetArgs = DatasetArgs(
    name: string,
    platform: string,
    environment: Option<string>,
    description: Option<string>,
    tags: Option<seq<string>>,
    properties: Option<map<string, Json>>,
    containerUrn: Option<string>,
    datasetSchema: Option<Schema>)

  /** The `DatasetCreate` the wrapper builds: environment defaults to `PROD`,
      and missing or empty tags and properties become empty ones. A given
      schema is dumped as a nested model. */
  function DatasetPayload(a: DatasetArgs): (m: map<string, Json>)
    ensures m.Keys == {"name", "platform", "environment", "description", "tags", "properties",
                       "container_urn", "dataset_schema"}
    ensures m["name"] == JStr(a.name) && m["platform"] == JStr(a.platform)
    ensures m["environment"] == JStr(a.environment.GetOr("PROD"))
    ensures m["tags"] == StrList(a.tags.GetOr([]))
    ensures m["properties"] == JObj(a.properties.GetOr(map[]))
    ensures m["description"] == JNull <==> a.description.None?
    ensures m["container_urn"] == JNull <==> a.containerUrn.None?
    ensures m["dataset_schema"] == JNull <==> a.datasetSchema.None?
    ensures a.description.Some? ==> m["description"] == JStr(a.description.value)
    ensures a.containerUrn.Some? ==> m["container_urn"] == JStr(a.containerUrn.value)
    ensures a.datasetSchema.Some? ==> m["dataset_schema"] == JObj(DumpSchema(a.datasetSchema.value))
  {
    map[
      "name" := JStr(a.name),
      "platform" := JStr(a.platform),
      "environment" := JStr(a.environment.GetOr("PROD")),
      "description" := JsonOrNull(OptStr(a.description)),
      "tags" := StrList(a.tags.GetOr([])),
      "properties" := JObj(a.properties.GetOr(map[])),
      "container_urn" := JsonOrNull(OptStr(a.containerUrn)),
      "dataset_schema" := if a.datasetSchema.Some? then JObj(DumpSchema(a.datasetSchema.value)) else JNull]
  }

  /** A schema update puts the schema without any `None`, at the top or in a
      field, and the body reads back as the schema. */
  lemma UpdateSchemaBody(urn: string, s: Schema)
    requires CleanSchema(s)
    ensures var body := CallOf(UpdateSchema(urn, s)).body;
      && body.Pass? && body.value.JObj? && NullFree(body.value.fields)
      && LoadSchema(body.value) == Some(s)
  {
    SchemaRoundTrip(s);
  }

  /** The dataset create posts a given schema the same way: nested, free of
      `None`, and reading back as the schema. */
  lemma CreateDatasetSchema(a: DatasetArgs)
    requires a.datasetSchema.Some? && CleanSchema(a.datasetSchema.value)
    ensures var body := CreateCall(Datasets, DatasetPayload(a)).body.value.fields;
      && "dataset_schema" in body && body["dataset_schema"].JObj?
      && NullFree(body["dataset_schema"].fields)
      && LoadSchema(body["dataset_schema"]) == a.datasetSchema
  {
    SchemaRoundTrip(a.datasetSchema.value);
  }

  /** With only a name and a platform, the posted body holds exactly those,
      environment `PROD`, no tags and no properties. */
  lemma MinimalDatasetBody(name: string, platform: string)
    ensures var body := DropNone(DatasetPayload(DatasetArgs(name, platform, None, None, None, None, None, None)));
      body == map["name" := JStr(name), "platform" := JStr(platform), "environment" := JStr("PROD"),
                  "tags" := JArr([]), "properties" := JObj(map[])]
  {
    var body := DropNone(DatasetPayload(DatasetArgs(name, platform, None, None, None, None, None, None)));
    assert StrList([]) == JArr([]);
    assert body.Keys == {"name", "platform", "environment", "tags", "properties"};
  }

  /** `create_dataset` against the test client: post the payload, read the URN
      as `str()` of the response (`show` stands for Python's `str`), then get
      the dataset by that URN. A failed post ends the run. */
  function CreateDatasetOn(s: DummyClient.Stub, a: DatasetArgs, show: Json -> string): (r: (DummyClient.Stub, Result<Json, Error>))
    ensures r.0.responses == s.responses
    ensures |s.calls| < |r.0.calls| <= |s.calls| + 2
    ensures r.0.calls[|s.calls|] == DummyClient.Recorded("post", "/catalog/datasets/", DummyClient.Kwargs(CreateCall(Datasets, DatasetPayload(a))))
    ensures r.1.Ok? ==> |r.0.calls| == |s.calls| + 2 && r.0.calls[|s.calls| + 1].path == "/catalog/datasets/by-urn"
  {
    DatasetPaths();
    var (s1, posted) := DummyClient.Send(s, CreateCall(Datasets, DatasetPayload(a)));
    if posted.Err? then (s1, posted)
    else DummyClient.Send(s1, GetCall(Datasets, show(posted.value)))
  }

  /** With the post answering a URN and the get answering a dataset, the
      wrapper returns that dataset, having posted once and then fetched by the
      URN the post returned. */
  lemma CreateDatasetRoundTrip(s: DummyClient.Stub, a: DatasetArgs, show: Json -> string, urn: string, d: Json)
    requires ("post", "/catalog/datasets/") in s.responses && s.responses[("post", "/catalog/datasets/")] == JStr(urn)
    requires ("get", "/catalog/datasets/by-urn") in s.responses && s.responses[("get", "/catalog/datasets/by-urn")] == d
    requires show(JStr(urn)) == urn
    ensures var r := CreateDatasetOn(s, a, show);
      && r.1 == Ok(d)
      && |r.0.calls| == |s.calls| + 2
      && r.0.calls[|s.calls|].verb == "post"
      && r.0.calls[|s.calls| + 1] == DummyClient.Recorded("get", "/catalog/datasets/by-urn", map["params" := JObj(map["urn" := JStr(urn)])])
  {
    DatasetPaths();
    var (s1, posted) := DummyClient.Send(s, CreateCall(Datasets, DatasetPayload(a)));
    assert posted == Ok(JStr(urn));
    GetKwargs(urn);
  }

  lemma DatasetPaths()
    ensures BasePath(Datasets) + "/" == "/catalog/datasets/"
    ensures BasePath(Datasets) + "/by-urn" == "/catalog/datasets/by-urn"
  {
  }

  lemma GetKwargs(urn: string)
    ensures DummyClient.Kwargs(GetCall(Datasets, urn)) == map["params" := JObj(map["urn" := JStr(urn)])]
  {
    var kw := DummyClient.Kwargs(GetCall(Datasets, urn));
    assert kw.Keys == {"params"};
  }
}

=== FILE: cli.dfy ===
/** The `kamiwaza` command-line client's pure helpers: the friendly model
    name, the error wrapper, and the selections `run`, `ps` and `stop` make
    over what the server reports. */
module Cli {
  import opened Common
  import opened Text
  import Serving

  // ---------------------------------------------------------------- utils

  /** `format_model_name`: the last `/`-separated segment, lower-cased, with
      every `-gguf` removed. */
  function FormatModelName(name: string): (r: string)
    ensures |r| <= |AfterLast(name, '/')|
    ensures '/' !in r
    ensures NoUpper(r)
  {
    var seg := AfterLast(name, '/');
    var r := ReplaceAll(Lower(seg), "-gguf", "");
    ReplaceAllChars(Lower(seg), "-gguf", "", '/');
    LowerHasNoUpper(seg);
    ReplaceAllNoUpper(Lower(seg), "-gguf", "");
    r
  }

  /** The name depends only on the last segment: any owner prefix is
      ignored. */
  lemma FormatIgnoresOwner(owner: string, seg: string)
    requires '/' !in seg
    ensures FormatModelName(owner + "/" + seg) == FormatModelName(seg)
  {
    var s := owner + "/" + seg;
    var i := |owner|;
    assert s[i] == '/';
    assert s[i + 1..] == seg;
    var j :| 0 <= j < |s| && s[j] == '/' && AfterLast(s, '/') == s[j + 1..];
    if j < i {
      assert s[i] in s[j + 1..];
    }
  }

  /** Removing `-gguf` from a lowered name with no `g` before its final
      `-gguf`, and no `-` right before it, drops just that suffix: no
      earlier occurrence can start. */
  lemma DropGgufSuffix(a: string)
    requires 'g' !in a && (a == [] || a[|a| - 1] != '-')
    ensures ReplaceAll(a + "-gguf", "-gguf", "") == a
  {
    ReplaceAllLast(a, "-gguf", "");
    assert a + "" == a;
  }

  lemma LowerQwen(a: string, b: string, c: string, d: string)
    requires a == "Qwen2.5" && b == "-7B" && c == "-Instruct" && d == "-GGUF"
    ensures Lower(a + b + c + d) == "qwen2.5" + "-7b" + "-instruct" + "-gguf"
  {
    LowerConcat(a + b + c, d);
    LowerConcat(a + b, c);
    LowerConcat(a, b);
    assert Lower(a) == "qwen2.5" by {
      var l := Lower(a);
      assert l[0] == 'q';
    }
    assert Lower(b) == "-7b" by {
      var l := Lower(b);
      assert l[2] == 'b';
    }
    assert Lower(c) == "-instruct" by {
      var l := Lower(c);
      assert l[1] == 'i';
    }
    assert Lower(d) == "-gguf" by {
      var l := Lower(d);
      assert l[1] == 'g' && l[2] == 'g' && l[3] == 'u' && l[4] == 'f';
    }
  }

  lemma FormatQwenSegment(seg: string)
    requires seg == "Qwen2.5" + "-7B" + "-Instruct" + "-GGUF"
    ensures FormatModelName(seg) == "qwen2.5" + "-7b" + "-instruct"
  {
    assert AfterLast(seg, '/') == seg by {
      assert '/' !in seg;
    }
    LowerQwen("Qwen2.5", "-7B", "-Instruct", "-GGUF");
    QwenLowered();
    DropGgufSuffix("qwen2.5-7b-instruct");
  }

  lemma QwenLowered()
    ensures 'g' !in "qwen2.5-7b-instruct"
    ensures "qwen2.5" + "-7b" + "-instruct" + "-gguf" == "qwen2.5-7b-instruct" + "-gguf"
    ensures "qwen2.5" + "-7b" + "-instruct" == "qwen2.5-7b-instruct"
  {
  }

  lemma QwenPieces()
    ensures "Qwen/Qwen2.5-7B-Instruct-GGUF" == "Qwen" + "/" + ("Qwen2.5" + "-7B" + "-Instruct" + "-GGUF")
    ensures '/' !in "Qwen2.5" + "-7B" + "-Instruct" + "-GGUF"
    ensures "qwen2.5" + "-7b" + "-instruct" == "qwen2.5-7b-instruct"
  {
  }

  /** The documented example. */
  lemma FormatQwen(name: string)
    requires name == "Qwen/Qwen2.5-7B-Instruct-GGUF"
    ensures FormatModelName(name) == "qwen2.5-7b-instruct"
  {
    var seg := "Qwen2.5" + "-7B" + "-Instruct" + "-GGUF";
    QwenPieces();
    FormatIgnoresOwner("Qwen", seg);
    FormatQwenSegment(seg);
  }

  /** What a command wrapped by `handle_error` gives back: the command's own
      result, or exit status 1 in place of the exception. */
  datatype Wrapped<T> = Returned(value: T) | ExitStatus(code: int)

  function HandleError<T>(body: Result<T, Error>): (r: Wrapped<T>)
    ensures body.Ok? <==> r.Returned?
    ensures body.Ok? ==> r.value == body.value
    ensures body.Err? ==> r == ExitStatus(1)
  {
    match body
    case Ok(v) => Returned(v)
    case Err(_) => ExitStatus(1)
  }

  // ---------------------------------------------------------------- commands

  /** The models `run` knows, by friendly name. */
  const ModelMap: map<string, string> := map["qwen2.5-7b-instruct" := "Qwen/Qwen2.5-7B-Instruct-GGUF"]

  /** The first step of `run`: an unknown name ends the command with status 1
      before any client is made; a known one gives the repository id. */
  function RunGuard(model: string): (r: Result<string, int>)
    ensures r.Err? <==> model !in ModelMap
    ensures r.Err? ==> r.error == 1
    ensures r.Ok? ==> r.value == ModelMap[model]
  {
    if model in ModelMap then Ok(ModelMap[model]) else Err(1)
  }

  /** Every name `run` accepts is the friendly name of its repository. */
  lemma ModelMapNamesFormat(model: string)
    requires model in ModelMap
    ensures FormatModelName(ModelMap[model]) == model
  {
    FormatQwen(ModelMap[model]);
  }

  /** `all_downloads_complete`: every file at 100 percent. */
  function AllDownloadsComplete(percentages: seq<int>): (r: bool)
    ensures r <==> forall i :: 0 <= i < |percentages| ==> percentages[i] == 100
    decreases |percentages|
  {
    if percentages == [] then true
    else percentages[0] == 100 && AllDownloadsComplete(percentages[1..])
  }

  /** The wait loop ends on a poll that reports no files. */
  lemma NoFilesComplete()
    ensures AllDownloadsComplete([])
  {
  }

  datatype ModelConfig = ModelConfig(id: string, isDefault: bool)

  /** The first config flagged default, else the first config. The fallback
      `configs[0]` is evaluated before the search, so an empty list raises
      `IndexError` even though nothing is searched. */
  function ChooseConfig(configs: seq<ModelConfig>): (r: Result<ModelConfig, Error>)
    ensures configs == [] <==> r.Err?
    ensures r.Err? ==> r.error == IndexError
    ensures r.Ok? ==> r.value in configs
    ensures FirstDefault(configs).Some? ==> r == Ok(configs[FirstDefault(configs).value])
    ensures FirstDefault(configs).None? && configs != [] ==> r == Ok(configs[0])
  {
    if configs == [] then Err(IndexError)
    else
      match FirstDefault(configs)
      case Some(i) => Ok(configs[i])
      case None => Ok(configs[0])
  }

  function FirstDefault(configs: seq<ModelConfig>): (r: Option<nat>)
    ensures r.None? <==> forall i :: 0 <= i < |configs| ==> !configs[i].isDefault
    ensures r.Some? ==> r.value < |configs| && configs[r.value].isDefault
    ensures r.Some? ==> forall i :: 0 <= i < r.value ==> !configs[i].isDefault
    decreases |configs|
  {
    if configs == [] then None
    else if configs[0].isDefault then Some(0)
    else
      match FirstDefault(configs[1..])
      case None => None
      case Some(i) => Some(i + 1)
  }

  /** The chosen config is flagged default exactly when some config is, and
      then it is the first one so flagged; with none flagged it is the first
      config. */
  lemma ChooseConfigDefault(configs: seq<ModelConfig>)
    requires configs != []
    ensures var c := ChooseConfig(configs).value;
      c.isDefault <==> exists i :: 0 <= i < |configs| && configs[i].isDefault
    ensures forall i ::
      (0 <= i < |configs| && configs[i].isDefault && forall j :: 0 <= j < i ==> !configs[j].isDefault)
      ==> ChooseConfig(configs).value == configs[i]
    ensures (forall i :: 0 <= i < |configs| ==> !configs[i].isDefault) ==>
      ChooseConfig(configs).value == configs[0]
  {
  }

  /** `get_endpoint_url`: "Not available" without a serve path, else the
      base URL followed directly by the path. */
  function EndpointUrl(baseUrl: string, servePath: Option<string>): (r: string)
    ensures !Truthy(servePath) ==> r == "Not available"
    ensures Truthy(servePath) ==> StartsWith(r, baseUrl) && EndsWith(r, servePath.value)
    ensures Truthy(servePath) ==> |r| == |baseUrl| + |servePath.value|
  {
    if !Truthy(servePath) then "Not available" else baseUrl + servePath.value
  }

  /** Whether a deployment answers to the `stop` argument: its model name
      ignoring case, or its id exactly. */
  predicate StopMatches(d: Serving.ActiveDeployment, model: string) {
    Lower(d.mName) == Lower(model) || d.id == model
  }

  /** The deployment `stop` selects: the first match in list order. */
  function FindForStop(deps: seq<Serving.ActiveDeployment>, model: string): (r: Option<nat>)
    ensures r.None? <==> forall i :: 0 <= i < |deps| ==> !StopMatches(deps[i], model)
    ensures r.Some? ==> r.value < |deps| && StopMatches(deps[r.value], model)
    ensures r.Some? ==> forall i :: 0 <= i < r.value ==> !StopMatches(deps[i], model)
    decreases |deps|
  {
    if deps == [] then None
    else if StopMatches(deps[0], model) then Some(0)
    else
      match FindForStop(deps[1..], model)
      case None => None
      case Some(i) => Some(i + 1)
  }

  /** `stop`: exit status 1 and nothing stopped when no deployment matches,
      else status 0 and the id of the first match is stopped. */
  function StopCmd(deps: seq<Serving.ActiveDeployment>, model: string): (r: (int, Option<string>))
    ensures r.0 == 1 <==> r.1.None?
    ensures r.0 == 0 <==> r.1.Some?
    ensures r.1.None? <==> forall i :: 0 <= i < |deps| ==> !StopMatches(deps[i], model)
    ensures r.1.Some? ==> exists i :: 0 <= i < |deps| && StopMatches(deps[i], model) && deps[i].id == r.1.value
    ensures FindForStop(deps, model).Some? ==> r.1 == Some(deps[FindForStop(deps, model).value].id)
    ensures forall i ::
      (0 <= i < |deps| && StopMatches(deps[i], model) && forall j :: 0 <= j < i ==> !StopMatches(deps[j], model))
      ==> r == (0, Some(deps[i].id))
  {
    match FindForStop(deps, model)
    case None => (1, None)
    case Some(i) => (0, Some(deps[i].id))
  }

  /** Letter case in a model name does not change which deployment `stop`
      picks, as long as neither spelling is some deployment's id. */
  lemma {:induction false} StopIgnoresCase(deps: seq<Serving.ActiveDeployment>, a: string, b: string)
    requires Lower(a) == Lower(b)
    requires forall i :: 0 <= i < |deps| ==> deps[i].id != a && deps[i].id != b
    ensures FindForStop(deps, a) == FindForStop(deps, b)
    ensures StopCmd(deps, a) == StopCmd(deps, b)
    decreases |deps|
  {
    if deps != [] {
      StopIgnoresCase(deps[1..], a, b);
    }
  }
}

=== FILE: client.dfy ===
/** `KamiwazaClient`: base-URL resolution, URL joining and the `_request`
    loop that sends, refreshes the token once on a 401 and retries a
    dataset-schema `PUT` on one specific 404 while the catalog catches up.

    The transport is a script of replies consumed one per attempt; a script
    that runs out behaves like a connection error. Token refreshes and sleeps
    are recorded as events instead of being performed. */
module Client {
  import opened Common
  import opened Text
  import RecentCache

  /** Sleeps between schema `PUT` retries, in milliseconds. */
  const RetryDelaysMs: seq<nat> := [100, 200, 400, 800, 1000, 1000, 1000, 500]
  const RetryCount: nat := 8

  /** The `i`-th entry of the retry schedule. */
  function RetryDelayMs(i: nat): (d: nat)
    requires i < RetryCount
    ensures d == RetryDelaysMs[i]
  {
    if i == 0 then 100 else if i == 1 then 200 else if i == 2 then 400
    else if i == 3 then 800 else if i < 7 then 1000 else 500
  }
  const SchemaPath: string := "catalog/datasets/by-urn/schema"
  const SchemaNotFoundDetail: string := "Dataset not found or schema could not be updated"

  /** The process environment. */
  type Env = map<string, string>

  function EnvGet(env: Env, key: string): Option<string> {
    if key in env then Some(env[key]) else None
  }

  // ---------------------------------------------------------------- construction

  /** The base URL from the constructor argument, else `KAMIWAZA_BASE_URL`,
      else `KAMIWAZA_BASE_URI` (each skipped when empty), with trailing
      slashes removed; `ValueError` when none is given. */
  function ResolveBaseUrl(arg: Option<string>, env: Env): (r: Result<string, Error>)
    ensures r.Err? <==>
      !Truthy(arg) && !Truthy(EnvGet(env, "KAMIWAZA_BASE_URL")) && !Truthy(EnvGet(env, "KAMIWAZA_BASE_URI"))
    ensures r.Err? ==> r.error == ValueError
    ensures Truthy(arg) ==> r == Ok(RStripChar(arg.value, '/'))
    ensures !Truthy(arg) && Truthy(EnvGet(env, "KAMIWAZA_BASE_URL")) ==>
      r == Ok(RStripChar(env["KAMIWAZA_BASE_URL"], '/'))
    ensures !Truthy(arg) && !Truthy(EnvGet(env, "KAMIWAZA_BASE_URL")) && Truthy(EnvGet(env, "KAMIWAZA_BASE_URI")) ==>
      r == Ok(RStripChar(env["KAMIWAZA_BASE_URI"], '/'))
    ensures r.Ok? ==> r.value == [] || r.value[|r.value| - 1] != '/'
  {
    var url := EnvGet(env, "KAMIWAZA_BASE_URL");
    var uri := EnvGet(env, "KAMIWAZA_BASE_URI");
    if Truthy(arg) then Ok(RStripChar(arg.value, '/'))
    else if Truthy(url) then Ok(RStripChar(url.value, '/'))
    else if Truthy(uri) then Ok(RStripChar(uri.value, '/'))
    else Err(ValueError)
  }

  /** Whether the client gets an authenticator: one passed in, else an API key
      from the argument, `KAMIWAZA_API_KEY` or `KAMIWAZA_API_TOKEN`. */
  function HasAuthenticator(given: bool, apiKey: Option<string>, env: Env): (r: bool)
    ensures r <==> given || Truthy(apiKey) || Truthy(EnvGet(env, "KAMIWAZA_API_KEY"))
                          || Truthy(EnvGet(env, "KAMIWAZA_API_TOKEN"))
  {
    if given then true
    else if Truthy(apiKey) then true
    else if Truthy(EnvGet(env, "KAMIWAZA_API_KEY")) then true
    else Truthy(EnvGet(env, "KAMIWAZA_API_TOKEN"))
  }

  /** `KAMIWAZA_VERIFY_SSL` switches verification off only when it reads
      "false" in any letter case; it defaults to on. */
  function SslVerificationDisabled(env: Env): (r: bool)
    ensures "KAMIWAZA_VERIFY_SSL" !in env ==> !r
    ensures r <==> "KAMIWAZA_VERIFY_SSL" in env && Lower(env["KAMIWAZA_VERIFY_SSL"]) == "false"
  {
    Lower(EnvGet(env, "KAMIWAZA_VERIFY_SSL").GetOr("true")) == "false"
  }

  lemma SslDefaultEnabled(env: Env)
    requires "KAMIWAZA_VERIFY_SSL" in env && env["KAMIWAZA_VERIFY_SSL"] == "FALSE"
    ensures SslVerificationDisabled(env)
  {
  }

  /** The request path: the endpoint without leading slashes. */
  function PathOf(endpoint: string): (p: string)
    ensures p == [] || p[0] != '/'
  {
    LStripChar(endpoint, '/')
  }

  /** The request URL: base, exactly one slash, then the path. */
  function JoinUrl(base: string, endpoint: string): (u: string)
    ensures |u| == |base| + 1 + |PathOf(endpoint)|
    ensures u[..|base|] == base && u[|base|] == '/' && u[|base| + 1..] == PathOf(endpoint)
  {
    base + "/" + PathOf(endpoint)
  }

  /** On one base, two endpoints reach the same URL exactly when they name
      the same path once leading slashes are gone. */
  lemma JoinUrlSamePath(base: string, e1: string, e2: string)
    ensures JoinUrl(base, e1) == JoinUrl(base, e2) <==> PathOf(e1) == PathOf(e2)
  {
  }

  /** Leading slashes on the endpoint never change the URL. */
  lemma {:induction false} JoinUrlLeadingSlash(base: string, endpoint: string)
    ensures JoinUrl(base, "/" + endpoint) == JoinUrl(base, endpoint)
  {
    assert ("/" + endpoint)[0] == '/';
    assert ("/" + endpoint)[1..] == endpoint;
  }

  /** A base URL resolved by the constructor never produces a double slash at
      the join when the endpoint starts with one. */
  lemma JoinUrlSingleSlash(base: string, endpoint: string)
    requires base == [] || base[|base| - 1] != '/'
    ensures var u := JoinUrl(base, endpoint);
      u[|base|] == '/' && (|u| == |base| + 1 || u[|base| + 1] != '/')
      && (base == [] || u[|base| - 1] != '/')
  {
  }

  // ---------------------------------------------------------------- responses

  datatype Response = Response(
    status: int,
    contentType: string,
    text: string,
    /** What `response.json()` yields; `None` when it raises. */
    json: Option<Json>)

  datatype Reply = Received(response: Response) | ConnectionFailed

  datatype Event = Authenticated | Sent | Refreshed | Slept(ms: nat)

  /** What `_request` returns or raises. */
  datatype Outcome =
    | RawResponse(response: Response)
    | NoContent
    | Parsed(value: Json)
    | Raised(error: Error)

  /** The loop either leaves with a response below 400 or raises. */
  datatype LoopEnd = Through(response: Response) | Failed(error: Error)

  /** A response that is evidently the web dashboard rather than the API. */
  predicate LooksLikeDashboard(r: Response) {
    Contains(Lower(r.contentType), "text/html") || Contains(r.text, "Dashboard")
  }

  /** The decoded error body: only attempted for a JSON content type. */
  function Payload(r: Response): Option<Json> {
    if Contains(Lower(r.contentType), "application/json") then r.json else None
  }

  /** `payload.get("detail")` when the payload is an object. */
  function Detail(payload: Option<Json>): Option<Json> {
    if payload.Some? && payload.value.JObj? && "detail" in payload.value.fields
    then Some(payload.value.fields["detail"]) else None
  }

  /** The one 404 that a schema `PUT` retries. */
  predicate IsSchemaNotFound(r: Response) {
    r.status == 404 && Detail(Payload(r)) == Some(JStr(SchemaNotFoundDetail))
  }

  /** The error kinds the loop can raise. */
  predicate LoopError(e: Error) {
    || e.AuthenticationError?
    || e == NonAPIResponseError
    || e == VectorDBUnavailableError(501)
    || (e.APIError? && (e.status.None? || e.status.value >= 400))
  }

  /** The four error kinds `_request` raises. */
  predicate RequestError(e: Error) {
    e.AuthenticationError? || e == NonAPIResponseError || e == VectorDBUnavailableError(501) || e.APIError?
  }

  // ---------------------------------------------------------------- event counts

  function Sends(ev: seq<Event>): nat {
    if ev == [] then 0 else (if ev[0] == Sent then 1 else 0) + Sends(ev[1..])
  }

  function Refreshes(ev: seq<Event>): nat {
    if ev == [] then 0 else (if ev[0] == Refreshed then 1 else 0) + Refreshes(ev[1..])
  }

  function Sleeps(ev: seq<Event>): seq<nat> {
    if ev == [] then [] else (if ev[0].Slept? then [ev[0].ms] else []) + Sleeps(ev[1..])
  }

  function Total(xs: seq<nat>): nat {
    if xs == [] then 0 else xs[0] + Total(xs[1..])
  }

  lemma CountsCons(e: Event, ev: seq<Event>)
    ensures Sends([e] + ev) == (if e == Sent then 1 else 0) + Sends(ev)
    ensures Refreshes([e] + ev) == (if e == Refreshed then 1 else 0) + Refreshes(ev)
    ensures Sleeps([e] + ev) == (if e.Slept? then [e.ms] else []) + Sleeps(ev)
  {
    assert ([e] + ev)[1..] == ev;
  }

  // ---------------------------------------------------------------- the loop

  /** What the loop needs to know about the call. */
  datatype Attempt = Attempt(path: string, authenticator: bool, skipAuth: bool, schemaRetry: bool)

  /** What one pass through the loop body decides about a received response. */
  datatype Step = Stop(end: LoopEnd) | Refresh | Retry(delayMs: nat)

  /** The body of the `while True` loop of `_request` for one response: 401
      handling first, then the dashboard check, the schema retry, and the
      error classification; anything below 400 leaves the loop. */
  function Decide(a: Attempt, resp: Response, retryIdx: nat, didRefresh: bool): (s: Step)
    requires retryIdx <= RetryCount
    ensures s.Refresh? <==> resp.status == 401 && a.authenticator && !a.skipAuth && !didRefresh
    ensures s.Retry? ==> a.schemaRetry && retryIdx < RetryCount && s.delayMs == RetryDelayMs(retryIdx)
    ensures s.Retry? ==> IsSchemaNotFound(resp) && !LooksLikeDashboard(resp)
    ensures s.Stop? && s.end.Through? <==> resp.status < 400 && s.Stop?
    ensures s == Stop(Through(resp)) <==> resp.status < 400
    ensures s.Stop? && s.end.Failed? ==> LoopError(s.end.error)
    ensures s == Stop(Failed(VectorDBUnavailableError(501))) ==> StartsWith(a.path, "vectordb")
  {
    if resp.status == 401 then
      if a.skipAuth then Stop(Failed(AuthenticationError(UnauthenticatedEndpoint)))
      else if !a.authenticator then Stop(Failed(AuthenticationError(NoAuthenticator)))
      else if didRefresh then Stop(Failed(AuthenticationError(RefreshFailed)))
      else Refresh
    else if resp.status >= 400 then
      if resp.status == 404 && LooksLikeDashboard(resp) then Stop(Failed(NonAPIResponseError))
      else if a.schemaRetry && retryIdx < RetryCount && IsSchemaNotFound(resp) then
        Retry(RetryDelayMs(retryIdx))
      else if resp.status == 501 && StartsWith(a.path, "vectordb") then
        Stop(Failed(VectorDBUnavailableError(501)))
      else Stop(Failed(APIError(Some(resp.status))))
    else Stop(Through(resp))
  }

  /** The `while True` loop of `_request`, from the attempt with retry index
      `retryIdx` on. The measure is the number of attempts still allowed: one
      refresh, then one per remaining retry delay. `LoopAttempts` and
      `LoopSleeps` state how attempts, refreshes and sleeps relate. */
  function Loop(a: Attempt, replies: seq<Reply>, retryIdx: nat, didRefresh: bool): (r: (seq<Event>, LoopEnd))
    requires retryIdx <= RetryCount
    ensures r.1.Through? ==> r.1.response.status < 400
    ensures r.1.Failed? ==> LoopError(r.1.error)
    ensures r.1 == Failed(VectorDBUnavailableError(501)) ==> StartsWith(a.path, "vectordb")
    decreases (if didRefresh then 0 else 1) + (RetryCount - retryIdx)
  {
    if replies == [] || replies[0].ConnectionFailed? then ([Sent], Failed(APIError(None)))
    else
      match Decide(a, replies[0].response, retryIdx, didRefresh)
      case Stop(end) => ([Sent], end)
      case Refresh =>
        var r := Loop(a, replies[1..], retryIdx, true);
        ([Sent] + ([Refreshed] + r.0), r.1)
      case Retry(d) =>
        var r := Loop(a, replies[1..], retryIdx + 1, didRefresh);
        ([Sent] + ([Slept(d)] + r.0), r.1)
  }

  /** Every pass through the loop sends once, and a pass continues only after
      the one refresh or after a sleep. */
  lemma {:induction false} LoopAttempts(a: Attempt, replies: seq<Reply>, retryIdx: nat, didRefresh: bool)
    requires retryIdx <= RetryCount
    ensures var r := Loop(a, replies, retryIdx, didRefresh);
      && Sends(r.0) == 1 + Refreshes(r.0) + |Sleeps(r.0)|
      && Refreshes(r.0) <= (if didRefresh || a.skipAuth || !a.authenticator then 0 else 1)
    decreases (if didRefresh then 0 else 1) + (RetryCount - retryIdx)
  {
    if replies == [] || replies[0].ConnectionFailed? {
      CountsCons(Sent, []);
    } else {
      var s := Decide(a, replies[0].response, retryIdx, didRefresh);
      if s.Stop? {
        CountsCons(Sent, []);
      } else if s.Refresh? {
        LoopAttempts(a, replies[1..], retryIdx, true);
        AttemptsAfterRefresh(a, replies, retryIdx, didRefresh);
      } else {
        LoopAttempts(a, replies[1..], retryIdx + 1, didRefresh);
        AttemptsAfterRetry(a, replies, retryIdx, didRefresh);
      }
    }
  }

  /** A refresh pass adds one send and the one refresh to the passes after it. */
  lemma AttemptsAfterRefresh(a: Attempt, replies: seq<Reply>, retryIdx: nat, didRefresh: bool)
    requires retryIdx <= RetryCount && replies != [] && replies[0].Received?
    requires Decide(a, replies[0].response, retryIdx, didRefresh).Refresh?
    requires var t := Loop(a, replies[1..], retryIdx, true);
      Sends(t.0) == 1 + Refreshes(t.0) + |Sleeps(t.0)| && Refreshes(t.0) == 0
    ensures var r := Loop(a, replies, retryIdx, didRefresh);
      && Sends(r.0) == 1 + Refreshes(r.0) + |Sleeps(r.0)|
      && Refreshes(r.0) == 1
  {
    var t := Loop(a, replies[1..], retryIdx, true);
    assert Loop(a, replies, retryIdx, didRefresh).0 == [Sent] + ([Refreshed] + t.0);
    CountsCons(Refreshed, t.0);
    CountsCons(Sent, [Refreshed] + t.0);
  }

  /** A retry pass adds one send and one sleep to the passes after it. */
  lemma AttemptsAfterRetry(a: Attempt, replies: seq<Reply>, retryIdx: nat, didRefresh: bool)
    requires retryIdx <= RetryCount && replies != [] && replies[0].Received?
    requires Decide(a, replies[0].response, retryIdx, didRefresh).Retry?
    requires retryIdx < RetryCount
    requires var t := Loop(a, replies[1..], retryIdx + 1, didRefresh);
      Sends(t.0) == 1 + Refreshes(t.0) + |Sleeps(t.0)|
    ensures var r := Loop(a, replies, retryIdx, didRefresh);
      var t := Loop(a, replies[1..], retryIdx + 1, didRefresh);
      && Sends(r.0) == 1 + Refreshes(r.0) + |Sleeps(r.0)|
      && Refreshes(r.0) == Refreshes(t.0)
  {
    var d := Decide(a, replies[0].response, retryIdx, didRefresh).delayMs;
    var t := Loop(a, replies[1..], retryIdx + 1, didRefresh);
    assert Loop(a, replies, retryIdx, didRefresh).0 == [Sent] + ([Slept(d)] + t.0);
    CountsCons(Slept(d), t.0);
    CountsCons(Sent, [Slept(d)] + t.0);
  }

  /** The sleeps of the loop are those of the first pass followed by those of
      the passes after it. */
  lemma SleepsUnfold(a: Attempt, replies: seq<Reply>, retryIdx: nat, didRefresh: bool)
    requires retryIdx <= RetryCount && replies != [] && replies[0].Received?
    ensures var s := Decide(a, replies[0].response, retryIdx, didRefresh);
      var sl := Sleeps(Loop(a, replies, retryIdx, didRefresh).0);
      && (s.Stop? ==> sl == [])
      && (s.Refresh? ==> sl == Sleeps(Loop(a, replies[1..], retryIdx, true).0))
      && (s.Retry? ==> (retryIdx < RetryCount
                        && sl == [RetryDelayMs(retryIdx)] + Sleeps(Loop(a, replies[1..], retryIdx + 1, didRefresh).0)))
  {
    var s := Decide(a, replies[0].response, retryIdx, didRefresh);
    if s.Stop? {
      CountsCons(Sent, []);
    } else if s.Refresh? {
      var t := Loop(a, replies[1..], retryIdx, true);
      CountsCons(Refreshed, t.0);
      CountsCons(Sent, [Refreshed] + t.0);
    } else {
      var t := Loop(a, replies[1..], retryIdx + 1, didRefresh);
      CountsCons(Slept(s.delayMs), t.0);
      CountsCons(Sent, [Slept(s.delayMs)] + t.0);
    }
  }

  /** Sleeps that follow the retry schedule from index `i` on. */
  predicate FollowsSchedule(sl: seq<nat>, i: nat) {
    i + |sl| <= RetryCount && forall k :: 0 <= k < |sl| ==> sl[k] == RetryDelayMs(i + k)
  }

  /** Sleeping the delay at index `i` and then following the schedule from
      `i + 1` follows it from `i`. */
  lemma ScheduleShift(i: nat, rest: seq<nat>)
    requires i < RetryCount && FollowsSchedule(rest, i + 1)
    ensures FollowsSchedule([RetryDelayMs(i)] + rest, i)
  {
    var sl := [RetryDelayMs(i)] + rest;
    forall k | 1 <= k < |sl| ensures sl[k] == RetryDelayMs(i + k) {
      assert sl[k] == rest[k - 1];
    }
  }

  /** The sleeps are taken in order from the retry schedule, starting at the
      current retry index, and none happen unless the schema retry is armed. */
  lemma {:induction false} LoopSleeps(a: Attempt, replies: seq<Reply>, retryIdx: nat, didRefresh: bool)
    requires retryIdx <= RetryCount
    ensures var sl := Sleeps(Loop(a, replies, retryIdx, didRefresh).0);
      FollowsSchedule(sl, retryIdx) && (!a.schemaRetry ==> sl == [])
    decreases (if didRefresh then 0 else 1) + (RetryCount - retryIdx)
  {
    if replies == [] || replies[0].ConnectionFailed? {
      CountsCons(Sent, []);
    } else {
      var s := Decide(a, replies[0].response, retryIdx, didRefresh);
      SleepsUnfold(a, replies, retryIdx, didRefresh);
      if s.Refresh? {
        LoopSleeps(a, replies[1..], retryIdx, true);
      } else if s.Retry? {
        LoopSleeps(a, replies[1..], retryIdx + 1, didRefresh);
        ScheduleShift(retryIdx, Sleeps(Loop(a, replies[1..], retryIdx + 1, didRefresh).0));
      }
    }
  }

  /** The loop as `_request` starts it: at most ten attempts and one refresh,
      and the sleeps are a prefix of the schedule, taken only when armed. */
  lemma LoopFromStart(a: Attempt, replies: seq<Reply>)
    ensures var r := Loop(a, replies, 0, false);
      && Sends(r.0) <= 2 + RetryCount
      && Refreshes(r.0) <= (if a.skipAuth || !a.authenticator then 0 else 1)
      && |Sleeps(r.0)| <= RetryCount && Sleeps(r.0) == RetryDelaysMs[..|Sleeps(r.0)|]
      && Total(Sleeps(r.0)) <= Total(RetryDelaysMs)
      && (!a.schemaRetry ==> Sleeps(r.0) == [])
  {
    var r := Loop(a, replies, 0, false);
    LoopAttempts(a, replies, 0, false);
    LoopSleeps(a, replies, 0, false);
    SchedulePrefix(Sleeps(r.0));
  }

  /** Sleeps that follow the schedule from its start are a prefix of it, and
      so add up to no more than the whole schedule. */
  lemma SchedulePrefix(sl: seq<nat>)
    requires FollowsSchedule(sl, 0)
    ensures sl == RetryDelaysMs[..|sl|]
    ensures Total(sl) <= Total(RetryDelaysMs)
  {
    var pre := RetryDelaysMs[..|sl|];
    forall k | 0 <= k < |sl| ensures sl[k] == pre[k] {
      assert sl[k] == RetryDelayMs(0 + k);
    }
    TotalSplit(RetryDelaysMs, |sl|);
  }

  lemma {:induction false} TotalSplit(xs: seq<nat>, k: nat)
    requires k <= |xs|
    ensures Total(xs) == Total(xs[..k]) + Total(xs[k..])
    decreases k
  {
    if k > 0 {
      TotalSplit(xs[1..], k - 1);
      assert xs[..k][1..] == xs[1..][..k - 1];
      assert xs[k..] == xs[1..][k - 1..];
    }
  }

  /** The retry window sums to five seconds, and a call makes at most ten
      transport attempts: the first, one after a refresh, one per delay. */
  lemma RetryWindow()
    ensures Total(RetryDelaysMs) == 5000
    ensures 2 + |RetryDelaysMs| == 10
  {
  }
}

=== FILE: client_request.dfy ===
/** `_request` around the loop: classifying the response the loop left
    with, arming the dataset-schema retry from the recent-change cache, and
    the whole call, with the schema `PUT` scenarios of a catalog update. */
module ClientRequest {
  import opened Common
  import opened Text
  import RecentCache
  import opened Client
  import opened RetryLoop

  /** What `_request` does with the response the loop left with. The 404 test
      after the 2xx branch is kept as written; `FinishNever404` shows that it
      is never reached. */
  function Finish(resp: Response, expectJson: bool): (o: Outcome)
    ensures !expectJson ==> o == RawResponse(resp)
    ensures expectJson && resp.status == 204 ==> o == NoContent
    ensures o.Parsed? <==> expectJson && resp.status != 204 && 200 <= resp.status < 300 && resp.json.Some?
    ensures o.Parsed? ==> o.value == resp.json.value
    ensures o.Raised? ==> o.error == NonAPIResponseError || o.error == APIError(Some(resp.status))
  {
    if !expectJson then RawResponse(resp)
    else if resp.status == 204 then NoContent
    else if 200 <= resp.status < 300 then
      match resp.json
      case Some(j) => Parsed(j)
      case None =>
        if LooksLikeDashboard(resp) then Raised(NonAPIResponseError)
        else Raised(APIError(Some(resp.status)))
    else if resp.status == 404 && LooksLikeDashboard(resp) then Raised(NonAPIResponseError)
    else Raised(APIError(Some(resp.status)))
  }

  /** Every status the loop lets through is below 400, so the 404 test after
      the loop can never fire: a non-2xx response other than 204 always ends
      in `APIError` with its status. */
  lemma FinishNever404(resp: Response)
    requires resp.status < 400 && !(200 <= resp.status < 300)
    ensures Finish(resp, true) == Raised(APIError(Some(resp.status)))
  {
  }

  // ---------------------------------------------------------------- the request

  /** The client's state between calls. */
  datatype ClientState = ClientState(baseUrl: string, authenticator: bool, recent: RecentCache.Cache)

  /** One `_request(method, endpoint, params=..., expect_json=..., skip_auth=...)`.
      `params` is `None` when the caller passed no dict. */
  datatype RequestSpec = RequestSpec(
    verb: string,
    endpoint: string,
    params: Option<map<string, Json>>,
    expectJson: bool,
    skipAuth: bool)

  datatype Exchange = Exchange(url: string, events: seq<Event>, outcome: Outcome, recent: RecentCache.Cache)

  /** Python truthiness of a JSON value. */
  predicate JsonTruthy(j: Json) {
    match j
    case JNull => false
    case JBool(b) => b
    case JInt(i) => i != 0
    case JReal(x) => x != 0.0
    case JStr(s) => s != []
    case JArr(xs) => xs != []
    case JObj(m) => m != map[]
  }

  /** `str(value)`: exact for strings, integers, booleans and `None`;
      `show` stands for Python's rendering of floats, lists and dicts. */
  function PyStr(j: Json, show: Json -> string): (t: string)
    ensures j.JStr? ==> t == j.s
    ensures !(j.JStr? || j.JInt? || j.JBool? || j.JNull?) ==> t == show(j)
  {
    match j
    case JStr(s) => s
    case JInt(i) => IntToString(i)
    case JBool(b) => if b then "True" else "False"
    case JNull => "None"
    case _ => show(j)
  }

  /** The URN a schema `PUT` carries: the `urn` parameter of a call whose path,
      trailing slashes removed, is the schema path. */
  function SchemaUrn(q: RequestSpec): Option<Json> {
    var params := q.params.GetOr(map[]);
    if RStripChar(PathOf(q.endpoint), '/') == SchemaPath && "urn" in params
    then Some(params["urn"]) else None
  }

  /** Whether the retry is armed, and the recent-change cache after asking.
      The cache is consulted only for a `PUT` with a truthy URN, and then
      about `str()` of that URN. */
  function ArmRetry(recent: RecentCache.Cache, q: RequestSpec, now: nat, show: Json -> string): (r: (bool, RecentCache.Cache))
    ensures r.0 ==> Upper(q.verb) == "PUT" && SchemaUrn(q).Some? && JsonTruthy(SchemaUrn(q).value)
    ensures Upper(q.verb) == "PUT" && SchemaUrn(q).Some? && JsonTruthy(SchemaUrn(q).value) ==>
      r == RecentCache.Query(recent, Some(PyStr(SchemaUrn(q).value, show)), now)
    ensures r.0 ==> r.1 == recent
    ensures Upper(q.verb) != "PUT" || SchemaUrn(q).None? ==> r == (false, recent)
    ensures SchemaUrn(q).Some? && !JsonTruthy(SchemaUrn(q).value) ==> r == (false, recent)
  {
    var urn := SchemaUrn(q);
    if Upper(q.verb) == "PUT" && urn.Some? && JsonTruthy(urn.value) then
      RecentCache.Query(recent, Some(PyStr(urn.value, show)), now)
    else (false, recent)
  }

  /** `_request` once the retry is armed or not: authenticate unless told
      not to, run the loop, classify the response it leaves with. At most ten
      attempts, at most one refresh, and sleeps that follow the retry schedule
      from its start, only when the retry is armed. */
  function Run(c: ClientState, q: RequestSpec, armed: bool, replies: seq<Reply>): (x: (seq<Event>, Outcome))
    ensures Sends(x.0) <= 2 + RetryCount
    ensures Refreshes(x.0) <= 1
    ensures Refreshes(x.0) == 1 ==> c.authenticator && !q.skipAuth
    ensures |Sleeps(x.0)| <= RetryCount && Sleeps(x.0) == RetryDelaysMs[..|Sleeps(x.0)|]
    ensures Total(Sleeps(x.0)) <= Total(RetryDelaysMs)
    ensures Sleeps(x.0) != [] ==> armed
    ensures x.1.Raised? ==> RequestError(x.1.error)
    ensures x.1.Parsed? ==> q.expectJson
  {
    var a := Attempt(PathOf(q.endpoint), c.authenticator, q.skipAuth, armed);
    var r := Loop(a, replies, 0, false);
    LoopFromStart(a, replies);
    var ev := if c.authenticator && !q.skipAuth then [Authenticated] + r.0 else r.0;
    AuthenticatedCounts(c.authenticator && !q.skipAuth, r.0);
    var outcome :=
      match r.1
      case Failed(e) => Raised(e)
      case Through(resp) => Finish(resp, q.expectJson);
    (ev, outcome)
  }

  /** The `Authenticated` event a run may start with is neither a send, a refresh nor a sleep. */
  lemma AuthenticatedCounts(auth: bool, ev: seq<Event>)
    ensures var ev' := if auth then [Authenticated] + ev else ev;
      Sends(ev') == Sends(ev) && Refreshes(ev') == Refreshes(ev) && Sleeps(ev') == Sleeps(ev)
  {
    CountsCons(Authenticated, ev);
  }

  /** `_request`: decide whether the schema retry is armed (which may evict a
      stale entry from the recent-change cache), then run. */
  function Request(c: ClientState, q: RequestSpec, replies: seq<Reply>, now: nat, show: Json -> string): (x: Exchange)
    ensures x.url == JoinUrl(c.baseUrl, q.endpoint)
    ensures Sends(x.events) <= 2 + RetryCount
    ensures Refreshes(x.events) <= 1
    ensures |Sleeps(x.events)| <= RetryCount && Sleeps(x.events) == RetryDelaysMs[..|Sleeps(x.events)|]
    ensures Total(Sleeps(x.events)) <= Total(RetryDelaysMs)
    ensures Sleeps(x.events) != [] ==> ArmRetry(c.recent, q, now, show).0
    ensures x.recent == ArmRetry(c.recent, q, now, show).1
    ensures x.outcome.Raised? ==> RequestError(x.outcome.error)
  {
    var armed := ArmRetry(c.recent, q, now, show);
    var run := Run(c, q, armed.0, replies);
    Exchange(JoinUrl(c.baseUrl, q.endpoint), run.0, run.1, armed.1)
  }


  /** The schema `PUT` a catalog update makes for `urn`. */
  function SchemaPut(urn: string): RequestSpec {
    RequestSpec("PUT", "/catalog/datasets/by-urn/schema", Some(map["urn" := JStr(urn)]), true, false)
  }

  lemma SchemaEndpointPath()
    ensures RStripChar(PathOf("/catalog/datasets/by-urn/schema"), '/') == SchemaPath
  {
    var e := "/catalog/datasets/by-urn/schema";
    assert e[0] == '/' && e[1..] == SchemaPath;
    assert PathOf(e) == LStripChar(e[1..], '/');
    assert SchemaPath[0] != '/';
    assert PathOf(e) == SchemaPath;
    assert SchemaPath[|SchemaPath| - 1] != '/';
  }

  lemma UpperPut()
    ensures Upper("PUT") == "PUT"
  {
  }

  lemma SchemaPutArms(recent: RecentCache.Cache, urn: string, now: nat, show: Json -> string)
    requires urn != ""
    ensures ArmRetry(recent, SchemaPut(urn), now, show) == RecentCache.Query(recent, Some(urn), now)
  {
    SchemaPutShape(urn);
    ArmRetryOnUrn(recent, SchemaPut(urn), now, urn, show);
  }

  /** The schema PUT is a PUT that names its URN. */
  lemma SchemaPutShape(urn: string)
    ensures Upper(SchemaPut(urn).verb) == "PUT" && SchemaUrn(SchemaPut(urn)) == Some(JStr(urn))
  {
    UpperPut();
    SchemaEndpointPath();
  }

  /** A PUT naming a non-empty URN asks the recent-PUT cache about that URN. */
  lemma ArmRetryOnUrn(recent: RecentCache.Cache, q: RequestSpec, now: nat, urn: string, show: Json -> string)
    requires urn != ""
    requires Upper(q.verb) == "PUT" && SchemaUrn(q) == Some(JStr(urn))
    ensures ArmRetry(recent, q, now, show) == RecentCache.Query(recent, Some(urn), now)
  {
    assert JsonTruthy(JStr(urn)) && PyStr(JStr(urn), show) == urn;
  }

  /** `Run` sends, refreshes and sleeps exactly as the loop does, and its
      outcome is the loop's error or the classification of its response. */
  lemma RunFollowsLoop(c: ClientState, q: RequestSpec, armed: bool, replies: seq<Reply>)
    ensures var r := Loop(Attempt(PathOf(q.endpoint), c.authenticator, q.skipAuth, armed), replies, 0, false);
      var x := Run(c, q, armed, replies);
      && Sends(x.0) == Sends(r.0) && Refreshes(x.0) == Refreshes(r.0) && Sleeps(x.0) == Sleeps(r.0)
      && x.1 == (if r.1.Failed? then Raised(r.1.error) else Finish(r.1.response, q.expectJson))
  {
    var r := Loop(Attempt(PathOf(q.endpoint), c.authenticator, q.skipAuth, armed), replies, 0, false);
    CountsCons(Authenticated, r.0);
  }

  /** Right after a change to `urn`, its schema `PUT` arms the retry for as
      long as the time-to-live has not passed. */
  lemma TouchedPutArmed(urn: string, t0: nat, now: nat, show: Json -> string)
    requires urn != "" && t0 <= now <= t0 + RecentCache.TtlMs
    ensures ArmRetry(RecentCache.Touch([], Some(urn), t0), SchemaPut(urn), now, show).0
  {
    SchemaPutArms(RecentCache.Touch([], Some(urn), t0), urn, now, show);
    RecentCache.TouchThenQuery([], urn, t0, now);
  }

  /** A schema `PUT` right after the dataset changed, answered first by the
      schema 404 and then by success: two attempts, one sleep of the first
      delay, and the success body returned. */
  lemma SchemaPutRetriesAfterTouch(base: string, auth: bool, urn: string, t0: nat, now: nat, ok: Json, show: Json -> string)
    requires urn != "" && t0 <= now <= t0 + RecentCache.TtlMs
    ensures var c := ClientState(base, auth, RecentCache.Touch([], Some(urn), t0));
      var x := Request(c, SchemaPut(urn),
        [Received(Json404(SchemaNotFoundDetail)), Received(Response(200, "application/json", "", Some(ok)))], now, show);
      x.outcome == Parsed(ok) && Sends(x.events) == 2 && Sleeps(x.events) == [100]
  {
    var c := ClientState(base, auth, RecentCache.Touch([], Some(urn), t0));
    var replies := [Received(Json404(SchemaNotFoundDetail)), Received(Response(200, "application/json", "", Some(ok)))];
    TouchedPutArmed(urn, t0, now, show);
    ArmedSchemaPutRetries(c, urn, ok);
    var run := Run(c, SchemaPut(urn), true, replies);
    assert Request(c, SchemaPut(urn), replies, now, show).events == run.0;
  }

  /** The armed run of a schema `PUT` answered by the schema 404 and then by
      success. */
  lemma ArmedSchemaPutRetries(c: ClientState, urn: string, ok: Json)
    ensures var x := Run(c, SchemaPut(urn), true,
        [Received(Json404(SchemaNotFoundDetail)), Received(Response(200, "application/json", "", Some(ok)))]);
      x.1 == Parsed(ok) && Sends(x.0) == 2 && Sleeps(x.0) == [100]
  {
    var q := SchemaPut(urn);
    var nf := Json404(SchemaNotFoundDetail);
    var success := Response(200, "application/json", "", Some(ok));
    var replies := [Received(nf), Received(success)];
    SchemaNotFoundReply();
    RetryThenSuccess(Attempt(PathOf(q.endpoint), c.authenticator, q.skipAuth, true), nf, success);
    RunFollowsLoop(c, q, true, replies);
    assert Finish(success, true) == Parsed(ok);
  }

  /** The same `PUT` for a dataset the client never touched is not retried:
      one attempt, `APIError` 404. */
  lemma SchemaPutUnknownDataset(base: string, auth: bool, urn: string, now: nat, show: Json -> string)
    requires urn != ""
    ensures var x := Request(ClientState(base, auth, []), SchemaPut(urn),
        [Received(Json404(SchemaNotFoundDetail))], now, show);
      x.outcome == Raised(APIError(Some(404))) && Sends(x.events) == 1
  {
    var c := ClientState(base, auth, []);
    SchemaPutArms([], urn, now, show);
    UnarmedSchemaPutFails(c, urn);
    assert Request(c, SchemaPut(urn), [Received(Json404(SchemaNotFoundDetail))], now, show).events
      == Run(c, SchemaPut(urn), false, [Received(Json404(SchemaNotFoundDetail))]).0;
  }

  /** The unarmed run of a schema `PUT` answered by the schema 404. */
  lemma UnarmedSchemaPutFails(c: ClientState, urn: string)
    ensures var x := Run(c, SchemaPut(urn), false, [Received(Json404(SchemaNotFoundDetail))]);
      x.1 == Raised(APIError(Some(404))) && Sends(x.0) == 1
  {
    var q := SchemaPut(urn);
    UnarmedNotFound(Attempt(PathOf(q.endpoint), c.authenticator, q.skipAuth, false));
    CountsCons(Sent, []);
    RunFollowsLoop(c, q, false, [Received(Json404(SchemaNotFoundDetail))]);
  }

  /** Without the retry armed a schema 404 ends the loop at once. */
  lemma UnarmedNotFound(a: Attempt)
    requires !a.schemaRetry
    ensures Loop(a, [Received(Json404(SchemaNotFoundDetail))], 0, false) == ([Sent], Failed(APIError(Some(404))))
  {
    var nf := Json404(SchemaNotFoundDetail);
    SchemaNotFoundReply();
    ErrorStatus(a, nf, [], 0, false);
    assert [Received(nf)] + [] == [Received(nf)];
  }
}

=== FILE: common.dfy ===
/** Shared vocabulary of the SDK model: optional values, results, the JSON
    values that travel in request bodies and query strings, the exceptions the
    SDK raises, and the shape of one call handed to the HTTP client. */
module Common {

  datatype Option<+T> = None | Some(value: T) {
    function GetOr(default: T): T {
      match this
      case Some(v) => v
      case None => default
    }
  }

  datatype Result<+T, +E> = Ok(value: T) | Err(error: E)

  /** A JSON value as produced by `json.dumps`-compatible Python objects.
      Floating-point numbers are carried as `real` and only passed through. */
  datatype Json =
    | JNull
    | JBool(b: bool)
    | JInt(i: int)
    | JReal(r: real)
    | JStr(s: string)
    | JArr(items: seq<Json>)
    | JObj(fields: map<string, Json>)

  /** How a keyword argument reaches the HTTP client: not passed at all,
      passed as `None`, or passed with a value. */
  datatype Kw<+T> = Omitted | PassNone | Pass(value: T)

  /** Why a 401 ended a request: the endpoint was called without
      authentication, the one token refresh did not help, or there was no
      authenticator to refresh with. */
  datatype AuthFailure = UnauthenticatedEndpoint | RefreshFailed | NoAuthenticator

  /** The exception classes the modelled code raises. */
  datatype Error =
    | AuthenticationError(why: AuthFailure)
    | NonAPIResponseError
    | VectorDBUnavailableError(statusCode: int)
    | APIError(status: Option<int>)
    | NotFoundError(message: string)
    | ValidationError(field: string)
    | ValueError
    | AssertionError(verb: string, route: string)
    | AttributeError(name: string)
    | IndexError
    | KeyError(key: string)
    | RuntimeError(message: string)

  datatype Verb = Get | Post | Put | Patch | Delete

  /** The attachment of a multipart upload; the bytes themselves are not modelled. */
  datatype FilePart = FilePart(filename: string, contentType: string)

  /** One call a service wrapper makes on the HTTP client. `rawResponse` is true
      exactly when the wrapper passes `expect_json=False`. */
  datatype Call = Call(
    verb: Verb,
    path: string,
    params: Kw<map<string, Json>>,
    body: Kw<Json>,
    headers: Kw<map<string, string>>,
    files: Option<FilePart>,
    rawResponse: bool)

  /** A call with nothing but a verb and a path. */
  function Bare(verb: Verb, path: string): (c: Call)
    ensures c.verb == verb && c.path == path
    ensures c.params.Omitted? && c.body.Omitted? && c.headers.Omitted?
    ensures c.files.None? && !c.rawResponse
  {
    Call(verb, path, Omitted, Omitted, Omitted, None, false)
  }

  /** Python truthiness of an optional string: present and non-empty. */
  predicate Truthy(s: Option<string>) {
    s.Some? && s.value != ""
  }

  /** The keys of an object body, or the empty set for any other body. */
  function BodyFields(c: Call): map<string, Json> {
    if c.body.Pass? && c.body.value.JObj? then c.body.value.fields else map[]
  }

  /** The query parameters actually sent (none when omitted or None). */
  function ParamsSent(c: Call): map<string, Json> {
    if c.params.Pass? then c.params.value else map[]
  }

  /** The headers actually sent (none when omitted or None). */
  function HeadersSent(c: Call): map<string, string> {
    if c.headers.Pass? then c.headers.value else map[]
  }

  /** Pydantic's `model_dump(exclude_none=True)` at the top level: every field
      whose value is `None` is dropped, every other field is kept as it is. */
  function DropNone(m: map<string, Json>): (r: map<string, Json>)
    ensures forall k :: k in r <==> k in m && m[k] != JNull
    ensures forall k :: k in r ==> r[k] == m[k]
  {
    map k | k in m && m[k] != JNull :: m[k]
  }

  /** A field that is present only when its optional value is given. */
  function OptField(m: map<string, Json>, key: string, v: Option<Json>): (r: map<string, Json>)
    ensures key in r <==> key in m || v.Some?
    ensures v.Some? ==> r[key] == v.value
    ensures forall k :: k != key ==> (k in r <==> k in m)
    ensures forall k :: k != key && k in m ==> r[k] == m[k]
  {
    if v.Some? then m[key := v.value] else m
  }

  function OptStr(s: Option<string>): Option<Json> {
    if s.Some? then Some(JStr(s.value)) else None
  }

  function OptInt(i: Option<int>): Option<Json> {
    if i.Some? then Some(JInt(i.value)) else None
  }

  function StrList(xs: seq<string>): (j: Json)
    ensures j.JArr? && |j.items| == |xs|
    ensures forall i :: 0 <= i < |xs| ==> j.items[i] == JStr(xs[i])
  {
    JArr(seq(|xs|, i requires 0 <= i < |xs| => JStr(xs[i])))
  }

  function OptStrList(xs: Option<seq<string>>): Option<Json> {
    if xs.Some? then Some(StrList(xs.value)) else None
  }

  function JsonOrNull(v: Option<Json>): Json {
    if v.Some? then v.value else JNull
  }

  /** The `except APIError as e: if e.status_code == 404: raise NotFoundError(...)`
      guard of the id-based service calls: a 404 becomes `NotFoundError` with
      the given message, and every other error propagates unchanged. */
  function NotFoundAs(e: Error, message: string): (r: Error)
    ensures r != APIError(Some(404))
    ensures e == APIError(Some(404)) ==> r == NotFoundError(message)
    ensures e != APIError(Some(404)) ==> r == e
  {
    if e == APIError(Some(404)) then NotFoundError(message) else e
  }

  /** A client result passed through the 404 guard. */
  function Guarded<T>(r: Result<T, Error>, message: string): (g: Result<T, Error>)
    ensures r.Ok? <==> g.Ok?
    ensures r.Ok? ==> g == r
    ensures r.Err? ==> g.error == NotFoundAs(r.error, message)
  {
    if r.Ok? then r else Err(NotFoundAs(r.error, message))
  }

  /** `[Model.model_validate(item) for item in items]`: the first item that does
      not validate raises its error; otherwise every item is converted, in
      order. */
  function ValidateAll<T>(items: seq<Json>, validate: Json -> Result<T, Error>): (r: Result<seq<T>, Error>)
    ensures r.Ok? <==> forall i :: 0 <= i < |items| ==> validate(items[i]).Ok?
    ensures r.Ok? ==> |r.value| == |items| && forall i :: 0 <= i < |items| ==> r.value[i] == validate(items[i]).value
    ensures r.Err? ==> exists i :: (0 <= i < |items| && validate(items[i]) == Err(r.error) &&
      forall j :: 0 <= j < i ==> validate(items[j]).Ok?)
    decreases |items|
  {
    if items == [] then Ok([])
    else
      var head := validate(items[0]);
      if head.Err? then Err(head.error)
      else
        var tail := ValidateAll(items[1..], validate);
        if tail.Err? then
          assert forall i :: 1 <= i < |items| ==> items[i] == items[1..][i - 1];
          Err(tail.error)
        else
          assert forall i :: 1 <= i < |items| ==> items[i] == items[1..][i - 1];
          Ok([head.value] + tail.value)
  }
}

=== FILE: compose.dfy ===
/** The pure helpers of the integration-test harness: rewriting loopback
    hosts so that services inside the cluster can reach the developer's
    machine, reading the host port out of `docker compose port`, choosing a
    Docker host, remembering that choice, and the SSL switch. */
module Compose {
  import opened Common
  import opened Text
  import Client

  type Env = map<string, string>

  /** The default of `KAMIWAZA_DOCKER_HOST_ALIAS`. */
  const DefaultHostAlias := "host.docker.internal"

  // ---------------------------------------------------------------- runtime host

  /** The three spellings of the local machine that get rewritten. */
  predicate IsLoopback(host: string) {
    host == "localhost" || host == "127.0.0.1" || host == "::1"
  }

  /** `KAMIWAZA_RUNTIME_HOST`, defaulting to the host alias, which itself
      defaults to `host.docker.internal`; only the final value is stripped. */
  function RuntimeTarget(env: Env): (t: string)
    ensures t == [] || (!IsSpace(t[0]) && !IsSpace(t[|t| - 1]))
    ensures "KAMIWAZA_RUNTIME_HOST" in env ==> t == Strip(env["KAMIWAZA_RUNTIME_HOST"])
    ensures "KAMIWAZA_RUNTIME_HOST" !in env && "KAMIWAZA_DOCKER_HOST_ALIAS" in env ==>
      t == Strip(env["KAMIWAZA_DOCKER_HOST_ALIAS"])
  {
    var alias := Client.EnvGet(env, "KAMIWAZA_DOCKER_HOST_ALIAS").GetOr(DefaultHostAlias);
    Strip(Client.EnvGet(env, "KAMIWAZA_RUNTIME_HOST").GetOr(alias))
  }

  /** Without either variable the target is the Docker host alias. */
  lemma DefaultTarget(env: Env)
    requires "KAMIWAZA_RUNTIME_HOST" !in env && "KAMIWAZA_DOCKER_HOST_ALIAS" !in env
    ensures RuntimeTarget(env) == DefaultHostAlias
  {
    var a := DefaultHostAlias;
    assert a[0] == 'h' && a[|a| - 1] == 'l';
    StripNoEdgeSpace(a);
  }

  /** `_runtime_host`: a loopback host becomes the (stripped) target, unless
      the target is empty; every other host is kept. */
  function RuntimeHost(host: string, target: string): (r: string)
    ensures IsLoopback(host) && target != [] ==> r == target
    ensures !IsLoopback(host) || target == [] ==> r == host
  {
    if IsLoopback(host) && target != [] then target else host
  }

  /** Rewriting a rewritten host changes nothing more. */
  lemma RuntimeHostIdempotent(host: string, target: string)
    ensures RuntimeHost(RuntimeHost(host, target), target) == RuntimeHost(host, target)
  {
  }

  // ---------------------------------------------------------------- bootstrap lists

  /** The host of an entry: the text before its first `:`, or all of it. */
  function HostOf(entry: string): (h: string)
    ensures ':' !in h && |h| <= |entry| && h == entry[..|h|]
    ensures |h| < |entry| <==> ':' in entry
    ensures |h| < |entry| ==> entry[|h|] == ':'
  {
    var (host, sep, port) := Partition(entry, ':');
    assert entry == host + sep + port;
    assert entry[..|host|] == host;
    host
  }

  /** One non-blank bootstrap entry: the host is rewritten and everything from
      the first `:` on is kept verbatim; an entry without `:` is just a host. */
  function RewriteEntry(entry: string, target: string): string {
    var (host, sep, port) := Partition(entry, ':');
    var h := RuntimeHost(host, target);
    if sep != [] then h + sep + port else h
  }

  /** The rewritten entry is the rewritten host followed by the rest of the
      entry, verbatim; a host that is not rewritten leaves the entry as it is. */
  lemma RewriteEntryShape(entry: string, target: string)
    ensures RewriteEntry(entry, target) == RuntimeHost(HostOf(entry), target) + entry[|HostOf(entry)|..]
    ensures !IsLoopback(HostOf(entry)) || target == [] ==> RewriteEntry(entry, target) == entry
  {
    var host := HostOf(entry);
    HostOfRest(entry);
    if !IsLoopback(host) || target == [] {
      assert entry == entry[..|host|] + entry[|host|..];
    }
  }

  /** What follows the host in an entry is the separator and the port. */
  lemma HostOfRest(entry: string)
    ensures var (host, sep, port) := Partition(entry, ':');
      HostOf(entry) == host && entry[|host|..] == sep + port
  {
    var (host, sep, port) := Partition(entry, ':');
    assert entry == host + sep + port;
    assert entry[|host|..] == sep + port;
  }

  /** A rewritten entry has a `,` only if the entry or the target had one. */
  lemma RewriteEntryNoComma(entry: string, target: string)
    requires ',' !in entry && ',' !in target
    ensures ',' !in RewriteEntry(entry, target)
  {
    RewriteEntryShape(entry, target);
    var host := HostOf(entry);
    assert ',' !in entry[|host|..];
  }

  /** The entries a bootstrap list contributes: its comma-separated pieces,
      stripped, with the blank ones dropped. */
  function Entries(pieces: seq<string>): (es: seq<string>)
    ensures |es| <= |pieces|
    decreases |pieces|
  {
    if pieces == [] then []
    else
      var c := Strip(pieces[0]);
      (if c == [] then [] else [c]) + Entries(pieces[1..])
  }

  /** A non-blank text without whitespace at either end, as `strip` leaves it. */
  predicate Clean(e: string) {
    e != [] && !IsSpace(e[0]) && !IsSpace(e[|e| - 1])
  }

  /** Every entry is non-blank and has no whitespace at either end. */
  lemma {:induction false} EntriesClean(pieces: seq<string>)
    ensures forall i :: 0 <= i < |Entries(pieces)| ==> Clean(Entries(pieces)[i])
    decreases |pieces|
  {
    if pieces != [] {
      EntriesClean(pieces[1..]);
      var c := Strip(pieces[0]);
      var es, tail := Entries(pieces), Entries(pieces[1..]);
      if c == [] {
        assert es == tail;
      } else {
        assert Clean(c);
        assert es == [c] + tail;
        forall i | 0 <= i < |es| ensures Clean(es[i]) {
          if i > 0 { assert es[i] == tail[i - 1]; }
        }
      }
    }
  }

  /** Pieces without a `,` give entries without a `,`. */
  lemma {:induction false} EntriesNoComma(pieces: seq<string>)
    requires forall i :: 0 <= i < |pieces| ==> ',' !in pieces[i]
    ensures forall i :: 0 <= i < |Entries(pieces)| ==> ',' !in Entries(pieces)[i]
    decreases |pieces|
  {
    if pieces != [] {
      StripSub(pieces[0], ',');
      EntriesNoComma(pieces[1..]);
    }
  }

  /** The loop of `_runtime_bootstrap` over the pieces, in order. */
  function RewriteParts(pieces: seq<string>, target: string): (r: seq<string>)
    ensures |r| == |Entries(pieces)|
    decreases |pieces|
  {
    if pieces == [] then []
    else
      var candidate := Strip(pieces[0]);
      var rest := RewriteParts(pieces[1..], target);
      if candidate == [] then rest else [RewriteEntry(candidate, target)] + rest
  }

  /** Each entry of a list rewritten on its own, in order. */
  function RewriteEach(es: seq<string>, target: string): (r: seq<string>)
    ensures |r| == |es|
  {
    if es == [] then [] else [RewriteEntry(es[0], target)] + RewriteEach(es[1..], target)
  }

  lemma {:induction false} RewriteEachAt(es: seq<string>, target: string)
    ensures forall i :: 0 <= i < |es| ==> RewriteEach(es, target)[i] == RewriteEntry(es[i], target)
  {
    if es != [] {
      RewriteEachAt(es[1..], target);
      var r, rest := RewriteEach(es, target), RewriteEach(es[1..], target);
      forall i | 1 <= i < |es| ensures r[i] == RewriteEntry(es[i], target) {
        assert r[i] == rest[i - 1] && es[i] == es[1..][i - 1];
      }
    }
  }

  /** The loop over the pieces rewrites exactly the non-blank entries. */
  lemma {:induction false} RewritePartsEntries(pieces: seq<string>, target: string)
    ensures RewriteParts(pieces, target) == RewriteEach(Entries(pieces), target)
    decreases |pieces|
  {
    if pieces != [] {
      RewritePartsEntries(pieces[1..], target);
      var c := Strip(pieces[0]);
      var tail := Entries(pieces[1..]);
      var rest := RewriteParts(pieces[1..], target);
      if c == [] {
        assert Entries(pieces) == tail;
        assert RewriteParts(pieces, target) == rest;
      } else {
        var es := [c] + tail;
        assert Entries(pieces) == es;
        assert RewriteParts(pieces, target) == [RewriteEntry(c, target)] + rest;
        assert es[0] == c && es[1..] == tail;
        assert RewriteEach(es, target) == [RewriteEntry(c, target)] + RewriteEach(tail, target);
      }
    }
  }

  /** The loop rewrites the non-blank entries one by one, in order. */
  lemma RewritePartsAt(pieces: seq<string>, target: string)
    ensures var r := RewriteParts(pieces, target);
      forall i :: 0 <= i < |r| ==> r[i] == RewriteEntry(Entries(pieces)[i], target)
  {
    RewritePartsEntries(pieces, target);
    RewriteEachAt(Entries(pieces), target);
  }

  /** `_runtime_bootstrap`: rewrite each non-blank entry, join with `,`. */
  function RuntimeBootstrap(bootstrap: string, target: string): string {
    Join(RewriteParts(Split(bootstrap, ','), target), ",")
  }

  /** Splitting the output at `,` gives back one rewritten entry per non-blank
      input entry, in input order, provided the target has no `,` and there
      was at least one entry. */
  lemma RuntimeBootstrapEntries(bootstrap: string, target: string)
    requires ',' !in target
    requires |Entries(Split(bootstrap, ','))| >= 1
    ensures var es := Entries(Split(bootstrap, ','));
      var out := Split(RuntimeBootstrap(bootstrap, target), ',');
      |out| == |es| && forall i :: 0 <= i < |es| ==> out[i] == RewriteEntry(es[i], target)
  {
    var pieces := Split(bootstrap, ',');
    var parts := RewriteParts(pieces, target);
    RewritePartsAt(pieces, target);
    EntriesNoComma(pieces);
    forall i | 0 <= i < |parts| ensures ',' !in parts[i] {
      RewriteEntryNoComma(Entries(pieces)[i], target);
    }
    SplitJoin(parts, ',');
  }

  /** An empty target leaves every entry as it is. */
  lemma EmptyTargetKeepsEntry(entry: string)
    ensures RewriteEntry(entry, []) == entry
  {
    RewriteEntryShape(entry, []);
  }

  /** With an empty target, a list of clean entries comes back unchanged. */
  lemma {:induction false} EmptyTargetKeepsList(es: seq<string>)
    requires |es| >= 1
    requires forall i :: 0 <= i < |es| ==>
      Clean(es[i]) && ',' !in es[i]
    ensures RuntimeBootstrap(Join(es, ","), []) == Join(es, ",")
  {
    SplitJoin(es, ',');
    CleanEntries(es);
    var parts := RewriteParts(es, []);
    RewritePartsAt(es, []);
    forall i | 0 <= i < |es| ensures parts[i] == es[i] {
      EmptyTargetKeepsEntry(es[i]);
    }
    assert parts == es;
  }

  /** Clean pieces are their own entries. */
  lemma {:induction false} CleanEntries(es: seq<string>)
    requires forall i :: 0 <= i < |es| ==> Clean(es[i])
    ensures Entries(es) == es
    decreases |es|
  {
    if es != [] {
      StripNoEdgeSpace(es[0]);
      CleanEntries(es[1..]);
      assert Entries(es) == [es[0]] + Entries(es[1..]);
      assert es == [es[0]] + es[1..];
    }
  }

  // ---------------------------------------------------------------- compose port

  /** The port-line parsing of `_compose_port` as written: a failed command or
      empty output gives `None`; otherwise the first line of the stripped
      output must contain `:` and the text after its last `:` must parse as an
      integer. Output made only of whitespace strips to no lines at all, and
      taking the first of them raises `IndexError` outside the `try`. */
  function ComposePort(returnCode: int, stdout: string): (r: Result<Option<int>, Error>)
    ensures r.Err? <==> returnCode == 0 && stdout != [] && Strip(stdout) == []
    ensures r.Err? ==> r.error == IndexError
    ensures r.Ok? ==> r.value == ComposePortFixed(returnCode, stdout)
  {
    if returnCode != 0 || stdout == [] then Ok(None)
    else
      var lines := SplitLines(Strip(stdout));
      if lines == [] then Err(IndexError)
      else
        var line := lines[0];
        if ':' !in line then Ok(None) else Ok(ParseInt(AfterLast(line, ':')))
  }

  /** A line break alone is enough to raise. */
  lemma NewlineOutputRaises()
    ensures ComposePort(0, "\n") == Err(IndexError)
  {
    var out := "\n";
    assert IsSpace(out[0]) && out[1..] == [];
    assert TrimStart(out) == [];
    assert Strip(out) == [];
  }

  /** The port parser with whitespace-only output read as "no port". */
  function ComposePortFixed(returnCode: int, stdout: string): (r: Option<int>)
    ensures returnCode != 0 || Strip(stdout) == [] ==> r.None?
    ensures r.Some? ==> ':' in SplitLines(Strip(stdout))[0]
  {
    if returnCode != 0 || stdout == [] then None
    else
      var lines := SplitLines(Strip(stdout));
      if lines == [] then None
      else
        var line := lines[0];
        if ':' !in line then None else ParseInt(AfterLast(line, ':'))
  }

  /** A line `host:port` printed by a successful `docker compose port` reads back
      as the port, whatever `:`s the host itself contains. */
  lemma ComposePortRoundTrip(host: string, port: int)
    requires host != [] && !IsSpace(host[0])
    requires forall i :: 0 <= i < |host| ==> !IsLineBreak(host[i])
    ensures ComposePortFixed(0, host + ":" + IntToString(port) + "\n") == Some(port)
  {
    var digits := IntToString(port);
    PortLineStrip(host, digits);
    PortLineSingle(host, digits);
    assert ':' !in digits;
    AfterLastSplit(host, digits, ':');
    ParseIntToString(port);
  }

  /** The line with its final newline strips back to the line. */
  lemma PortLineStrip(host: string, digits: string)
    requires host != [] && !IsSpace(host[0])
    requires digits != [] && IsDigit(digits[|digits| - 1])
    ensures Strip(host + ":" + digits + "\n") == host + ":" + digits
  {
    var line := host + ":" + digits;
    assert line[0] == host[0];
    assert line[|line| - 1] == digits[|digits| - 1];
    StripTrailingSpace(line, '\n');
  }

  /** A `host:port` line holds no line break, so it is a single line. */
  lemma PortLineSingle(host: string, digits: string)
    requires forall i :: 0 <= i < |host| ==> !IsLineBreak(host[i])
    requires forall k :: 0 <= k < |digits| ==> IsDigit(digits[k]) || digits[k] == '-'
    ensures var line := host + ":" + digits; line != [] && SplitLines(line) == [line]
  {
    var line := host + ":" + digits;
    forall i | 0 <= i < |line| ensures !IsLineBreak(line[i]) {
      if i < |host| { assert line[i] == host[i]; }
      else if i > |host| { assert line[i] == digits[i - |host| - 1]; }
    }
    assert LineEnd(line) == |line|;
  }

  // ---------------------------------------------------------------- docker host

  /** The candidate loop of `_resolve_compose_env`: a value is appended when it
      is given, non-empty and not yet listed. */
  function AddCandidates(acc: seq<string>, hosts: seq<Option<string>>): (r: seq<string>)
    ensures |acc| <= |r| && r[..|acc|] == acc
    ensures forall i :: |acc| <= i < |r| ==> r[i] != [] && Some(r[i]) in hosts
    decreases |hosts|
  {
    if hosts == [] then acc
    else
      var next := if Truthy(hosts[0]) && hosts[0].value !in acc then acc + [hosts[0].value] else acc;
      var r := AddCandidates(next, hosts[1..]);
      assert r[..|next|] == next;
      assert forall i :: |acc| <= i < |r| ==> (i < |next| ==> r[i] == hosts[0].value);
      r
  }

  /** The loop never lists a value twice. */
  lemma {:induction false} AddCandidatesDistinct(acc: seq<string>, hosts: seq<Option<string>>)
    requires Distinct(acc)
    ensures Distinct(AddCandidates(acc, hosts))
    decreases |hosts|
  {
    if hosts != [] {
      var next := if Truthy(hosts[0]) && hosts[0].value !in acc then acc + [hosts[0].value] else acc;
      AddCandidatesDistinct(next, hosts[1..]);
    }
  }

  /** Every given, non-empty value ends up listed. */
  lemma {:induction false} AddCandidatesCover(acc: seq<string>, hosts: seq<Option<string>>)
    ensures forall j :: 0 <= j < |hosts| && Truthy(hosts[j]) ==> hosts[j].value in AddCandidates(acc, hosts)
    decreases |hosts|
  {
    if hosts != [] {
      var next := if Truthy(hosts[0]) && hosts[0].value !in acc then acc + [hosts[0].value] else acc;
      var r := AddCandidates(next, hosts[1..]);
      AddCandidatesCover(next, hosts[1..]);
      assert r[..|next|] == next;
      forall j | 0 <= j < |hosts| && Truthy(hosts[j]) ensures hosts[j].value in r {
        if j == 0 {
          assert hosts[0].value in next;
          var m :| 0 <= m < |next| && next[m] == hosts[0].value;
          assert r[m] == r[..|next|][m];
        } else {
          assert hosts[j] == hosts[1..][j - 1];
        }
      }
    }
  }

  predicate Distinct(xs: seq<string>) {
    forall i, j :: 0 <= i < j < |xs| ==> xs[i] != xs[j]
  }

  /** Running the loop over two runs of hosts is running it over both in turn:
      candidates found earlier always precede those found later. */
  lemma {:induction false} AddCandidatesAppend(acc: seq<string>, h1: seq<Option<string>>, h2: seq<Option<string>>)
    ensures AddCandidates(acc, h1 + h2) == AddCandidates(AddCandidates(acc, h1), h2)
    decreases |h1|
  {
    if h1 != [] {
      var next := if Truthy(h1[0]) && h1[0].value !in acc then acc + [h1[0].value] else acc;
      assert (h1 + h2)[0] == h1[0];
      assert (h1 + h2)[1..] == h1[1..] + h2;
      AddCandidatesAppend(next, h1[1..], h2);
    } else {
      assert h1 + h2 == h2;
    }
  }

  /** Listing the same hosts a second time adds nothing. */
  lemma {:induction false} AddCandidatesAgain(acc: seq<string>, hosts: seq<Option<string>>)
    ensures AddCandidates(AddCandidates(acc, hosts), hosts) == AddCandidates(acc, hosts)
  {
    var r := AddCandidates(acc, hosts);
    AddCandidatesCover(acc, hosts);
    AllPresentAddsNothing(r, hosts);
  }

  /** When every given host is already listed, the loop adds nothing. */
  lemma {:induction false} AllPresentAddsNothing(acc: seq<string>, hosts: seq<Option<string>>)
    requires forall j :: 0 <= j < |hosts| && Truthy(hosts[j]) ==> hosts[j].value in acc
    ensures AddCandidates(acc, hosts) == acc
    decreases |hosts|
  {
    if hosts != [] {
      AllPresentAddsNothing(acc, hosts[1..]);
    }
  }

  /** Path of the Podman machine socket under the user's home directory. */
  function PodmanSocket(home: string): string {
    home + "/.local/share/containers/podman/machine/podman.sock"
  }

  /** The candidate Docker hosts: `KAMIWAZA_DOCKER_HOST`, `DOCKER_HOST`, then the
      Podman socket, with missing, empty and repeated values dropped. */
  function CandidateHosts(env: Env, home: string): (r: seq<string>)
    ensures Distinct(r) && 1 <= |r| <= 3
    ensures forall h :: h in r <==> (h != [] &&
      (Client.EnvGet(env, "KAMIWAZA_DOCKER_HOST") == Some(h)
       || Client.EnvGet(env, "DOCKER_HOST") == Some(h)
       || h == "unix://" + PodmanSocket(home)))
  {
    var hosts := [Client.EnvGet(env, "KAMIWAZA_DOCKER_HOST"), Client.EnvGet(env, "DOCKER_HOST"),
                  Some("unix://" + PodmanSocket(home))];
    var r := AddCandidates([], hosts);
    AddCandidatesDistinct([], hosts);
    AddCandidatesCover([], hosts);
    assert Truthy(hosts[2]);
    assert |r| <= 3 by { AddCandidatesBound([], hosts); }
    forall h ensures h in r <==> (h != [] && Some(h) in hosts) {
      if h != [] && Some(h) in hosts {
        var j :| 0 <= j < |hosts| && hosts[j] == Some(h);
        assert Truthy(hosts[j]);
      }
    }
    r
  }

  /** The loop appends at most one value per host. */
  lemma {:induction false} AddCandidatesBound(acc: seq<string>, hosts: seq<Option<string>>)
    ensures |AddCandidates(acc, hosts)| <= |acc| + |hosts|
    decreases |hosts|
  {
    if hosts != [] {
      var next := if Truthy(hosts[0]) && hosts[0].value !in acc then acc + [hosts[0].value] else acc;
      AddCandidatesBound(next, hosts[1..]);
    }
  }

  /** The first candidate host under which `docker info` succeeds, as the
      environment with `DOCKER_HOST` set to it. */
  function TryHosts(base: Env, hosts: seq<string>, ok: Env -> bool): (r: Option<Env>)
    ensures r.None? <==> forall i :: 0 <= i < |hosts| ==> !ok(base["DOCKER_HOST" := hosts[i]])
    ensures r.Some? ==> exists i :: (0 <= i < |hosts| && r.value == base["DOCKER_HOST" := hosts[i]]
      && ok(r.value) && forall j :: 0 <= j < i ==> !ok(base["DOCKER_HOST" := hosts[j]]))
    decreases |hosts|
  {
    if hosts == [] then None
    else
      var e := base["DOCKER_HOST" := hosts[0]];
      if ok(e) then Some(e)
      else
        var r := TryHosts(base, hosts[1..], ok);
        if r.Some? then
          var i :| 0 <= i < |hosts| - 1 && r.value == base["DOCKER_HOST" := hosts[1..][i]]
            && ok(r.value) && forall j :: 0 <= j < i ==> !ok(base["DOCKER_HOST" := hosts[1..][j]]);
          assert r.value == base["DOCKER_HOST" := hosts[i + 1]];
          r
        else
          assert forall i :: 1 <= i < |hosts| ==> hosts[i] == hosts[1..][i - 1];
          r
  }

  // ---------------------------------------------------------------- memoisation

  /** The module-level cache of `_resolve_compose_env`: nothing decided yet, a
      working environment, or the error to raise again. */
  datatype Memo = Unresolved | Cached(env: Env) | Failed(message: string)

  /** What probing Docker shows: whether the CLI is on the path, whether
      `docker info` succeeds under a given environment, and the stripped error
      text of the probe under the unchanged environment. */
  datatype Docker = Docker(cliPresent: bool, infoOk: Env -> bool, baseError: string)

  const NoCliMessage := "Docker CLI is required for integration tests"

  /** The error recorded when no candidate host works. */
  function UnavailableMessage(lastError: string): (m: string)
    ensures lastError != [] ==> InfixAt(m, lastError, 67)
  {
    "Docker daemon is unavailable for integration fixtures. Last error: "
      + (if lastError != [] then lastError else "docker info failed")
      + ". Set KAMIWAZA_DOCKER_HOST/DOCKER_HOST to a reachable Podman or Docker socket."
  }

  /** `_resolve_compose_env`: answer from the cache, or probe and record the
      outcome. Environments are values, so each caller gets its own copy. */
  /** The first resolution: the CLI check, the environment as given, then the
      candidate hosts in order. */
  function Probe(env: Env, home: string, docker: Docker): (m: Memo)
    ensures !m.Unresolved?
    ensures m.Cached? ==> docker.infoOk(m.env)
    ensures m.Cached? ==> m.env == env || exists h :: h in CandidateHosts(env, home) && m.env == env["DOCKER_HOST" := h]
    ensures !docker.cliPresent ==> m == Failed(NoCliMessage)
    ensures docker.cliPresent && docker.infoOk(env) ==> m == Cached(env)
  {
    if !docker.cliPresent then Failed(NoCliMessage)
    else if docker.infoOk(env) then Cached(env)
    else
      match TryHosts(env, CandidateHosts(env, home), docker.infoOk)
      case Some(e) => Cached(e)
      case None => Failed(UnavailableMessage(docker.baseError))
  }

  function ResolveComposeEnv(memo: Memo, env: Env, home: string, docker: Docker): (r: (Memo, Result<Env, Error>))
    ensures !r.0.Unresolved?
    ensures memo != Unresolved ==> r.0 == memo
    ensures r.1.Ok? <==> r.0.Cached?
    ensures r.1.Ok? ==> r.0.env == r.1.value
    ensures r.1.Err? ==> r.1.error == RuntimeError(r.0.message)
    ensures memo == Unresolved && r.1.Ok? ==> (docker.infoOk(r.1.value)
      && (r.1.value == env || exists h :: h in CandidateHosts(env, home) && r.1.value == env["DOCKER_HOST" := h]))
    ensures memo == Unresolved && !docker.cliPresent ==> r.0 == Failed(NoCliMessage)
    ensures memo == Unresolved && docker.cliPresent && docker.infoOk(env) ==> r.0 == Cached(env)
  {
    match memo
    case Cached(e) => (memo, Ok(e))
    case Failed(m) => (memo, Err(RuntimeError(m)))
    case Unresolved =>
      var m := Probe(env, home, docker);
      (m, if m.Cached? then Ok(m.env) else Err(RuntimeError(m.message)))
  }

  /** Once settled, later calls give the same answer whatever the environment
      or the Docker daemon now looks like. */
  lemma {:induction false} ResolveSticky(memo: Memo, env: Env, home: string, docker: Docker,
                                         env2: Env, home2: string, docker2: Docker)
    ensures var (m1, a1) := ResolveComposeEnv(memo, env, home, docker);
      ResolveComposeEnv(m1, env2, home2, docker2) == (m1, a1)
  {
  }

  /** `_compose_env`: the resolved environment, with the extra variables laid
      over it when there are any. */
  function ComposeEnv(memo: Memo, env: Env, home: string, docker: Docker, extra: Option<Env>): (r: (Memo, Result<Env, Error>))
    ensures r.0 == ResolveComposeEnv(memo, env, home, docker).0
    ensures var base := ResolveComposeEnv(memo, env, home, docker).1;
      (r.1.Ok? <==> base.Ok?) && (base.Err? ==> r.1 == base)
    ensures r.1.Ok? ==> var base := ResolveComposeEnv(memo, env, home, docker).1.value;
      (forall k :: k in r.1.value <==> k in base || (extra.Some? && k in extra.value))
      && (forall k :: k in r.1.value ==> r.1.value[k] == if extra.Some? && k in extra.value then extra.value[k] else base[k])
  {
    var (m, resolved) := ResolveComposeEnv(memo, env, home, docker);
    match resolved
    case Err(e) => (m, Err(e))
    case Ok(base) =>
      if extra.Some? && extra.value != map[] then (m, Ok(base + extra.value)) else (m, Ok(base))
  }

  // ---------------------------------------------------------------- ssl

  /** `_verify_ssl_enabled`: on unless the variable lowercases to `false`. */
  function VerifySslEnabled(env: Env): (r: bool)
    ensures "KAMIWAZA_VERIFY_SSL" !in env ==> r
    ensures !r <==> "KAMIWAZA_VERIFY_SSL" in env && Lower(env["KAMIWAZA_VERIFY_SSL"]) == "false"
  {
    Lower(Client.EnvGet(env, "KAMIWAZA_VERIFY_SSL").GetOr("true")) != "false"
  }

  /** The test harness and the client read the variable the same way. */
  lemma VerifySslAgrees(env: Env)
    ensures VerifySslEnabled(env) == !Client.SslVerificationDisabled(env)
  {
  }
}

=== FILE: context.dfy ===
/** The request shaping of `ContextService`: the workroom header and query
    parameter, and which keys each vector-database, pipeline, search and
    upload call puts in its body and query string. Vectors, metadata and
    configuration objects are carried as opaque JSON values. */
module Context {
  import opened Common
  import DummyClient

  const WorkroomHeader := "X-Workroom-ID"

  // ---------------------------------------------------------------- workroom scoping

  /** `_merge_headers`: a copy of the caller's headers (none counts as empty),
      with the workroom header set, overwriting any caller value, only for a
      non-empty workroom id. The caller's map is a value and is never
      changed. */
  function MergeHeaders(workroomId: Option<string>, headers: Option<map<string, string>>): (r: map<string, string>)
    ensures Truthy(workroomId) ==> WorkroomHeader in r && r[WorkroomHeader] == workroomId.value
    ensures !Truthy(workroomId) ==> r == headers.GetOr(map[])
    ensures forall k :: k != WorkroomHeader ==>
      (k in r <==> k in headers.GetOr(map[])) && (k in r ==> r[k] == headers.GetOr(map[])[k])
  {
    var merged := headers.GetOr(map[]);
    if Truthy(workroomId) then merged[WorkroomHeader := workroomId.value] else merged
  }

  /** Merging twice with the same workroom is merging once. */
  lemma MergeHeadersIdempotent(workroomId: Option<string>, headers: Option<map<string, string>>)
    ensures MergeHeaders(workroomId, Some(MergeHeaders(workroomId, headers))) == MergeHeaders(workroomId, headers)
  {
    var once := MergeHeaders(workroomId, headers);
    var twice := MergeHeaders(workroomId, Some(once));
    assert twice.Keys == once.Keys;
  }

  /** Only the workroom header tells two merges of the same headers apart. */
  lemma MergeHeadersOnlyWorkroom(w1: Option<string>, w2: Option<string>, headers: Option<map<string, string>>)
    requires Truthy(w1) && Truthy(w2)
    ensures MergeHeaders(w1, headers) == MergeHeaders(w2, headers) <==> w1 == w2
  {
    if MergeHeaders(w1, headers) == MergeHeaders(w2, headers) {
      assert MergeHeaders(w1, headers)[WorkroomHeader] == w1.value;
    }
  }

  /** `_workroom_params`: `None` for a missing or empty id, otherwise the one
      entry `workroom_id`. */
  function WorkroomParams(workroomId: Option<string>): (k: Kw<map<string, Json>>)
    ensures k.PassNone? <==> !Truthy(workroomId)
    ensures k.Pass? ==> k.value == map["workroom_id" := JStr(workroomId.value)]
    ensures !k.Omitted?
  {
    if !Truthy(workroomId) then PassNone else Pass(map["workroom_id" := JStr(workroomId.value)])
  }

  /** The header map every context call passes (never `None`). */
  function Scoped(workroomId: Option<string>): Kw<map<string, string>> {
    Pass(MergeHeaders(workroomId, None))
  }

  /** The header map holds exactly the workroom header, and only when the id is
      non-empty. */
  lemma ScopedHeaders(workroomId: Option<string>)
    ensures Scoped(workroomId).Pass?
    ensures Truthy(workroomId) ==> Scoped(workroomId).value == map[WorkroomHeader := workroomId.value]
    ensures !Truthy(workroomId) ==> Scoped(workroomId).value == map[]
  {
    if Truthy(workroomId) {
      assert Scoped(workroomId).value.Keys == {WorkroomHeader};
    }
  }

  // ---------------------------------------------------------------- vector databases

  /** `create_vectordb`; `replicas` is `None` when not given (default 1). */
  function CreateVectorDb(name: string, engine: string, config: Option<Json>, workroomId: Option<string>,
                          replicas: Option<int>): (c: Call)
    ensures c.verb == Post && c.path == "/context/vectordbs"
    ensures c.body.Pass? && c.body.value.JObj?
    ensures var b := BodyFields(c);
      && b.Keys == {"name", "engine", "replicas"} + (if config.Some? then {"config"} else {})
                   + (if workroomId.Some? then {"workroom_id"} else {})
      && b["name"] == JStr(name) && b["engine"] == JStr(engine) && b["replicas"] == JInt(replicas.GetOr(1))
      && (config.Some? ==> b["config"] == config.value)
      && (workroomId.Some? ==> b["workroom_id"] == JStr(workroomId.value))
    ensures c.headers == Scoped(workroomId) && c.params.Omitted?
  {
    var base := map["name" := JStr(name), "engine" := JStr(engine), "replicas" := JInt(replicas.GetOr(1))];
    var payload := OptField(OptField(base, "config", config), "workroom_id", OptStr(workroomId));
    Call(Post, "/context/vectordbs", Omitted, Pass(JObj(payload)), Scoped(workroomId), None, false)
  }

  /** An empty workroom id is not `None`: it reaches the body but not the
      header. */
  lemma EmptyWorkroomBodyOnly(name: string, engine: string, config: Option<Json>, replicas: Option<int>)
    ensures var c := CreateVectorDb(name, engine, config, Some(""), replicas);
      "workroom_id" in BodyFields(c) && WorkroomHeader !in HeadersSent(c)
  {
  }

  /** The body the unit test expects for a bare `create_vectordb`. */
  lemma MinimalVectorDbBody(name: string, engine: string)
    ensures BodyFields(CreateVectorDb(name, engine, None, None, None))
      == map["name" := JStr(name), "engine" := JStr(engine), "replicas" := JInt(1)]
  {
  }

  /** `update_vectordb`: a `PUT` whose body holds exactly the given settings. */
  function UpdateVectorDb(vectordbId: string, config: Option<Json>, replicas: Option<int>, workroomId: Option<string>): (c: Call)
    ensures c.verb == Put && c.path == "/context/vectordbs/" + vectordbId
    ensures c.body.Pass? && c.body.value.JObj?
    ensures var b := BodyFields(c);
      && b.Keys == (if config.Some? then {"config"} else {}) + (if replicas.Some? then {"replicas"} else {})
      && (config.Some? ==> b["config"] == config.value)
      && (replicas.Some? ==> b["replicas"] == JInt(replicas.value))
    ensures c.params == WorkroomParams(workroomId) && c.headers == Scoped(workroomId)
  {
    var payload := OptField(OptField(map[], "config", config), "replicas", OptInt(replicas));
    Call(Put, "/context/vectordbs/" + vectordbId, WorkroomParams(workroomId), Pass(JObj(payload)), Scoped(workroomId), None, false)
  }

  /** The optional fields of a vector query; `limit` is `None` when not given
      (default 10). */
  datatype VectorQuery = VectorQuery(
    collectionName: string, vectors: Json, limit: Option<int>, params: Option<Json>, outputFields: Option<seq<string>>)

  function QueryPayload(q: VectorQuery): (m: map<string, Json>)
    ensures m.Keys == {"collection_name", "vectors", "limit"} + (if q.params.Some? then {"params"} else {})
      + (if q.outputFields.Some? then {"output_fields"} else {})
    ensures m["collection_name"] == JStr(q.collectionName) && m["vectors"] == q.vectors
    ensures m["limit"] == JInt(q.limit.GetOr(10))
    ensures q.params.Some? ==> m["params"] == q.params.value
    ensures q.outputFields.Some? ==> m["output_fields"] == StrList(q.outputFields.value)
  {
    var base := map["collection_name" := JStr(q.collectionName), "vectors" := q.vectors, "limit" := JInt(q.limit.GetOr(10))];
    OptField(OptField(base, "params", q.params), "output_fields", OptStrList(q.outputFields))
  }

  /** `query_vectors`: the database is named in the path. */
  function QueryVectors(vectordbId: string, q: VectorQuery, workroomId: Option<string>): (c: Call)
    ensures c.verb == Post && c.path == "/context/vectordbs/" + vectordbId + "/query"
    ensures c.body == Pass(JObj(QueryPayload(q))) && "vectordb_id" !in BodyFields(c)
    ensures c.params.Omitted? && c.headers == Scoped(workroomId)
  {
    Call(Post, "/context/vectordbs/" + vectordbId + "/query", Omitted, Pass(JObj(QueryPayload(q))), Scoped(workroomId), None, false)
  }

  /** `query_vectors_global`: the database is named in the body. */
  function QueryVectorsGlobal(vectordbId: string, q: VectorQuery, workroomId: Option<string>): (c: Call)
    ensures c.verb == Post && c.path == "/context/vectordbs/query"
    ensures c.body.Pass? && c.body.value.JObj?
    ensures "vectordb_id" in BodyFields(c) && BodyFields(c)["vectordb_id"] == JStr(vectordbId)
    ensures forall k :: k != "vectordb_id" ==> (k in BodyFields(c) <==> k in QueryPayload(q))
    ensures forall k :: k != "vectordb_id" && k in QueryPayload(q) ==> BodyFields(c)[k] == QueryPayload(q)[k]
    ensures c.params.Omitted? && c.headers == Scoped(workroomId)
  {
    Call(Post, "/context/vectordbs/query", Omitted, Pass(JObj(QueryPayload(q)["vectordb_id" := JStr(vectordbId)])),
         Scoped(workroomId), None, false)
  }

  /** The two query variants send the same body but for `vectordb_id`, and
      the same headers. */
  lemma QueryGlobalAddsId(vectordbId: string, q: VectorQuery, workroomId: Option<string>)
    ensures BodyFields(QueryVectorsGlobal(vectordbId, q, workroomId))
      == BodyFields(QueryVectors(vectordbId, q, workroomId))["vectordb_id" := JStr(vectordbId)]
    ensures QueryVectorsGlobal(vectordbId, q, workroomId).headers == QueryVectors(vectordbId, q, workroomId).headers
  {
  }

  /** The fields of a vector insert; `createIfMissing` is `None` when not
      given (default true). */
  datatype VectorInsert = VectorInsert(
    collectionName: string, vectors: Json, metadata: Json, fieldList: Option<Json>, createIfMissing: Option<bool>)

  function InsertPayload(v: VectorInsert): (m: map<string, Json>)
    ensures m.Keys == {"collection_name", "vectors", "metadata", "create_if_missing"}
      + (if v.fieldList.Some? then {"field_list"} else {})
    ensures m["collection_name"] == JStr(v.collectionName) && m["vectors"] == v.vectors && m["metadata"] == v.metadata
    ensures m["create_if_missing"] == JBool(v.createIfMissing.GetOr(true))
    ensures v.fieldList.Some? ==> m["field_list"] == v.fieldList.value
  {
    var base := map["collection_name" := JStr(v.collectionName), "vectors" := v.vectors, "metadata" := v.metadata,
                     "create_if_missing" := JBool(v.createIfMissing.GetOr(true))];
    OptField(base, "field_list", v.fieldList)
  }

  /** `insert_vectors`: the database is named in the path. */
  function InsertVectors(vectordbId: string, v: VectorInsert, workroomId: Option<string>): (c: Call)
    ensures c.verb == Post && c.path == "/context/vectordbs/" + vectordbId + "/insert"
    ensures c.body == Pass(JObj(InsertPayload(v))) && "vectordb_id" !in BodyFields(c)
    ensures c.params.Omitted? && c.headers == Scoped(workroomId)
  {
    Call(Post, "/context/vectordbs/" + vectordbId + "/insert", Omitted, Pass(JObj(InsertPayload(v))), Scoped(workroomId), None, false)
  }

  /** `insert_vectors_global`: the database is named in the body. */
  function InsertVectorsGlobal(vectordbId: string, v: VectorInsert, workroomId: Option<string>): (c: Call)
    ensures c.verb == Post && c.path == "/context/vectordbs/insert"
    ensures c.body.Pass? && c.body.value.JObj?
    ensures "vectordb_id" in BodyFields(c) && BodyFields(c)["vectordb_id"] == JStr(vectordbId)
    ensures forall k :: k != "vectordb_id" ==> (k in BodyFields(c) <==> k in InsertPayload(v))
    ensures forall k :: k != "vectordb_id" && k in InsertPayload(v) ==> BodyFields(c)[k] == InsertPayload(v)[k]
    ensures c.params.Omitted? && c.headers == Scoped(workroomId)
  {
    Call(Post, "/context/vectordbs/insert", Omitted, Pass(JObj(InsertPayload(v)["vectordb_id" := JStr(vectordbId)])),
         Scoped(workroomId), None, false)
  }

  /** The two insert variants send the same body but for `vectordb_id`. */
  lemma InsertGlobalAddsId(vectordbId: string, v: VectorInsert, workroomId: Option<string>)
    ensures BodyFields(InsertVectorsGlobal(vectordbId, v, workroomId))
      == BodyFields(InsertVectors(vectordbId, v, workroomId))["vectordb_id" := JStr(vectordbId)]
  {
  }

  // ---------------------------------------------------------------- pipelines, search, upload

  /** `list_pipeline_jobs`; `limit` and `offset` are `None` when not given
      (defaults 50 and 0). */
  function ListPipelineJobs(workroomId: string, status: Option<string>, limit: Option<int>, offset: Option<int>): (c: Call)
    ensures c.verb == Get && c.path == "/context/pipelines/"
    ensures c.params.Pass?
    ensures var p := ParamsSent(c);
      && p.Keys == {"limit", "offset"} + (if status.Some? then {"status"} else {})
      && p["limit"] == JInt(limit.GetOr(50)) && p["offset"] == JInt(offset.GetOr(0))
      && (status.Some? ==> p["status"] == JStr(status.value))
    ensures c.headers == Scoped(Some(workroomId))
  {
    var params := OptField(map["limit" := JInt(limit.GetOr(50)), "offset" := JInt(offset.GetOr(0))], "status", OptStr(status));
    Call(Get, "/context/pipelines/", Pass(params), Omitted, Scoped(Some(workroomId)), None, false)
  }

  /** The arguments of `agentic_search` that have defaults are `None` when not
      given: collection `default`, 3 iterations, threshold 0.7, top 10. */
  datatype AgenticArgs = AgenticArgs(
    query: string,
    vectordbIds: Option<seq<string>>,
    collection: Option<string>,
    ontologyId: Option<string>,
    groupIds: Option<seq<string>>,
    maxIterations: Option<int>,
    relevanceThreshold: Option<real>,
    topK: Option<int>)

  /** `agentic_search`: a missing or empty id list is sent as `[]`; the
      ontology and groups only when given. */
  /** The fields every agentic search sends, with the documented defaults. */
  function AgenticBase(a: AgenticArgs): (b: map<string, Json>)
    ensures b.Keys == {"query", "vectordb_ids", "collection", "max_iterations", "relevance_threshold", "top_k"}
    ensures b["query"] == JStr(a.query)
    ensures b["vectordb_ids"] == StrList(a.vectordbIds.GetOr([]))
    ensures b["collection"] == JStr(a.collection.GetOr("default"))
    ensures b["max_iterations"] == JInt(a.maxIterations.GetOr(3))
    ensures b["relevance_threshold"] == JReal(a.relevanceThreshold.GetOr(0.7))
    ensures b["top_k"] == JInt(a.topK.GetOr(10))
  {
    map[
      "query" := JStr(a.query),
      "vectordb_ids" := StrList(a.vectordbIds.GetOr([])),
      "collection" := JStr(a.collection.GetOr("default")),
      "max_iterations" := JInt(a.maxIterations.GetOr(3)),
      "relevance_threshold" := JReal(a.relevanceThreshold.GetOr(0.7)),
      "top_k" := JInt(a.topK.GetOr(10))]
  }

  function AgenticSearch(workroomId: string, a: AgenticArgs): (c: Call)
    ensures c.verb == Post && c.path == "/context/agentic/search"
    ensures c.body.Pass? && c.body.value.JObj?
    ensures var b := BodyFields(c);
      && b.Keys == {"query", "vectordb_ids", "collection", "max_iterations", "relevance_threshold", "top_k"}
                   + (if a.ontologyId.Some? then {"ontology_id"} else {})
                   + (if a.groupIds.Some? then {"group_ids"} else {})
      && b["query"] == JStr(a.query)
      && b["vectordb_ids"] == StrList(a.vectordbIds.GetOr([]))
      && b["collection"] == JStr(a.collection.GetOr("default"))
      && b["max_iterations"] == JInt(a.maxIterations.GetOr(3))
      && b["relevance_threshold"] == JReal(a.relevanceThreshold.GetOr(0.7))
      && b["top_k"] == JInt(a.topK.GetOr(10))
      && (a.ontologyId.Some? ==> b["ontology_id"] == JStr(a.ontologyId.value))
      && (a.groupIds.Some? ==> b["group_ids"] == StrList(a.groupIds.value))
    ensures c.params.Omitted? && c.headers == Scoped(Some(workroomId))
  {
    var base := AgenticBase(a);
    var payload := OptField(OptField(base, "ontology_id", OptStr(a.ontologyId)), "group_ids", OptStrList(a.groupIds));
    Call(Post, "/context/agentic/search", Omitted, Pass(JObj(payload)), Scoped(Some(workroomId)), None, false)
  }

  /** No id list and an empty id list are the same request. */
  lemma AgenticEmptyIds(workroomId: string, a: AgenticArgs)
    ensures AgenticSearch(workroomId, a.(vectordbIds := None)) == AgenticSearch(workroomId, a.(vectordbIds := Some([])))
  {
  }

  /** `upload_file`: the attachment always, the collection and source URN as
      query parameters when given, and `None` for parameters when neither is;
      `contentType` is `None` when not given (`application/octet-stream`). */
  function UploadFile(workroomId: string, filename: string, contentType: Option<string>,
                      collectionName: Option<string>, sourceUrn: Option<string>): (c: Call)
    ensures c.verb == Post && c.path == "/context/upload/"
    ensures c.files == Some(FilePart(filename, contentType.GetOr("application/octet-stream")))
    ensures c.params.PassNone? <==> collectionName.None? && sourceUrn.None?
    ensures ParamsSent(c).Keys ==
      (if collectionName.Some? then {"collection_name"} else {}) + (if sourceUrn.Some? then {"source_urn"} else {})
    ensures collectionName.Some? ==> "collection_name" in ParamsSent(c) && ParamsSent(c)["collection_name"] == JStr(collectionName.value)
    ensures sourceUrn.Some? ==> "source_urn" in ParamsSent(c) && ParamsSent(c)["source_urn"] == JStr(sourceUrn.value)
    ensures c.body.Omitted? && c.headers == Scoped(Some(workroomId))
  {
    var params := OptField(OptField(map[], "collection_name", OptStr(collectionName)), "source_urn", OptStr(sourceUrn));
    Call(Post, "/context/upload/", if params == map[] then PassNone else Pass(params), Omitted,
         Scoped(Some(workroomId)), Some(FilePart(filename, contentType.GetOr("application/octet-stream"))), false)
  }

  /** What the stub records for an upload: the file name and content type in
      the attachment tuple, and `None` parameters when no option was given. */
  lemma UploadRecorded(s: DummyClient.Stub, workroomId: string, filename: string, contentType: string)
    ensures var c := UploadFile(workroomId, filename, Some(contentType), None, None);
      var kw := DummyClient.Send(s, c).0.calls[|s.calls|].kwargs;
      && kw["params"] == JNull
      && kw["files"] == JObj(map["file" := JArr([JStr(filename), JNull, JStr(contentType)])])
  {
  }
}

=== FILE: dummy_client.dfy ===
/** The unit tests' stand-in HTTP client (`DummyAPIClient`): every call is
    recorded as `(method, path, kwargs)` and answered from a table of canned
    responses keyed by `(method, path)`. */
module DummyClient {
  import opened Common

  /** One recorded call: the lower-case method name, the path and the keyword
      arguments exactly as passed. */
  datatype Recorded = Recorded(verb: string, path: string, kwargs: map<string, Json>)

  datatype Stub = Stub(responses: map<(string, string), Json>, calls: seq<Recorded>)

  /** A fresh stub: the canned responses and no calls yet. */
  function NewStub(responses: map<(string, string), Json>): (s: Stub)
    ensures s.responses == responses && s.calls == []
  {
    Stub(responses, [])
  }

  /** `_dispatch`: the call is recorded before the table is consulted, so a
      call that fails is still in `calls`; an unknown key raises
      `AssertionError`, a known one returns its response unchanged. */
  function Dispatch(s: Stub, verb: string, path: string, kwargs: map<string, Json>): (r: (Stub, Result<Json, Error>))
    ensures r.0.responses == s.responses
    ensures r.0.calls == s.calls + [Recorded(verb, path, kwargs)]
    ensures (verb, path) in s.responses <==> r.1.Ok?
    ensures r.1.Ok? ==> r.1.value == s.responses[(verb, path)]
    ensures r.1.Err? ==> r.1.error == AssertionError(verb, path)
  {
    var s' := s.(calls := s.calls + [Recorded(verb, path, kwargs)]);
    if (verb, path) in s.responses then (s', Ok(s.responses[(verb, path)]))
    else (s', Err(AssertionError(verb, path)))
  }

  /** The method names the stub defines, as written: there is no `put`. */
  predicate HasMethod(name: string) {
    name == "get" || name == "post" || name == "patch" || name == "delete"
  }

  /** Calling `client.<name>(path, **kwargs)` on the stub as written: a
      defined method dispatches under its own name; any other name fails on
      attribute lookup, before anything is recorded. */
  function Invoke(s: Stub, name: string, path: string, kwargs: map<string, Json>): (r: (Stub, Result<Json, Error>))
    ensures HasMethod(name) ==> r == Dispatch(s, name, path, kwargs)
    ensures !HasMethod(name) ==> r == (s, Err(AttributeError(name)))
  {
    if HasMethod(name) then Dispatch(s, name, path, kwargs) else (s, Err(AttributeError(name)))
  }

  /** A `put` through the stub as written never reaches the table, even when
      the test registered a canned `("put", path)` response for it. */
  lemma PutNotDispatched(s: Stub, path: string, kwargs: map<string, Json>)
    requires ("put", path) in s.responses
    ensures Invoke(s, "put", path, kwargs) == (s, Err(AttributeError("put")))
    ensures Dispatch(s, "put", path, kwargs).1 == Ok(s.responses[("put", path)])
  {
  }

  /** The method names the stub needs to replay every verb the services use. */
  predicate HasMethodFixed(name: string) {
    HasMethod(name) || name == "put"
  }

  /** The stub with the missing `put` method added. */
  function InvokeFixed(s: Stub, name: string, path: string, kwargs: map<string, Json>): (r: (Stub, Result<Json, Error>))
    ensures HasMethodFixed(name) ==> r == Dispatch(s, name, path, kwargs)
    ensures !HasMethodFixed(name) ==> r == (s, Err(AttributeError(name)))
  {
    if HasMethodFixed(name) then Dispatch(s, name, path, kwargs) else (s, Err(AttributeError(name)))
  }

  /** With `put` defined, every verb the services send is recorded and
      answered from the table like the others. */
  lemma FixedPutReplays(s: Stub, path: string, kwargs: map<string, Json>)
    requires ("put", path) in s.responses
    ensures var r := InvokeFixed(s, "put", path, kwargs);
      r.1 == Ok(s.responses[("put", path)]) &&
      r.0.calls == s.calls + [Recorded("put", path, kwargs)]
  {
  }

  /** One call a test makes: the method name, the path and the kwargs. */
  datatype Request = Request(name: string, path: string, kwargs: map<string, Json>)

  /** A test's calls in order; the stub keeps going after a failure, as a
      test that catches the exception would. */
  function Replay(s: Stub, reqs: seq<Request>): (r: (Stub, seq<Result<Json, Error>>))
    ensures |r.1| == |reqs|
    ensures r.0.responses == s.responses
    decreases |reqs|
  {
    if reqs == [] then (s, [])
    else
      var (s1, out) := InvokeFixed(s, reqs[0].name, reqs[0].path, reqs[0].kwargs);
      var (s2, outs) := Replay(s1, reqs[1..]);
      (s2, [out] + outs)
  }

  /** What the log gains from one request. */
  function Logged(q: Request): seq<Recorded> {
    if HasMethodFixed(q.name) then [Recorded(q.name, q.path, q.kwargs)] else []
  }

  function LoggedAll(reqs: seq<Request>): seq<Recorded>
    decreases |reqs|
  {
    if reqs == [] then [] else Logged(reqs[0]) + LoggedAll(reqs[1..])
  }

  /** Replaying a test's calls appends exactly the dispatched ones to the log,
      in call order, whether or not they found a canned response. */
  lemma {:induction false} ReplayLog(s: Stub, reqs: seq<Request>)
    ensures Replay(s, reqs).0.calls == s.calls + LoggedAll(reqs)
    decreases |reqs|
  {
    if reqs != [] {
      var s1 := InvokeFixed(s, reqs[0].name, reqs[0].path, reqs[0].kwargs).0;
      ReplayLog(s1, reqs[1..]);
      assert s1.calls == s.calls + Logged(reqs[0]);
    }
  }

  /** The i-th answer of a replay depends only on the i-th request and the
      table: the stub has no other state that influences a response. */
  lemma {:induction false} ReplayAnswers(s: Stub, reqs: seq<Request>, i: nat)
    requires i < |reqs|
    ensures Replay(s, reqs).1[i] == InvokeFixed(s, reqs[i].name, reqs[i].path, reqs[i].kwargs).1
    decreases |reqs|
  {
    if i > 0 {
      var s1 := InvokeFixed(s, reqs[0].name, reqs[0].path, reqs[0].kwargs).0;
      ReplayAnswers(s1, reqs[1..], i - 1);
    }
  }

  // ---------------------------------------------------------------- service calls

  /** The client method a service wrapper calls for a verb. */
  function VerbName(v: Verb): (name: string)
    ensures HasMethodFixed(name)
    ensures HasMethod(name) <==> !v.Put?
  {
    match v
    case Get => "get"
    case Post => "post"
    case Put => "put"
    case Patch => "patch"
    case Delete => "delete"
  }

  /** A keyword argument as the stub records it: absent when omitted, `None`
      when passed as `None`. */
  function KwEntry(m: map<string, Json>, key: string, k: Kw<Json>): (r: map<string, Json>)
    ensures key in r <==> key in m || !k.Omitted?
    ensures k.PassNone? ==> r[key] == JNull
    ensures k.Pass? ==> r[key] == k.value
    ensures forall x :: x != key ==> (x in r <==> x in m) && (x in m ==> r[x] == m[x])
  {
    match k
    case Omitted => m
    case PassNone => m[key := JNull]
    case Pass(v) => m[key := v]
  }

  function ParamsKw(k: Kw<map<string, Json>>): Kw<Json> {
    match k
    case Omitted => Omitted
    case PassNone => PassNone
    case Pass(m) => Pass(JObj(m))
  }

  function HeadersKw(k: Kw<map<string, string>>): Kw<Json> {
    match k
    case Omitted => Omitted
    case PassNone => PassNone
    case Pass(h) => Pass(JObj(map x | x in h :: JStr(h[x])))
  }

  /** `files={"file": (filename, content, content_type)}`; the content itself
      is not modelled and keeps its place as `None`. */
  function FilesKw(f: FilePart): Json {
    JObj(map["file" := JArr([JStr(f.filename), JNull, JStr(f.contentType)])])
  }

  /** The keyword arguments a call hands the client: `params`, `json`,
      `headers` and `files` as passed, and `expect_json=False` for a raw call. */
  /** The `params` and `json` keywords alone. */
  function PayloadKw(c: Call): (kw: map<string, Json>)
    ensures kw.Keys <= {"params", "json"}
    ensures "params" in kw <==> !c.params.Omitted?
    ensures "json" in kw <==> !c.body.Omitted?
    ensures c.params.PassNone? ==> kw["params"] == JNull
    ensures c.params.Pass? ==> kw["params"] == JObj(c.params.value)
    ensures c.body.Pass? ==> kw["json"] == c.body.value
  {
    KwEntry(KwEntry(map[], "params", ParamsKw(c.params)), "json", c.body)
  }

  function Kwargs(c: Call): (kw: map<string, Json>)
    ensures "params" in kw <==> !c.params.Omitted?
    ensures "json" in kw <==> !c.body.Omitted?
    ensures "headers" in kw <==> !c.headers.Omitted?
    ensures "files" in kw <==> c.files.Some?
    ensures "expect_json" in kw <==> c.rawResponse
    ensures c.params.PassNone? ==> kw["params"] == JNull
    ensures c.params.Pass? ==> kw["params"] == JObj(c.params.value)
    ensures c.body.Pass? ==> kw["json"] == c.body.value
  {
    var m2 := PayloadKw(c);
    var m3 := KwEntry(m2, "headers", HeadersKw(c.headers));
    var m4 := if c.files.Some? then m3["files" := FilesKw(c.files.value)] else m3;
    if c.rawResponse then m4["expect_json" := JBool(false)] else m4
  }

  /** A wrapper's call made against the stub (with `put` defined). */
  function Send(s: Stub, c: Call): (r: (Stub, Result<Json, Error>))
    ensures r.0.responses == s.responses
    ensures r.0.calls == s.calls + [Recorded(VerbName(c.verb), c.path, Kwargs(c))]
    ensures r.1.Ok? <==> (VerbName(c.verb), c.path) in s.responses
    ensures r.1.Ok? ==> r.1.value == s.responses[(VerbName(c.verb), c.path)]
  {
    InvokeFixed(s, VerbName(c.verb), c.path, Kwargs(c))
  }
}

=== FILE: enclaves.dfy ===
/** The request shaping of the enclave helpers (`ConnectorClient`,
    `DocumentClient`): which filters reach the query string, and how the
    system-high classification header is added to the caller's headers
    without ever replacing a value the caller set. Identifiers are carried
    as the strings `str()` gives for them; payload models are carried as
    their field maps. */
module Enclaves {
  import opened Common
  import DummyClient

  const ConnectorsPath := "/enclaves/connectors"
  const DocumentsPath := "/enclaves/documents"
  const SystemHighHeader := "X-User-System-High"

  /** The headers a keyword argument actually carries. */
  function Carried(k: Kw<map<string, string>>): map<string, string> {
    if k.Pass? then k.value else map[]
  }

  // ---------------------------------------------------------------- system-high header

  /** `dict(headers or {})` followed by `setdefault` of the system-high header
      when a non-empty classification is given, sent as `None` when the
      result is empty. */
  function RequestHeaders(systemHigh: Option<string>, headers: Option<map<string, string>>): (k: Kw<map<string, string>>)
    ensures !k.Omitted?
    ensures k.PassNone? <==> headers.GetOr(map[]) == map[] && !Truthy(systemHigh)
    ensures k.Pass? ==> k.value != map[]
    ensures var given := headers.GetOr(map[]);
      forall h :: h in given ==> h in Carried(k) && Carried(k)[h] == given[h]
    ensures var given := headers.GetOr(map[]);
      forall h :: h in Carried(k) && h != SystemHighHeader ==> h in given
    ensures SystemHighHeader in Carried(k) <==> SystemHighHeader in headers.GetOr(map[]) || Truthy(systemHigh)
    ensures SystemHighHeader !in headers.GetOr(map[]) && Truthy(systemHigh) ==>
      Carried(k)[SystemHighHeader] == systemHigh.value
  {
    var given := headers.GetOr(map[]);
    var merged := if Truthy(systemHigh) && SystemHighHeader !in given
      then given[SystemHighHeader := systemHigh.value] else given;
    assert merged == map[] ==> given == map[] && !Truthy(systemHigh) by {
      if given != map[] {
        var h :| h in given;
        assert h in merged;
      }
    }
    if merged == map[] then PassNone else Pass(merged)
  }

  /** A classification the caller already put in `headers` is kept, whatever
      `system_high` says. */
  lemma CallerClassificationKept(systemHigh: Option<string>, headers: map<string, string>)
    requires SystemHighHeader in headers
    ensures RequestHeaders(systemHigh, Some(headers)) == Pass(headers)
  {
  }

  /** Feeding the sent headers back in with the same classification sends the
      same headers again. */
  lemma RequestHeadersIdempotent(systemHigh: Option<string>, headers: Option<map<string, string>>)
    ensures RequestHeaders(systemHigh, Some(Carried(RequestHeaders(systemHigh, headers)))) ==
            RequestHeaders(systemHigh, headers)
  {
    var once := RequestHeaders(systemHigh, headers);
    var twice := RequestHeaders(systemHigh, Some(Carried(once)));
    assert Carried(twice).Keys == Carried(once).Keys;
  }

  // ---------------------------------------------------------------- connectors

  /** The query of `ConnectorClient.list`: `limit`, `offset` and `enabled`
      whenever they are not `None` (so `enabled=False` is sent), `source_type`
      and `tag` only when non-empty. */
  function ConnectorListParams(limit: Option<int>, offset: Option<int>, sourceType: Option<string>,
                               enabled: Option<bool>, tag: Option<string>): (p: map<string, Json>)
    ensures "limit" in p <==> limit.Some?
    ensures "offset" in p <==> offset.Some?
    ensures "source_type" in p <==> Truthy(sourceType)
    ensures "enabled" in p <==> enabled.Some?
    ensures "tag" in p <==> Truthy(tag)
    ensures limit.Some? ==> p["limit"] == JInt(limit.value)
    ensures offset.Some? ==> p["offset"] == JInt(offset.value)
    ensures Truthy(sourceType) ==> p["source_type"] == JStr(sourceType.value)
    ensures enabled.Some? ==> p["enabled"] == JBool(enabled.value)
    ensures Truthy(tag) ==> p["tag"] == JStr(tag.value)
    ensures forall k :: k in p ==> k == "limit" || k == "offset" || k == "source_type" || k == "enabled" || k == "tag"
  {
    var p2 := Paged(map[], limit, offset);
    var p3 := OptField(p2, "source_type", if Truthy(sourceType) then OptStr(sourceType) else None);
    var p4 := OptField(p3, "enabled", if enabled.Some? then Some(JBool(enabled.value)) else None);
    OptField(p4, "tag", if Truthy(tag) then OptStr(tag) else None)
  }

  /** A query with `limit` and `offset` added, each when it is not `None`. */
  function Paged(m: map<string, Json>, limit: Option<int>, offset: Option<int>): (p: map<string, Json>)
    requires "limit" !in m && "offset" !in m
    ensures "limit" in p <==> limit.Some?
    ensures "offset" in p <==> offset.Some?
    ensures limit.Some? ==> p["limit"] == JInt(limit.value)
    ensures offset.Some? ==> p["offset"] == JInt(offset.value)
    ensures forall k :: k in p ==> k in m || k == "limit" || k == "offset"
    ensures forall k :: k in m ==> k in p && p[k] == m[k]
  {
    OptField(OptField(m, "limit", OptInt(limit)), "offset", OptInt(offset))
  }

  /** `ConnectorClient.list`: a GET on the collection with `params or None`.
      The defaults are `limit=50` and `offset=0`, given here explicitly. */
  function ConnectorList(limit: Option<int>, offset: Option<int>, sourceType: Option<string>,
                         enabled: Option<bool>, tag: Option<string>): (c: Call)
    ensures c.verb == Get && c.path == ConnectorsPath + "/"
    ensures c.body.Omitted? && c.headers.Omitted? && c.files.None? && !c.rawResponse
    ensures !c.params.Omitted?
    ensures c.params.PassNone? <==>
      limit.None? && offset.None? && !Truthy(sourceType) && enabled.None? && !Truthy(tag)
    ensures ParamsSent(c) == ConnectorListParams(limit, offset, sourceType, enabled, tag)
  {
    var p := ConnectorListParams(limit, offset, sourceType, enabled, tag);
    if p == map[] then
      Bare(Get, ConnectorsPath + "/").(params := PassNone)
    else
      assert p.Keys != {};
      Bare(Get, ConnectorsPath + "/").(params := Pass(p))
  }

  /** With every argument left at its default only the paging is sent. */
  lemma ConnectorListDefaults()
    ensures ConnectorList(Some(50), Some(0), None, None, None).params ==
      Pass(map["limit" := JInt(50), "offset" := JInt(0)])
  {
    var p := ConnectorListParams(Some(50), Some(0), None, None, None);
    assert p.Keys == {"limit", "offset"};
  }

  /** Every filter given is sent under its own name (the unit test's call). */
  lemma ConnectorListAllFilters()
    ensures ConnectorList(Some(10), Some(5), Some("s3"), Some(true), Some("demo")).params ==
      Pass(map["limit" := JInt(10), "offset" := JInt(5), "source_type" := JStr("s3"),
               "enabled" := JBool(true), "tag" := JStr("demo")])
  {
    var p := ConnectorListParams(Some(10), Some(5), Some("s3"), Some(true), Some("demo"));
    assert p.Keys == {"limit", "offset", "source_type", "enabled", "tag"};
  }

  /** Turning every filter off, paging included, sends `params=None`; turning
      off only `enabled` still sends `enabled=False`. */
  lemma ConnectorListDisabledIsSent(limit: Option<int>, offset: Option<int>)
    ensures ConnectorList(None, None, None, None, None).params == PassNone
    ensures var c := ConnectorList(limit, offset, None, Some(false), None);
      c.params.Pass? && c.params.value["enabled"] == JBool(false)
  {
  }

  /** The single-connector calls and the creation of connectors and documents. */
  datatype ConnectorOp =
    | CreateConnector(payload: map<string, Json>)
    | GetConnector(id: string)
    | UpdateConnector(id: string, payload: map<string, Json>)
    | DeleteConnector(id: string)
    | TriggerIngest(id: string)
    | CreateDocument(payload: map<string, Json>)

  /** The call each operation makes: payloads are dumped without their
      `None` fields, and an update is a PUT. */
  function ConnectorCall(op: ConnectorOp): (c: Call)
    ensures c.params.Omitted? && c.headers.Omitted? && c.files.None? && !c.rawResponse
    ensures c.verb == Put <==> op.UpdateConnector?
    ensures c.verb == Post <==> op.CreateConnector? || op.TriggerIngest? || op.CreateDocument?
    ensures c.verb == Get <==> op.GetConnector?
    ensures c.verb == Delete <==> op.DeleteConnector?
    ensures c.body.Pass? <==> op.CreateConnector? || op.UpdateConnector? || op.CreateDocument?
    ensures c.body.Pass? ==> c.body == Pass(JObj(DropNone(op.payload)))
    ensures op.GetConnector? || op.UpdateConnector? || op.DeleteConnector? ==>
      c.path == ConnectorsPath + "/" + op.id
    ensures op.TriggerIngest? ==> c.path == ConnectorsPath + "/" + op.id + "/trigger_ingest"
    ensures op.CreateDocument? ==> c.path == DocumentsPath + "/"
    ensures op.CreateConnector? ==> c.path == ConnectorsPath + "/"
  {
    match op
    case CreateConnector(payload) => Bare(Post, ConnectorsPath + "/").(body := Pass(JObj(DropNone(payload))))
    case GetConnector(id) => Bare(Get, ConnectorsPath + "/" + id)
    case UpdateConnector(id, payload) =>
      Bare(Put, ConnectorsPath + "/" + id).(body := Pass(JObj(DropNone(payload))))
    case DeleteConnector(id) => Bare(Delete, ConnectorsPath + "/" + id)
    case TriggerIngest(id) => Bare(Post, ConnectorsPath + "/" + id + "/trigger_ingest")
    case CreateDocument(payload) => Bare(Post, DocumentsPath + "/").(body := Pass(JObj(DropNone(payload))))
  }

  /** Get, update and delete of one connector share its path and differ only
      in the verb, so a response table needs one entry per verb. */
  lemma ConnectorRoundTripPaths(id: string, payload: map<string, Json>)
    ensures ConnectorCall(GetConnector(id)).path == ConnectorCall(UpdateConnector(id, payload)).path
    ensures ConnectorCall(UpdateConnector(id, payload)).path == ConnectorCall(DeleteConnector(id)).path
    ensures DummyClient.VerbName(ConnectorCall(UpdateConnector(id, payload)).verb) == "put"
  {
  }

  /** The connector update through the stub as written fails on the missing
      `put` method and leaves no record, even with its response registered. */
  lemma UpdateOnStubFails(s: DummyClient.Stub, id: string, payload: map<string, Json>, kwargs: map<string, Json>)
    requires ("put", ConnectorsPath + "/" + id) in s.responses
    ensures var c := ConnectorCall(UpdateConnector(id, payload));
      DummyClient.Invoke(s, DummyClient.VerbName(c.verb), c.path, kwargs) == (s, Err(AttributeError("put")))
  {
    DummyClient.PutNotDispatched(s, ConnectorsPath + "/" + id, kwargs);
  }

  // ---------------------------------------------------------------- documents

  /** The query of `DocumentClient.list`: `source_id` always, `limit` and
      `offset` whenever not `None`, `item_type` and `tag` only when
      non-empty. */
  function DocumentListParams(sourceId: string, limit: Option<int>, offset: Option<int>,
                              itemType: Option<string>, tag: Option<string>): (p: map<string, Json>)
    ensures "source_id" in p && p["source_id"] == JStr(sourceId)
    ensures "limit" in p <==> limit.Some?
    ensures "offset" in p <==> offset.Some?
    ensures "item_type" in p <==> Truthy(itemType)
    ensures "tag" in p <==> Truthy(tag)
    ensures limit.Some? ==> p["limit"] == JInt(limit.value)
    ensures offset.Some? ==> p["offset"] == JInt(offset.value)
    ensures Truthy(itemType) ==> p["item_type"] == JStr(itemType.value)
    ensures Truthy(tag) ==> p["tag"] == JStr(tag.value)
    ensures forall k :: k in p ==> k == "source_id" || k == "limit" || k == "offset" || k == "item_type" || k == "tag"
  {
    var p2 := Paged(map["source_id" := JStr(sourceId)], limit, offset);
    var p3 := OptField(p2, "item_type", if Truthy(itemType) then OptStr(itemType) else None);
    OptField(p3, "tag", if Truthy(tag) then OptStr(tag) else None)
  }

  /** `DocumentClient.list`; the defaults are `limit=20` and `offset=0`. The
      query is always sent, since it always holds `source_id`. */
  function DocumentList(sourceId: string, limit: Option<int>, offset: Option<int>, itemType: Option<string>,
                        tag: Option<string>, systemHigh: Option<string>, headers: Option<map<string, string>>): (c: Call)
    ensures c.verb == Get && c.path == DocumentsPath + "/"
    ensures c.body.Omitted? && c.files.None? && !c.rawResponse
    ensures c.params == Pass(DocumentListParams(sourceId, limit, offset, itemType, tag))
    ensures c.headers == RequestHeaders(systemHigh, headers)
  {
    Bare(Get, DocumentsPath + "/").(params := Pass(DocumentListParams(sourceId, limit, offset, itemType, tag)),
                                    headers := RequestHeaders(systemHigh, headers))
  }

  /** `DocumentClient.get`: the query is exactly `source_id`, and the headers
      follow the same rule as for listing. */
  function DocumentGet(documentId: string, sourceId: string, systemHigh: Option<string>,
                       headers: Option<map<string, string>>): (c: Call)
    ensures c.verb == Get && c.path == DocumentsPath + "/" + documentId
    ensures c.body.Omitted? && c.files.None? && !c.rawResponse
    ensures c.params == Pass(map["source_id" := JStr(sourceId)])
    ensures c.headers == RequestHeaders(systemHigh, headers)
  {
    Bare(Get, DocumentsPath + "/" + documentId).(params := Pass(map["source_id" := JStr(sourceId)]),
                                                 headers := RequestHeaders(systemHigh, headers))
  }

  /** Listing and fetching documents scope by source and classify the same
      way: the query of a get is the `source_id` part of a list query with no
      paging, and both send identical headers. */
  lemma DocumentGetMatchesList(documentId: string, sourceId: string, systemHigh: Option<string>,
                               headers: Option<map<string, string>>)
    ensures DocumentGet(documentId, sourceId, systemHigh, headers).params ==
            DocumentList(sourceId, None, None, None, None, systemHigh, headers).params
    ensures DocumentGet(documentId, sourceId, systemHigh, headers).headers ==
            DocumentList(sourceId, None, None, None, None, systemHigh, headers).headers
  {
    var p := DocumentListParams(sourceId, None, None, None, None);
    assert p.Keys == {"source_id"};
  }

  /** The unit tests' calls: with no caller headers the system-high value is
      the only header sent. */
  lemma DocumentCallsClassified(documentId: string, sourceId: string)
    ensures DocumentList(sourceId, Some(5), Some(0), Some("document"), Some("demo"), Some("U"), None).headers ==
      Pass(map[SystemHighHeader := "U"])
    ensures DocumentGet(documentId, sourceId, Some("U"), None).headers == Pass(map[SystemHighHeader := "U"])
  {
  }
}

=== FILE: env_file.dfy ===
/** The test suite's `.env` loader (`_load_env_file`): `KEY=VALUE` lines are
    added to the process environment unless the key is already set. */
module EnvFile {
  import opened Common
  import opened Text

  type Env = map<string, string>

  datatype Assignment = Assignment(key: string, value: string)

  predicate IsQuote(c: char) { c == '\'' || c == '"' }

  /** A value of two or more characters that starts with a quote and ends with
      a quote (either kind, not necessarily the same) loses both ends. */
  function Dequote(v: string): (r: string)
    ensures |v| >= 2 && IsQuote(v[0]) && IsQuote(v[|v| - 1]) ==> r == v[1..|v| - 1]
    ensures !(|v| >= 2 && IsQuote(v[0]) && IsQuote(v[|v| - 1])) ==> r == v
  {
    if |v| >= 2 && IsQuote(v[0]) && IsQuote(v[|v| - 1]) then v[1..|v| - 1] else v
  }

  /** One line: blank lines, comments, lines without `=` and lines whose key
      is blank give nothing; otherwise the stripped line is cut at its first
      `=` into a stripped key and a stripped, dequoted value. */
  function ParseLine(raw: string): (r: Option<Assignment>)
    ensures Strip(raw) == [] || Strip(raw)[0] == '#' || '=' !in Strip(raw) ==> r.None?
    ensures r.Some? ==> r.value.key != [] && '=' !in r.value.key
    ensures r.Some? ==> !IsSpace(r.value.key[0]) && !IsSpace(r.value.key[|r.value.key| - 1])
  {
    var line := Strip(raw);
    if line == [] || line[0] == '#' then None
    else
      var (before, sep, after) := Partition(line, '=');
      if sep == [] then None
      else
        var key := Strip(before);
        if key == [] then None
        else
          assert '=' !in key by { StripSub(before, '='); }
          Some(Assignment(key, Dequote(Strip(after))))
  }

  /** Every line of a file, parsed on its own. */
  function ParseAll(lines: seq<string>): (ps: seq<Option<Assignment>>)
    ensures |ps| == |lines|
    ensures forall i :: 0 <= i < |lines| ==> ps[i] == ParseLine(lines[i])
  {
    seq(|lines|, i requires 0 <= i < |lines| => ParseLine(lines[i]))
  }

  /** The first assignment to `k` among parsed lines, if any. */
  function FirstDefinition(ps: seq<Option<Assignment>>, k: string): Option<string>
    decreases |ps|
  {
    if ps == [] then None
    else if ps[0].Some? && ps[0].value.key == k then Some(ps[0].value.value)
    else FirstDefinition(ps[1..], k)
  }

  /** One line of the loop: an assignment to a key not yet set sets it. */
  function ApplyLine(env: Env, parsed: Option<Assignment>): (r: Env)
    ensures forall k :: k in env ==> k in r && r[k] == env[k]
    ensures forall k :: k !in env && k in r ==> parsed == Some(Assignment(k, r[k]))
    ensures parsed.Some? ==> parsed.value.key in r
  {
    match parsed
    case None => env
    case Some(a) => if a.key in env then env else env[a.key := a.value]
  }

  /** The loop over the parsed lines, in file order. */
  function ApplyAll(env: Env, ps: seq<Option<Assignment>>): (r: Env)
    ensures forall k :: k in env ==> k in r && r[k] == env[k]
    decreases |ps|
  {
    if ps == [] then env else ApplyAll(ApplyLine(env, ps[0]), ps[1..])
  }

  /** A key that was not already set ends up with its first definition in the
      file, and is absent when the file never defines it. */
  lemma {:induction false} FirstWins(env: Env, ps: seq<Option<Assignment>>, k: string)
    requires k !in env
    ensures k in ApplyAll(env, ps) <==> FirstDefinition(ps, k).Some?
    ensures k in ApplyAll(env, ps) ==> ApplyAll(env, ps)[k] == FirstDefinition(ps, k).value
    decreases |ps|
  {
    if ps != [] {
      var next := ApplyLine(env, ps[0]);
      if k !in next {
        FirstWins(next, ps[1..], k);
      }
    }
  }

  /** `_load_env_file`: a missing file changes nothing; otherwise its lines are
      applied in order, and existing variables are never overwritten. */
  function LoadEnvFile(env: Env, contents: Option<string>): (r: Env)
    ensures contents.None? ==> r == env
    ensures forall k :: k in env ==> k in r && r[k] == env[k]
  {
    match contents
    case None => env
    case Some(text) => ApplyAll(env, ParseAll(SplitLines(text)))
  }

  /** Writing a `KEY=VALUE` line and reading it back gives the key and the
      dequoted value: the line is cut at the first `=`, so the value may
      itself contain `=`. */
  lemma ParseWrittenLine(k: string, v: string)
    requires k != [] && '=' !in k && k[0] != '#'
    requires !IsSpace(k[0]) && !IsSpace(k[|k| - 1])
    requires v == [] || (!IsSpace(v[0]) && !IsSpace(v[|v| - 1]))
    ensures ParseLine(k + "=" + v) == Some(Assignment(k, Dequote(v)))
  {
    WrittenLineStrips(k, v);
    PartitionAt(k, '=', v);
    StripNoEdgeSpace(k);
    StripNoEdgeSpace(v);
  }

  /** A written line has no whitespace at either end. */
  lemma WrittenLineStrips(k: string, v: string)
    requires k != [] && !IsSpace(k[0])
    requires v == [] || !IsSpace(v[|v| - 1])
    ensures Strip(k + "=" + v) == k + "=" + v
  {
    var line := k + "=" + v;
    assert line[0] == k[0];
    assert line[|line| - 1] == if v == [] then '=' else v[|v| - 1];
    StripNoEdgeSpace(line);
  }

  /** A duplicated key keeps its first value. */
  lemma FirstDefinitionWins(env: Env, k: string, v1: string, v2: string)
    requires k !in env
    requires k != [] && '=' !in k && k[0] != '#' && !IsSpace(k[0]) && !IsSpace(k[|k| - 1])
    requires v1 == [] || (!IsSpace(v1[0]) && !IsSpace(v1[|v1| - 1]))
    ensures var r := ApplyAll(env, ParseAll([k + "=" + v1, k + "=" + v2]));
      k in r && r[k] == Dequote(v1)
  {
    ParseWrittenLine(k, v1);
    var ps := ParseAll([k + "=" + v1, k + "=" + v2]);
    FirstWins(env, ps, k);
  }
}

=== FILE: extensions.dfy ===
/** `ExtensionService` and the validation rules of its request models:
    extension names address the resource, a 404 becomes `NotFoundError`
    naming the extension, creation posts the full model dump, and the
    models bound ports, replicas, risk tiers and the extension type. */
module Extensions {
  import opened Common
  import DummyClient

  // ---------------------------------------------------------------- service

  function ExtensionPath(name: string): (p: string)
    ensures |p| == 12 + |name| && p[..12] == "/extensions/" && p[12..] == name
  {
    "/extensions/" + name
  }

  /** The message of the `NotFoundError` for a missing extension. */
  function NotFoundMessage(name: string): (m: string)
    ensures |m| == |name| + 22 && m[11..11 + |name|] == name
  {
    "Extension '" + name + "' not found"
  }

  /** `list_extensions`: every item of the response array is validated, in
      order; an empty array gives an empty list. */
  function ListExtensions<X>(response: seq<Json>, validate: Json -> Result<X, Error>): (r: Result<seq<X>, Error>)
    ensures response == [] ==> r == Ok([])
    ensures r.Ok? <==> forall i :: 0 <= i < |response| ==> validate(response[i]).Ok?
    ensures r.Ok? ==> |r.value| == |response|
    ensures r.Ok? ==> forall i :: 0 <= i < |response| ==> r.value[i] == validate(response[i]).value
  {
    ValidateAll(response, validate)
  }

  /** `get_extension`: one GET; a 404 becomes `NotFoundError` naming the
      extension, any other error is re-raised unchanged. */
  function GetExtension(name: string, send: Call -> Result<Json, Error>): (r: Result<Json, Error>)
    ensures send(Bare(Get, ExtensionPath(name))).Ok? ==> r == send(Bare(Get, ExtensionPath(name)))
    ensures send(Bare(Get, ExtensionPath(name))) == Err(APIError(Some(404))) ==>
      r == Err(NotFoundError(NotFoundMessage(name)))
    ensures var sent := send(Bare(Get, ExtensionPath(name)));
      sent.Err? && sent.error != APIError(Some(404)) ==> r == sent
  {
    Guarded(send(Bare(Get, ExtensionPath(name))), NotFoundMessage(name))
  }

  /** `create_extension`: a POST of the full model dump, `None` fields
      included. */
  function CreateExtension(request: map<string, Json>): (c: Call)
    ensures c.verb == Post && c.path == "/extensions"
    ensures c.body.Pass? && c.body.value.JObj?
    ensures BodyFields(c).Keys == request.Keys
    ensures forall k :: k in request ==> BodyFields(c)[k] == request[k]
    ensures c.params.Omitted? && c.headers.Omitted? && !c.rawResponse
  {
    Bare(Post, "/extensions").(body := Pass(JObj(request)))
  }

  /** `delete_extension`: `True` whatever the response holds; a 404 becomes
      `NotFoundError` naming the extension, any other error is re-raised. */
  function DeleteExtension(name: string, send: Call -> Result<Json, Error>): (r: Result<bool, Error>)
    ensures send(Bare(Delete, ExtensionPath(name))).Ok? <==> r == Ok(true)
    ensures send(Bare(Delete, ExtensionPath(name))) == Err(APIError(Some(404))) ==>
      r == Err(NotFoundError(NotFoundMessage(name)))
    ensures var sent := send(Bare(Delete, ExtensionPath(name)));
      sent.Err? && sent.error != APIError(Some(404)) ==> r == Err(sent.error)
    ensures r.Ok? ==> r.value
  {
    var sent := Guarded(send(Bare(Delete, ExtensionPath(name))), NotFoundMessage(name));
    if sent.Ok? then Ok(true) else Err(sent.error)
  }

  /** The delete call hands the client no keyword arguments at all. */
  lemma DeleteSendsNoKwargs(name: string)
    ensures DummyClient.Kwargs(Bare(Delete, ExtensionPath(name))) == map[]
  {
    var kw := DummyClient.Kwargs(Bare(Delete, ExtensionPath(name)));
    assert kw.Keys == {};
  }

  /** Get and delete agree on every outcome but success: both name the
      extension when it is missing and both pass other errors through. */
  lemma GetDeleteSameErrors(name: string, send: Call -> Result<Json, Error>, e: Error)
    requires send(Bare(Get, ExtensionPath(name))) == Err(e)
    requires send(Bare(Delete, ExtensionPath(name))) == Err(e)
    ensures GetExtension(name, send) == Err(DeleteExtension(name, send).error)
  {
  }

  // ---------------------------------------------------------------- request models

  datatype Protocol = TCP | UDP

  function ProtocolName(p: Protocol): string {
    match p
    case TCP => "TCP"
    case UDP => "UDP"
  }

  /** `ExtensionPort` after validation. */
  datatype Port = Port(name: Option<string>, containerPort: int, protocol: Protocol)

  /** `ExtensionPort(...)`: the container port must lie in 1..65535 and the
      protocol, `TCP` when not given, must be `TCP` or `UDP`. */
  function MakePort(name: Option<string>, containerPort: int, protocol: Option<string>): (r: Result<Port, Error>)
    ensures r.Ok? <==> 1 <= containerPort <= 65535 && (protocol.None? || protocol.value in {"TCP", "UDP"})
    ensures r.Ok? ==> r.value.containerPort == containerPort && r.value.name == name
    ensures r.Ok? ==> ProtocolName(r.value.protocol) == protocol.GetOr("TCP")
    ensures r.Err? ==> r.error.ValidationError?
  {
    if !(1 <= containerPort <= 65535) then Err(ValidationError("container_port"))
    else if protocol.None? || protocol.value == "TCP" then Ok(Port(name, containerPort, TCP))
    else if protocol.value == "UDP" then Ok(Port(name, containerPort, UDP))
    else Err(ValidationError("protocol"))
  }

  /** A validated port, written back out, validates to itself. */
  lemma PortRoundTrip(p: Port)
    requires 1 <= p.containerPort <= 65535
    ensures MakePort(p.name, p.containerPort, Some(ProtocolName(p.protocol))) == Ok(p)
  {
  }

  /** `ExtensionServiceSpec` after validation. */
  datatype ServiceSpec = ServiceSpec(name: string, image: string, primary: bool, ports: seq<Port>, replicas: int)

  /** `ExtensionServiceSpec(...)`: `primary` defaults to false, `ports` to
      none and `replicas` to 1, and `replicas` may not be negative. */
  function MakeServiceSpec(name: string, image: string, primary: Option<bool>, ports: Option<seq<Port>>,
                           replicas: Option<int>): (r: Result<ServiceSpec, Error>)
    ensures r.Ok? <==> replicas.None? || replicas.value >= 0
    ensures r.Err? ==> r.error == ValidationError("replicas")
    ensures r.Ok? ==> r.value == ServiceSpec(name, image, primary.GetOr(false), ports.GetOr([]), replicas.GetOr(1))
    ensures r.Ok? ==> r.value.replicas >= 0
  {
    var n := replicas.GetOr(1);
    if n < 0 then Err(ValidationError("replicas"))
    else Ok(ServiceSpec(name, image, primary.GetOr(false), ports.GetOr([]), n))
  }

  /** With only the required fields a service is a single, non-primary
      replica without ports. */
  lemma ServiceSpecDefaults(name: string, image: string)
    ensures MakeServiceSpec(name, image, None, None, None) == Ok(ServiceSpec(name, image, false, [], 1))
  {
  }

  /** `SecuritySpec` after validation. */
  datatype Security = Security(riskTier: int, sourceType: string, verified: bool)

  /** `SecuritySpec(...)`: the risk tier defaults to 1 and must lie in 0..2;
      the source type defaults to `kamiwaza` and `verified` to false. */
  function MakeSecurity(riskTier: Option<int>, sourceType: Option<string>, verified: Option<bool>): (r: Result<Security, Error>)
    ensures r.Ok? <==> riskTier.None? || 0 <= riskTier.value <= 2
    ensures r.Err? ==> r.error == ValidationError("risk_tier")
    ensures r.Ok? ==> r.value == Security(riskTier.GetOr(1), sourceType.GetOr("kamiwaza"), verified.GetOr(false))
    ensures r.Ok? ==> 0 <= r.value.riskTier <= 2
  {
    var tier := riskTier.GetOr(1);
    if !(0 <= tier <= 2) then Err(ValidationError("risk_tier"))
    else Ok(Security(tier, sourceType.GetOr("kamiwaza"), verified.GetOr(false)))
  }

  datatype ExtensionType = App | Tool

  function TypeName(t: ExtensionType): string {
    match t
    case App => "app"
    case Tool => "tool"
  }

  /** `CreateExtension` after validation. */
  datatype CreateRequest = CreateRequest(name: string, extType: ExtensionType, version: string,
                                         services: seq<ServiceSpec>, security: Option<Security>)

  /** `CreateExtension(...)`: the type must be `app` or `tool` and there must
      be at least one service; `type` is checked before `services`. */
  function MakeCreate(name: string, extType: string, version: string, services: seq<ServiceSpec>,
                      security: Option<Security>): (r: Result<CreateRequest, Error>)
    ensures r.Ok? <==> extType in {"app", "tool"} && services != []
    ensures extType !in {"app", "tool"} ==> r == Err(ValidationError("type"))
    ensures extType in {"app", "tool"} && services == [] ==> r == Err(ValidationError("services"))
    ensures r.Ok? ==> (TypeName(r.value.extType) == extType && r.value.services == services
      && r.value.name == name && r.value.version == version && r.value.security == security)
  {
    if extType == "app" || extType == "tool" then
      if services == [] then Err(ValidationError("services"))
      else Ok(CreateRequest(name, if extType == "app" then App else Tool, version, services, security))
    else Err(ValidationError("type"))
  }

  /** Type names are read back as the same type. */
  lemma CreateTypeRoundTrip(r: CreateRequest)
    requires r.services != []
    ensures MakeCreate(r.name, TypeName(r.extType), r.version, r.services, r.security) == Ok(r)
  {
  }

  /** `ExtensionServiceStatus` as reported by the server. */
  datatype ServiceStatus = ServiceStatus(name: string, ready: bool, replicas: int, availableReplicas: int)

  /** Reading a service status: a missing `ready` is false and missing replica
      counts are 0. */
  function ReadServiceStatus(name: string, ready: Option<bool>, replicas: Option<int>, available: Option<int>): (s: ServiceStatus)
    ensures s.name == name
    ensures ready.None? ==> !s.ready
    ensures replicas.None? ==> s.replicas == 0
    ensures available.None? ==> s.availableReplicas == 0
    ensures ready.Some? ==> s.ready == ready.value
    ensures replicas.Some? ==> s.replicas == replicas.value
    ensures available.Some? ==> s.availableReplicas == available.value
  {
    ServiceStatus(name, ready.GetOr(false), replicas.GetOr(0), available.GetOr(0))
  }
}

=== FILE: model_search.dfy ===
/** Model search request records: the hub-name normaliser of
    `HubModelFileSearch` and the defaults of `ModelSearchRequest`. */
module ModelSearch {
  import opened Common
  import opened Text

  /** The spellings of the Hugging Face hub that the server knows as `HubsHf`,
      compared after trimming and lower-casing. */
  predicate IsHfAlias(s: string) {
    var l := Lower(s);
    l == "hf" || l == "huggingface" || l == "hubshf"
  }

  /** `_normalize_hub`: trim; a Hugging Face alias in any letter case becomes
      `HubsHf`, anything else is kept trimmed with its case. */
  function NormalizeHub(value: string): (r: string)
    ensures IsHfAlias(Strip(value)) ==> r == "HubsHf"
    ensures !IsHfAlias(Strip(value)) ==> r == Strip(value)
    ensures r == [] || (!IsSpace(r[0]) && !IsSpace(r[|r| - 1]))
  {
    var normalized := Strip(value);
    if IsHfAlias(normalized) then "HubsHf" else normalized
  }

  lemma CanonicalStripped()
    ensures Strip("HubsHf") == "HubsHf"
  {
    StripNoEdgeSpace("HubsHf");
  }

  lemma CanonicalLowered()
    ensures Lower("HubsHf") == "hubshf"
  {
    var l := Lower("HubsHf");
    assert l[0] == 'h' && l[4] == 'h';
  }

  /** Normalising a normalised hub changes nothing. */
  lemma NormalizeHubIdempotent(value: string)
    ensures NormalizeHub(NormalizeHub(value)) == NormalizeHub(value)
  {
    var n := Strip(value);
    if IsHfAlias(n) {
      CanonicalFixed();
    } else {
      StripIdempotent(value);
      KeptFixed(n);
    }
  }

  /** The canonical name normalises to itself. */
  lemma CanonicalFixed()
    ensures NormalizeHub("HubsHf") == "HubsHf"
  {
    CanonicalStripped();
    CanonicalLowered();
  }

  /** A trimmed name that is no alias normalises to itself. */
  lemma KeptFixed(n: string)
    requires Strip(n) == n && !IsHfAlias(n)
    ensures NormalizeHub(n) == n
  {
  }

  /** Normalisation only looks at the trimmed text. */
  lemma NormalizeHubTrim(value: string)
    ensures NormalizeHub(Strip(value)) == NormalizeHub(value)
  {
    StripIdempotent(value);
  }

  /** A hub normalises to the canonical `HubsHf` exactly when its trimmed
      text is a Hugging Face alias: no other hub is ever renamed to it. */
  lemma NormalizeToCanonical(value: string)
    ensures NormalizeHub(value) == "HubsHf" <==> IsHfAlias(Strip(value))
  {
    CanonicalLowered();
  }

  datatype ModelSearchRequest = ModelSearchRequest(
    query: string,
    hubsToSearch: Option<seq<string>>,
    exact: bool,
    limit: int)

  /** `ModelSearchRequest(query=q)` with every other field at its default. */
  function SearchRequest(query: string): (r: ModelSearchRequest)
    ensures r.query == query && r.hubsToSearch.None? && !r.exact && r.limit == 100
  {
    ModelSearchRequest(query, None, false, 100)
  }

  /** The dump of a search request, `None` shown as JSON null. */
  function DumpSearch(r: ModelSearchRequest): (m: map<string, Json>)
    ensures m.Keys == {"query", "hubs_to_search", "exact", "limit"}
    ensures m["query"] == JStr(r.query) && m["exact"] == JBool(r.exact) && m["limit"] == JInt(r.limit)
    ensures m["hubs_to_search"] == JNull <==> r.hubsToSearch.None?
    ensures r.hubsToSearch.Some? ==> m["hubs_to_search"] == StrList(r.hubsToSearch.value)
  {
    map["query" := JStr(r.query),
        "hubs_to_search" := JsonOrNull(OptStrList(r.hubsToSearch)),
        "exact" := JBool(r.exact),
        "limit" := JInt(r.limit)]
  }

  /** A default search asks for an inexact match, at most 100 results, on
      every hub: the dump of a bare request, without `None` values, holds
      only the query, `exact` and `limit`. */
  lemma DefaultSearchDump(query: string)
    ensures DropNone(DumpSearch(SearchRequest(query))) ==
      map["query" := JStr(query), "exact" := JBool(false), "limit" := JInt(100)]
  {
    var m := DropNone(DumpSearch(SearchRequest(query)));
    assert m.Keys == {"query", "exact", "limit"};
  }
}

=== FILE: oauth_broker.dfy ===
/** `OAuthBrokerService`'s app-installation and connection calls, and the
    validation rules of the broker's request models. App ids are carried as
    the strings `str()` gives for them. */
module OAuthBroker {
  import opened Common
  import opened Text

  // ---------------------------------------------------------------- enums

  /** `Provider`. */
  datatype Provider = Google | Microsoft

  function ProviderName(p: Provider): string {
    match p
    case Google => "google"
    case Microsoft => "microsoft"
  }

  function ParseProvider(s: string): (p: Option<Provider>)
    ensures p.Some? <==> s == "google" || s == "microsoft"
  {
    if s == "google" then Some(Google) else if s == "microsoft" then Some(Microsoft) else None
  }

  /** `ConnectionStatus`. */
  datatype ConnectionStatus = Connected | Disconnected | NeedsReauth | Revoked

  function StatusName(st: ConnectionStatus): string {
    match st
    case Connected => "connected"
    case Disconnected => "disconnected"
    case NeedsReauth => "needs_reauth"
    case Revoked => "revoked"
  }

  function ParseStatus(s: string): (st: Option<ConnectionStatus>)
    ensures st.Some? <==> s in {"connected", "disconnected", "needs_reauth", "revoked"}
  {
    if s == "connected" then Some(Connected)
    else if s == "disconnected" then Some(Disconnected)
    else if s == "needs_reauth" then Some(NeedsReauth)
    else if s == "revoked" then Some(Revoked)
    else None
  }

  /** Enum values and their strings are inverse to each other. */
  lemma EnumRoundTrips(p: Provider, st: ConnectionStatus, s: string)
    ensures ParseProvider(ProviderName(p)) == Some(p)
    ensures ParseProvider(s).Some? ==> ProviderName(ParseProvider(s).value) == s
    ensures ParseStatus(StatusName(st)) == Some(st)
    ensures ParseStatus(s).Some? ==> StatusName(ParseStatus(s).value) == s
  {
  }

  /** A provider argument: the enum or a plain string. */
  datatype ProviderArg = ProviderValue(p: Provider) | ProviderText(text: string)

  /** `provider.value if isinstance(provider, Provider) else provider`. */
  function ProviderString(arg: ProviderArg): (s: string)
    ensures arg.ProviderValue? ==> ParseProvider(s) == Some(arg.p)
    ensures arg.ProviderText? ==> s == arg.text
  {
    match arg
    case ProviderValue(p) => ProviderName(p)
    case ProviderText(t) => t
  }

  /** Passing the enum and passing its value string send the same text. */
  lemma ProviderFormsAgree(p: Provider)
    ensures ProviderString(ProviderValue(p)) == ProviderString(ProviderText(ProviderName(p)))
  {
  }

  // ---------------------------------------------------------------- app installations

  /** The app fields shared by create and update. */
  predicate NameValid(name: string) { 1 <= |name| <= 255 }
  predicate DescriptionValid(description: Option<string>) { description.None? || |description.value| <= 1000 }

  /** `AppInstallationCreate(...)` dumped without `None` fields: `name`, the
      allowed tools (default none) always, `description` and `app_metadata`
      when given. Unknown fields are rejected. */
  function CreateAppBody(name: string, description: Option<string>, allowedTools: Option<seq<string>>,
                         appMetadata: Option<map<string, Json>>, unknown: seq<string>): (r: Result<map<string, Json>, Error>)
    ensures r.Ok? <==> NameValid(name) && DescriptionValid(description) && unknown == []
    ensures r.Err? ==> r.error.ValidationError?
    ensures r.Ok? ==> var b := r.value;
      ("name" in b && b["name"] == JStr(name))
      && ("allowed_tools" in b && b["allowed_tools"] == StrList(allowedTools.GetOr([])))
      && ("description" in b <==> description.Some?)
      && ("app_metadata" in b <==> appMetadata.Some?)
      && (forall k :: k in b ==> k in {"name", "description", "allowed_tools", "app_metadata"})
    ensures r.Ok? && description.Some? ==> r.value["description"] == JStr(description.value)
    ensures r.Ok? && appMetadata.Some? ==> r.value["app_metadata"] == JObj(appMetadata.value)
  {
    if !NameValid(name) then Err(ValidationError("name"))
    else if !DescriptionValid(description) then Err(ValidationError("description"))
    else if unknown != [] then Err(ValidationError(unknown[0]))
    else
      var b0 := map["name" := JStr(name), "allowed_tools" := StrList(allowedTools.GetOr([]))];
      var b1 := OptField(b0, "description", OptStr(description));
      Ok(OptField(b1, "app_metadata", if appMetadata.Some? then Some(JObj(appMetadata.value)) else None))
  }

  /** The smallest app sends its name and an empty tool list. */
  lemma MinimalApp(name: string)
    requires NameValid(name)
    ensures CreateAppBody(name, None, None, None, []) == Ok(map["name" := JStr(name), "allowed_tools" := JArr([])])
  {
    var b := CreateAppBody(name, None, None, None, []).value;
    assert b.Keys == {"name", "allowed_tools"};
  }

  /** `AppInstallationUpdate(...)` dumped without `None` fields: exactly the
      fields given, each within the create bounds. */
  function UpdateAppBody(name: Option<string>, description: Option<string>, allowedTools: Option<seq<string>>,
                         lifecycleStatus: Option<string>, appMetadata: Option<map<string, Json>>): (r: Result<map<string, Json>, Error>)
    ensures r.Ok? <==> (name.None? || NameValid(name.value)) && DescriptionValid(description)
    ensures r.Err? ==> r.error.ValidationError?
    ensures r.Ok? ==> var b := r.value;
      ("name" in b <==> name.Some?) && ("description" in b <==> description.Some?)
      && ("allowed_tools" in b <==> allowedTools.Some?) && ("lifecycle_status" in b <==> lifecycleStatus.Some?)
      && ("app_metadata" in b <==> appMetadata.Some?)
      && (forall k :: k in b ==> k in {"name", "description", "allowed_tools", "lifecycle_status", "app_metadata"})
    ensures r.Ok? && name.Some? ==> r.value["name"] == JStr(name.value)
    ensures r.Ok? && description.Some? ==> r.value["description"] == JStr(description.value)
    ensures r.Ok? && allowedTools.Some? ==> r.value["allowed_tools"] == StrList(allowedTools.value)
    ensures r.Ok? && lifecycleStatus.Some? ==> r.value["lifecycle_status"] == JStr(lifecycleStatus.value)
    ensures r.Ok? && appMetadata.Some? ==> r.value["app_metadata"] == JObj(appMetadata.value)
  {
    if name.Some? && !NameValid(name.value) then Err(ValidationError("name"))
    else if !DescriptionValid(description) then Err(ValidationError("description"))
    else
      var b0: map<string, Json> := map[];
      var b1 := OptField(b0, "name", OptStr(name));
      var b2 := OptField(b1, "description", OptStr(description));
      var b3 := OptField(b2, "allowed_tools", OptStrList(allowedTools));
      var b4 := OptField(b3, "lifecycle_status", OptStr(lifecycleStatus));
      Ok(OptField(b4, "app_metadata", if appMetadata.Some? then Some(JObj(appMetadata.value)) else None))
  }

  /** An update with nothing given sends an empty body. */
  lemma EmptyUpdate()
    ensures UpdateAppBody(None, None, None, None, None) == Ok(map[])
  {
  }

  const AppsPath := "/oauth-broker/apps"

  /** `list_app_installations`: `limit` and `offset` are always sent;
      the defaults are 100 and 0. */
  function ListApps(limit: int, offset: int): (c: Call)
    ensures c.verb == Get && c.path == AppsPath
    ensures c.params == Pass(map["limit" := JInt(limit), "offset" := JInt(offset)])
    ensures c.body.Omitted?
  {
    Bare(Get, AppsPath).(params := Pass(map["limit" := JInt(limit), "offset" := JInt(offset)]))
  }

  /** The app calls: create posts and update patches their bodies; get and
      delete address the app by id. */
  datatype AppOp = CreateApp(body: map<string, Json>) | GetApp(id: string)
                 | UpdateApp(id: string, body: map<string, Json>) | DeleteApp(id: string)

  function AppCall(op: AppOp): (c: Call)
    ensures c.params.Omitted? && c.headers.Omitted? && !c.rawResponse
    ensures c.body.Pass? <==> op.CreateApp? || op.UpdateApp?
    ensures c.body.Pass? ==> c.body == Pass(JObj(op.body))
    ensures op.CreateApp? <==> c.verb == Post
    ensures op.UpdateApp? <==> c.verb == Patch
    ensures op.CreateApp? ==> c.path == AppsPath
    ensures !op.CreateApp? ==> c.path == AppsPath + "/" + op.id
  {
    match op
    case CreateApp(b) => Bare(Post, AppsPath).(body := Pass(JObj(b)))
    case GetApp(id) => Bare(Get, AppsPath + "/" + id)
    case UpdateApp(id, b) => Bare(Patch, AppsPath + "/" + id).(body := Pass(JObj(b)))
    case DeleteApp(id) => Bare(Delete, AppsPath + "/" + id)
  }

  // ---------------------------------------------------------------- authorization flow

  /** `start_google_auth`: the scopes travel as one space-separated string. */
  function StartGoogleAuth(appId: string, scopes: seq<string>): (c: Call)
    ensures c.verb == Get && c.path == "/oauth-broker/auth/google/start"
    ensures c.params == Pass(map["app_id" := JStr(appId), "scopes" := JStr(Join(scopes, " "))])
  {
    Bare(Get, "/oauth-broker/auth/google/start").(params := Pass(map["app_id" := JStr(appId), "scopes" := JStr(Join(scopes, " "))]))
  }

  /** The server can split the scope string back into the requested scopes,
      as long as no scope contains a space and at least one is requested. */
  lemma ScopesRecoverable(appId: string, scopes: seq<string>)
    requires |scopes| >= 1
    requires forall i :: 0 <= i < |scopes| ==> ' ' !in scopes[i]
    ensures Split(StartGoogleAuth(appId, scopes).params.value["scopes"].s, ' ') == scopes
  {
    SplitJoin(scopes, ' ');
  }

  /** `handle_google_callback`: `code` and `state` always, `scope` only when
      non-empty. */
  function GoogleCallback(code: string, state: string, scope: Option<string>): (c: Call)
    ensures c.verb == Get && c.path == "/oauth-broker/auth/google/callback"
    ensures c.params.Pass?
    ensures var p := ParamsSent(c);
      "code" in p && p["code"] == JStr(code) && "state" in p && p["state"] == JStr(state)
      && ("scope" in p <==> Truthy(scope))
      && (Truthy(scope) ==> p["scope"] == JStr(scope.value))
      && |p| == if Truthy(scope) then 3 else 2
  {
    var p := map["code" := JStr(code), "state" := JStr(state)];
    Bare(Get, "/oauth-broker/auth/google/callback").(params := Pass(if Truthy(scope) then p["scope" := JStr(scope.value)] else p))
  }

  /** `get_connection_status` (GET) and `disconnect` (DELETE) send the same
      query: the app id and the provider string. */
  function ConnectionCall(disconnect: bool, appId: string, provider: ProviderArg): (c: Call)
    ensures c.verb == (if disconnect then Delete else Get)
    ensures c.path == (if disconnect then "/oauth-broker/connections/disconnect" else "/oauth-broker/connections/status")
    ensures c.params == Pass(map["app_id" := JStr(appId), "provider" := JStr(ProviderString(provider))])
    ensures c.body.Omitted?
  {
    var path := if disconnect then "/oauth-broker/connections/disconnect" else "/oauth-broker/connections/status";
    Bare(if disconnect then Delete else Get, path).(params := Pass(map["app_id" := JStr(appId), "provider" := JStr(ProviderString(provider))]))
  }

  // ---------------------------------------------------------------- token and policy models

  /** `MintTokenRequest.lease_duration`: 300 seconds when not given, and
      between 60 and 900 seconds. */
  function LeaseDuration(requested: Option<int>): (r: Result<int, Error>)
    ensures requested.None? ==> r == Ok(300)
    ensures requested.Some? ==> (r.Ok? <==> 60 <= requested.value <= 900)
    ensures r.Ok? ==> 60 <= r.value <= 900
    ensures r.Ok? && requested.Some? ==> r.value == requested.value
    ensures r.Err? ==> r.error == ValidationError("lease_duration")
  {
    var d := requested.GetOr(300);
    if 60 <= d <= 900 then Ok(d) else Err(ValidationError("lease_duration"))
  }

  /** A duration that was accepted is accepted again unchanged. */
  lemma LeaseDurationStable(requested: Option<int>)
    requires LeaseDuration(requested).Ok?
    ensures LeaseDuration(Some(LeaseDuration(requested).value)) == LeaseDuration(requested)
  {
  }

  /** `MintTokenResponse.token_type`: `Bearer` when the server leaves it out. */
  function TokenType(reported: Option<string>): (t: string)
    ensures reported.None? ==> t == "Bearer"
    ensures reported.Some? ==> t == reported.value
  {
    reported.GetOr("Bearer")
  }

  /** `ToolPolicyCreate` after validation. */
  datatype ToolPolicy = ToolPolicy(appId: string, toolId: string, provider: string,
                                   allowedOperations: seq<string>, allowedScopeSubset: seq<string>)

  /** `ToolPolicyCreate(...)`: the tool id has 1 to 255 characters; both
      allow-lists default to empty. */
  function MakeToolPolicy(appId: string, toolId: string, provider: string, allowedOperations: Option<seq<string>>,
                          allowedScopeSubset: Option<seq<string>>): (r: Result<ToolPolicy, Error>)
    ensures r.Ok? <==> 1 <= |toolId| <= 255
    ensures r.Err? ==> r.error == ValidationError("tool_id")
    ensures r.Ok? ==> r.value.toolId == toolId && r.value.provider == provider && r.value.appId == appId
    ensures r.Ok? ==> (r.value.allowedOperations == allowedOperations.GetOr([])
      && r.value.allowedScopeSubset == allowedScopeSubset.GetOr([]))
  {
    if !(1 <= |toolId| <= 255) then Err(ValidationError("tool_id"))
    else Ok(ToolPolicy(appId, toolId, provider, allowedOperations.GetOr([]), allowedScopeSubset.GetOr([])))
  }

  /** A policy created with nothing allowed allows nothing. */
  lemma PolicyDefaults(appId: string, toolId: string, provider: string)
    requires 1 <= |toolId| <= 255
    ensures MakeToolPolicy(appId, toolId, provider, None, None) == Ok(ToolPolicy(appId, toolId, provider, [], []))
  {
  }
}

=== FILE: oauth_proxy.dfy ===
/** The Gmail, Drive and Calendar proxy calls of `OAuthBrokerService`:
    every call names the app and the tool in its query, operations with a
    request model POST the validated model, and body-less reads GET. */
module OAuthProxy {
  import opened Common

  const ProxyPath := "/oauth-broker/proxy/google"

  /** The proxy operations and their own arguments. */
  datatype ProxyOp =
    | GmailSearch(query: string, maxResults: int)
    | GmailGetMessage(messageId: string, msgFormat: string)
    | GmailSend(rawMessage: string)
    | GmailListLabels
    | GmailModify(modifyId: string, addLabels: Option<seq<string>>, removeLabels: Option<seq<string>>)
    | DriveListFiles(driveQuery: Option<string>, pageSize: int)
    | DriveGetFile(fileId: string)
    | CalendarListCalendars
    | CalendarListEvents(calendarId: string, timeMin: Option<string>, timeMax: Option<string>, eventLimit: int)

  /** The defaults of the method signatures. */
  const DefaultMaxResults := 10
  const DefaultPageSize := 10
  const DefaultFormat := "full"
  const DefaultCalendar := "primary"

  /** The operations that send a request model. */
  predicate HasBody(op: ProxyOp) {
    op.GmailSearch? || op.GmailGetMessage? || op.GmailSend? || op.GmailModify? || op.DriveListFiles?
  }

  /** A page size or result limit of a request model: 1 to 200. */
  predicate InPageRange(n: int) { 1 <= n <= 200 }

  /** `GmailGetMessageRequest.msg_format`. */
  predicate FormatValid(f: string) { f in {"full", "metadata", "minimal", "raw"} }

  /** The field a request model rejects, if any. */
  function Problem(op: ProxyOp): (f: Option<string>)
    ensures f.Some? ==> HasBody(op)
  {
    match op
    case GmailSearch(_, n) => if InPageRange(n) then None else Some("max_results")
    case GmailGetMessage(_, fmt) => if FormatValid(fmt) then None else Some("msg_format")
    case DriveListFiles(_, n) => if InPageRange(n) then None else Some("page_size")
    case _ => None
  }

  /** The request model's dump: in full for search, get-message and send,
      without its `None` fields for modify and list-files. */
  function Body(op: ProxyOp): (b: map<string, Json>)
    requires HasBody(op)
    ensures op.GmailSearch? ==> b == map["query" := JStr(op.query), "max_results" := JInt(op.maxResults)]
    ensures op.GmailGetMessage? ==> b == map["message_id" := JStr(op.messageId), "msg_format" := JStr(op.msgFormat)]
    ensures op.GmailSend? ==> b == map["raw_message" := JStr(op.rawMessage)]
    ensures op.GmailModify? ==> ("message_id" in b && b["message_id"] == JStr(op.modifyId)
      && ("add_labels" in b <==> op.addLabels.Some?) && ("remove_labels" in b <==> op.removeLabels.Some?)
      && (op.addLabels.Some? ==> b["add_labels"] == StrList(op.addLabels.value))
      && (op.removeLabels.Some? ==> b["remove_labels"] == StrList(op.removeLabels.value))
      && (forall k :: k in b ==> k in {"message_id", "add_labels", "remove_labels"}))
    ensures op.DriveListFiles? ==> ("page_size" in b && b["page_size"] == JInt(op.pageSize)
      && ("query" in b <==> op.driveQuery.Some?) && (op.driveQuery.Some? ==> b["query"] == JStr(op.driveQuery.value))
      && (forall k :: k in b ==> k in {"query", "page_size"}))
    ensures forall k :: k in b ==> b[k] != JNull
  {
    match op
    case GmailSearch(q, n) => map["query" := JStr(q), "max_results" := JInt(n)]
    case GmailGetMessage(id, fmt) => map["message_id" := JStr(id), "msg_format" := JStr(fmt)]
    case GmailSend(raw) => map["raw_message" := JStr(raw)]
    case GmailModify(id, add, remove) => ModifyBody(id, add, remove)
    case DriveListFiles(q, n) => ListFilesBody(q, n)
  }

  /** The modify request without its `None` fields. */
  function ModifyBody(id: string, add: Option<seq<string>>, remove: Option<seq<string>>): (b: map<string, Json>)
    ensures "message_id" in b && b["message_id"] == JStr(id)
    ensures ("add_labels" in b <==> add.Some?) && ("remove_labels" in b <==> remove.Some?)
    ensures add.Some? ==> b["add_labels"] == StrList(add.value)
    ensures remove.Some? ==> b["remove_labels"] == StrList(remove.value)
    ensures forall k :: k in b ==> k in {"message_id", "add_labels", "remove_labels"} && b[k] != JNull
  {
    var m := map["message_id" := JStr(id), "add_labels" := JsonOrNull(OptStrList(add)),
                 "remove_labels" := JsonOrNull(OptStrList(remove))];
    assert m["add_labels"] == JNull <==> add.None?;
    assert m["remove_labels"] == JNull <==> remove.None?;
    DropNone(m)
  }

  /** The Drive listing request without its `None` fields. */
  function ListFilesBody(q: Option<string>, n: int): (b: map<string, Json>)
    ensures "page_size" in b && b["page_size"] == JInt(n)
    ensures ("query" in b <==> q.Some?) && (q.Some? ==> b["query"] == JStr(q.value))
    ensures forall k :: k in b ==> k in {"query", "page_size"} && b[k] != JNull
  {
    var m := map["query" := JsonOrNull(OptStr(q)), "page_size" := JInt(n)];
    assert m["query"] == JNull <==> q.None?;
    DropNone(m)
  }

  /** The path below the proxy root. */
  function Route(op: ProxyOp): string {
    match op
    case GmailSearch(_, _) => "/gmail/search"
    case GmailGetMessage(_, _) => "/gmail/getMessage"
    case GmailSend(_) => "/gmail/send"
    case GmailListLabels => "/gmail/labels"
    case GmailModify(_, _, _) => "/gmail/modify"
    case DriveListFiles(_, _) => "/drive/listFiles"
    case DriveGetFile(id) => "/drive/files/" + id
    case CalendarListCalendars => "/calendar/calendars"
    case CalendarListEvents(_, _, _, _) => "/calendar/events"
  }

  /** Which proxy tool an operation calls, by its position in `ProxyOp`. */
  function Kind(op: ProxyOp): nat {
    match op
    case GmailSearch(_, _) => 0
    case GmailGetMessage(_, _) => 1
    case GmailSend(_) => 2
    case GmailListLabels => 3
    case GmailModify(_, _, _) => 4
    case DriveListFiles(_, _) => 5
    case DriveGetFile(_) => 6
    case CalendarListCalendars => 7
    case CalendarListEvents(_, _, _, _) => 8
  }

  /** Two different proxy tools never share a path, and a file fetch names
      its file: the path determines the tool and, for a file, the id. */
  lemma RouteInjective(a: ProxyOp, b: ProxyOp)
    ensures Route(a) == Route(b) ==> Kind(a) == Kind(b)
    ensures Route(a) == Route(b) && a.DriveGetFile? ==> b.DriveGetFile? && a.fileId == b.fileId
  {
    if Route(a) == Route(b) {
      RouteMark(a);
      RouteMark(b);
      if a.DriveGetFile? && b.DriveGetFile? {
        assert Route(a)[13..] == a.fileId && Route(b)[13..] == b.fileId;
      }
    }
  }

  /** The eighth character of a route is `f` only for a file fetch. */
  lemma RouteMark(op: ProxyOp)
    ensures |Route(op)| > 7
    ensures Route(op)[7] == 'f' <==> op.DriveGetFile?
  {
  }

  /** The query: the app id as a string and the tool id always; the event
      listing adds the calendar and its limit, and each time bound that is
      not `None` (an empty bound is still sent). */
  function Query(appId: string, toolId: string, op: ProxyOp): (q: map<string, Json>)
    ensures "app_id" in q && q["app_id"] == JStr(appId) && "tool_id" in q && q["tool_id"] == JStr(toolId)
    ensures !op.CalendarListEvents? ==> q.Keys == {"app_id", "tool_id"}
    ensures op.CalendarListEvents? ==> ("calendar_id" in q && q["calendar_id"] == JStr(op.calendarId)
      && "max_results" in q && q["max_results"] == JInt(op.eventLimit)
      && ("time_min" in q <==> op.timeMin.Some?) && ("time_max" in q <==> op.timeMax.Some?)
      && (op.timeMin.Some? ==> q["time_min"] == JStr(op.timeMin.value))
      && (op.timeMax.Some? ==> q["time_max"] == JStr(op.timeMax.value))
      && (forall k :: k in q ==> k in {"app_id", "tool_id", "calendar_id", "max_results", "time_min", "time_max"}))
  {
    var base := map["app_id" := JStr(appId), "tool_id" := JStr(toolId)];
    match op
    case CalendarListEvents(cal, lo, hi, n) =>
      var q0 := base["calendar_id" := JStr(cal)]["max_results" := JInt(n)];
      var q1 := OptField(q0, "time_min", OptStr(lo));
      OptField(q1, "time_max", OptStr(hi))
    case _ => base
  }

  /** One proxy call: the request model is validated before anything is
      sent; then a POST with the model's dump, or a GET without a body. */
  function ProxyCall(appId: string, toolId: string, op: ProxyOp): (r: Result<Call, Error>)
    ensures r.Err? <==> Problem(op).Some?
    ensures r.Err? ==> r.error == ValidationError(Problem(op).value)
    ensures r.Ok? ==> r.value.path == ProxyPath + Route(op)
    ensures r.Ok? ==> (r.value.verb == Post <==> HasBody(op)) && (r.value.verb == Get <==> !HasBody(op))
    ensures r.Ok? ==> r.value.params == Pass(Query(appId, toolId, op))
    ensures r.Ok? && HasBody(op) ==> r.value.body == Pass(JObj(Body(op)))
    ensures r.Ok? && !HasBody(op) ==> r.value.body.Omitted?
  {
    if Problem(op).Some? then Err(ValidationError(Problem(op).value))
    else
      var c := Bare(if HasBody(op) then Post else Get, ProxyPath + Route(op)).(params := Pass(Query(appId, toolId, op)));
      Ok(if HasBody(op) then c.(body := Pass(JObj(Body(op)))) else c)
  }

  /** Every operation's defaults pass validation. */
  lemma DefaultsValid(appId: string, toolId: string, query: string, messageId: string)
    ensures ProxyCall(appId, toolId, GmailSearch(query, DefaultMaxResults)).Ok?
    ensures ProxyCall(appId, toolId, GmailGetMessage(messageId, DefaultFormat)).Ok?
    ensures ProxyCall(appId, toolId, DriveListFiles(None, DefaultPageSize)).Ok?
    ensures ProxyCall(appId, toolId, CalendarListEvents(DefaultCalendar, None, None, DefaultMaxResults)).Ok?
  {
  }

  /** Marking a message read sends only its id and the labels to remove. */
  lemma MarkReadBody(id: string)
    ensures Body(GmailModify(id, None, Some(["UNREAD"]))) ==
      map["message_id" := JStr(id), "remove_labels" := JArr([JStr("UNREAD")])]
  {
    var b := Body(GmailModify(id, None, Some(["UNREAD"])));
    assert StrList(["UNREAD"]).items == [JStr("UNREAD")];
    assert b.Keys == {"message_id", "remove_labels"};
  }

  /** With default arguments the event listing asks for ten events of the
      primary calendar and no time bounds; an empty bound is still sent. */
  lemma EventDefaults(appId: string, toolId: string)
    ensures Query(appId, toolId, CalendarListEvents(DefaultCalendar, None, None, DefaultMaxResults)) ==
      map["app_id" := JStr(appId), "tool_id" := JStr(toolId), "calendar_id" := JStr("primary"), "max_results" := JInt(10)]
    ensures "time_min" in Query(appId, toolId, CalendarListEvents(DefaultCalendar, Some(""), None, DefaultMaxResults))
  {
    var q := Query(appId, toolId, CalendarListEvents(DefaultCalendar, None, None, DefaultMaxResults));
    assert q.Keys == {"app_id", "tool_id", "calendar_id", "max_results"};
  }
}

=== FILE: percent_encoding.dfy ===
/** Percent-encoding of URNs for use as one path segment
    (`_encode_path_segment`, which is `urllib.parse.quote(value, safe="")`):
    the text is encoded as UTF-8 (RFC 3629) and every byte that is not an
    unreserved character of section 2.3 of RFC 3986 becomes a `%XX` triplet
    with upper-case hexadecimal digits (section 2.1 of RFC 3986). */
module PercentEncoding {
  import opened Common

  type Byte = b: int | 0 <= b < 256

  /** The unreserved characters of section 2.3 of RFC 3986. */
  predicate IsUnreserved(c: char) {
    ('A' <= c <= 'Z') || ('a' <= c <= 'z') || ('0' <= c <= '9') ||
    c == '-' || c == '.' || c == '_' || c == '~'
  }

  predicate AllUnreserved(s: string) {
    forall i :: 0 <= i < |s| ==> IsUnreserved(s[i])
  }

  predicate IsCont(b: Byte) { 0x80 <= b < 0xC0 }

  /** The payload of a continuation byte. */
  function Low6(b: Byte): int { b as int - 0x80 }

  /** The UTF-8 bytes of one code point. */
  function Utf8Char(c: char): (bs: seq<Byte>)
    ensures 1 <= |bs| <= 4
    ensures |bs| == 1 <==> (c as int) < 0x80
    ensures |bs| == 1 ==> bs[0] == c as int
    ensures forall i :: 1 <= i < |bs| ==> IsCont(bs[i])
  {
    var cp := c as int;
    var q1 := cp / 64;
    var q2 := q1 / 64;
    if cp < 0x80 then [cp]
    else if cp < 0x800 then [0xC0 + q1, 0x80 + cp % 64]
    else if cp < 0x10000 then [0xE0 + q2, 0x80 + q1 % 64, 0x80 + cp % 64]
    else [0xF0 + q2 / 64, 0x80 + q2 % 64, 0x80 + q1 % 64, 0x80 + cp % 64]
  }

  /** The UTF-8 encoding of a string. */
  function Utf8(s: string): (bs: seq<Byte>)
    ensures |bs| >= |s|
    decreases |s|
  {
    if s == [] then [] else Utf8Char(s[0]) + Utf8(s[1..])
  }

  /** The first code point of a byte string and the number of bytes it took,
      or nothing when the bytes are not well-formed UTF-8 (a stray
      continuation byte, a truncated sequence, an overlong form, a surrogate
      or a value beyond U+10FFFF). */
  function DecodeFirst(bs: seq<Byte>): (r: Option<(char, nat)>)
    requires |bs| > 0
    ensures r.Some? ==> 1 <= r.value.1 <= |bs|
  {
    var b0: int := bs[0];
    if b0 < 0x80 then Some((b0 as char, 1))
    else if 0xC2 <= b0 < 0xE0 then
      if |bs| >= 2 && IsCont(bs[1]) then
        Some((((b0 - 0xC0) * 64 + Low6(bs[1])) as char, 2))
      else None
    else if 0xE0 <= b0 < 0xF0 then
      if |bs| >= 3 && IsCont(bs[1]) && IsCont(bs[2]) then
        var cp := ((b0 - 0xE0) * 64 + Low6(bs[1])) * 64 + Low6(bs[2]);
        if cp < 0x800 || (0xD800 <= cp < 0xE000) then None else Some((cp as char, 3))
      else None
    else if 0xF0 <= b0 < 0xF5 then
      if |bs| >= 4 && IsCont(bs[1]) && IsCont(bs[2]) && IsCont(bs[3]) then
        var cp := (((b0 - 0xF0) * 64 + Low6(bs[1])) * 64 + Low6(bs[2])) * 64 + Low6(bs[3]);
        if cp < 0x10000 || cp > 0x10FFFF then None else Some((cp as char, 4))
      else None
    else None
  }

  /** Strict UTF-8 decoding of a whole byte string. */
  function Utf8Decode(bs: seq<Byte>): Option<string>
    decreases |bs|
  {
    if bs == [] then Some([])
    else
      match DecodeFirst(bs)
      case None => None
      case Some((c, n)) =>
        match Utf8Decode(bs[n..])
        case None => None
        case Some(rest) => Some([c] + rest)
  }

  /** Decoding reads back exactly the code point that was encoded, whatever
      follows it. */
  lemma DecodeFirstChar(c: char, rest: seq<Byte>)
    ensures DecodeFirst(Utf8Char(c) + rest) == Some((c, |Utf8Char(c)|))
  {
    var cp := c as int;
    var q1 := cp / 64;
    var q2 := q1 / 64;
    var bs := Utf8Char(c) + rest;
    if cp < 0x80 {
    } else if cp < 0x800 {
      assert (bs[0] as int - 0xC0) * 64 + Low6(bs[1]) == cp;
    } else if cp < 0x10000 {
      assert ((bs[0] as int - 0xE0) * 64 + Low6(bs[1])) * 64 + Low6(bs[2]) == cp;
    } else {
      assert (((bs[0] as int - 0xF0) * 64 + Low6(bs[1])) * 64 + Low6(bs[2])) * 64 + Low6(bs[3]) == cp;
    }
  }

  /** UTF-8 decoding inverts UTF-8 encoding. */
  lemma {:induction false} Utf8RoundTrip(s: string)
    ensures Utf8Decode(Utf8(s)) == Some(s)
    decreases |s|
  {
    if s != [] {
      var head := Utf8Char(s[0]);
      DecodeFirstChar(s[0], Utf8(s[1..]));
      assert (head + Utf8(s[1..]))[|head|..] == Utf8(s[1..]);
      Utf8RoundTrip(s[1..]);
      assert [s[0]] + s[1..] == s;
    }
  }

  /** The upper-case hexadecimal digit for 0..15. */
  function HexDigit(n: int): (c: char)
    requires 0 <= n < 16
    ensures '0' <= c <= '9' || 'A' <= c <= 'F'
  {
    if n < 10 then ('0' as int + n) as char else ('A' as int + n - 10) as char
  }

  /** The value of a hexadecimal digit of either case. */
  function HexValue(c: char): (v: Option<int>)
    ensures v.Some? ==> 0 <= v.value < 16
  {
    if '0' <= c <= '9' then Some(c as int - '0' as int)
    else if 'A' <= c <= 'F' then Some(c as int - 'A' as int + 10)
    else if 'a' <= c <= 'f' then Some(c as int - 'a' as int + 10)
    else None
  }

  lemma HexDigitValue(n: int)
    requires 0 <= n < 16
    ensures HexValue(HexDigit(n)) == Some(n)
  {
  }

  predicate IsUpperHex(c: char) { ('0' <= c <= '9') || ('A' <= c <= 'F') }

  /** One byte of the output: an unreserved ASCII byte stands for itself,
      any other byte is written `%XX`. */
  function QuoteByte(b: Byte): (t: string)
    ensures |t| == 1 || |t| == 3
    ensures |t| == 1 <==> b < 0x80 && IsUnreserved(b as char)
    ensures |t| == 1 ==> t[0] == b as char
    ensures |t| == 3 ==> t[0] == '%' && IsUpperHex(t[1]) && IsUpperHex(t[2])
  {
    if b < 0x80 && IsUnreserved(b as char) then [b as char]
    else ['%', HexDigit(b / 16), HexDigit(b % 16)]
  }

  function QuoteBytes(bs: seq<Byte>): (t: string)
    ensures |t| >= |bs|
    decreases |bs|
  {
    if bs == [] then [] else QuoteByte(bs[0]) + QuoteBytes(bs[1..])
  }

  /** `quote(value, safe="")`. */
  function Quote(s: string): string {
    QuoteBytes(Utf8(s))
  }

  /** The reference decoder: `%XX` (either case of hex digit) stands for the
      byte XX and any other ASCII character for itself; a `%` without two hex
      digits after it or a non-ASCII character is rejected. */
  function UnquoteBytes(t: string): Option<seq<Byte>>
    decreases |t|
  {
    if t == [] then Some([])
    else if t[0] == '%' then
      if |t| >= 3 && HexValue(t[1]).Some? && HexValue(t[2]).Some? then
        match UnquoteBytes(t[3..])
        case None => None
        case Some(rest) => Some([HexValue(t[1]).value * 16 + HexValue(t[2]).value] + rest)
      else None
    else if (t[0] as int) < 0x80 then
      match UnquoteBytes(t[1..])
      case None => None
      case Some(rest) => Some([t[0] as int] + rest)
    else None
  }

  /** Percent-decoding followed by UTF-8 decoding. */
  function Unquote(t: string): Option<string> {
    match UnquoteBytes(t)
    case None => None
    case Some(bs) => Utf8Decode(bs)
  }

  lemma {:induction false} UnquoteQuoteBytes(bs: seq<Byte>)
    ensures UnquoteBytes(QuoteBytes(bs)) == Some(bs)
    decreases |bs|
  {
    if bs != [] {
      var t := QuoteBytes(bs);
      var head := QuoteByte(bs[0]);
      UnquoteQuoteBytes(bs[1..]);
      assert t[|head|..] == QuoteBytes(bs[1..]);
      if |head| == 3 {
        HexDigitValue(bs[0] / 16);
        HexDigitValue(bs[0] % 16);
      }
      assert [bs[0]] + bs[1..] == bs;
    }
  }

  /** Decoding an encoded segment gives back the original text. */
  lemma QuoteRoundTrip(s: string)
    ensures Unquote(Quote(s)) == Some(s)
  {
    UnquoteQuoteBytes(Utf8(s));
    Utf8RoundTrip(s);
  }

  /** Encoding is one-to-one: different URNs never share an encoded segment. */
  lemma QuoteInjective(s1: string, s2: string)
    requires Quote(s1) == Quote(s2)
    ensures s1 == s2
  {
    QuoteRoundTrip(s1);
    QuoteRoundTrip(s2);
  }

  /** The shape of an encoded segment: unreserved characters and `%XX`
      triplets with upper-case hex digits, nothing else. */
  predicate IsEncoded(t: string)
    decreases |t|
  {
    if t == [] then true
    else if IsUnreserved(t[0]) then IsEncoded(t[1..])
    else |t| >= 3 && t[0] == '%' && IsUpperHex(t[1]) && IsUpperHex(t[2]) && IsEncoded(t[3..])
  }

  lemma {:induction false} QuoteBytesEncoded(bs: seq<Byte>)
    ensures IsEncoded(QuoteBytes(bs))
    decreases |bs|
  {
    if bs != [] {
      var t := QuoteBytes(bs);
      var head := QuoteByte(bs[0]);
      QuoteBytesEncoded(bs[1..]);
      assert t[|head|..] == QuoteBytes(bs[1..]);
    }
  }

  /** Every encoded segment has the RFC 3986 shape. */
  lemma QuoteEncoded(s: string)
    ensures IsEncoded(Quote(s))
  {
    QuoteBytesEncoded(Utf8(s));
  }

  /** An encoded segment holds only unreserved characters and `%`. */
  lemma {:induction false} EncodedChars(t: string, i: nat)
    requires IsEncoded(t) && i < |t|
    ensures IsUnreserved(t[i]) || t[i] == '%' || IsUpperHex(t[i])
    decreases |t|
  {
    if IsUnreserved(t[0]) {
      if i > 0 { EncodedChars(t[1..], i - 1); }
    } else if i >= 3 {
      EncodedChars(t[3..], i - 3);
    }
  }

  /** The path separator and the URN punctuation `(`, `)` and `,` never
      survive encoding, so an encoded URN is always one path segment. */
  lemma ReservedEscaped(s: string, i: nat)
    requires i < |Quote(s)|
    ensures Quote(s)[i] !in {'/', '(', ')', ',', ':', ' '}
  {
    QuoteEncoded(s);
    EncodedChars(Quote(s), i);
  }

  lemma {:induction false} QuoteBytesAscii(s: string)
    requires AllUnreserved(s)
    ensures Utf8(s) == seq(|s|, i requires 0 <= i < |s| => s[i] as int)
    ensures QuoteBytes(Utf8(s)) == s
    decreases |s|
  {
    if s != [] {
      QuoteBytesAscii(s[1..]);
      assert [s[0]] + s[1..] == s;
    }
  }

  /** A segment made only of unreserved characters is left as it is, and
      it is the only kind that is: any other character makes the output
      longer. */
  lemma QuoteIdentity(s: string)
    ensures Quote(s) == s <==> AllUnreserved(s)
  {
    if AllUnreserved(s) {
      QuoteBytesAscii(s);
    } else {
      var i :| 0 <= i < |s| && !IsUnreserved(s[i]);
      QuoteLonger(s, i);
    }
  }

  lemma {:induction false} QuoteBytesAppend(a: seq<Byte>, b: seq<Byte>)
    ensures QuoteBytes(a + b) == QuoteBytes(a) + QuoteBytes(b)
    decreases |a|
  {
    if a == [] {
      assert a + b == b;
    } else {
      assert (a + b)[0] == a[0];
      assert (a + b)[1..] == a[1..] + b;
      QuoteBytesAppend(a[1..], b);
      assert QuoteBytes(a + b) == QuoteByte(a[0]) + (QuoteBytes(a[1..]) + QuoteBytes(b));
    }
  }

  /** UTF-8 encodes a string character by character. */
  lemma {:induction false} Utf8Append(a: string, b: string)
    ensures Utf8(a + b) == Utf8(a) + Utf8(b)
    decreases |a|
  {
    if a == [] {
      assert a + b == b;
    } else {
      assert (a + b)[0] == a[0];
      assert (a + b)[1..] == a[1..] + b;
      Utf8Append(a[1..], b);
    }
  }

  /** Quoting works piece by piece: the encoding of a concatenation is the
      concatenation of the encodings. */
  lemma QuoteAppend(a: string, b: string)
    ensures Quote(a + b) == Quote(a) + Quote(b)
  {
    Utf8Append(a, b);
    QuoteBytesAppend(Utf8(a), Utf8(b));
  }

  /** A character that is not unreserved costs at least three characters. */
  lemma {:induction false} QuoteLonger(s: string, i: nat)
    requires i < |s| && !IsUnreserved(s[i])
    ensures |Quote(s)| > |s|
    decreases |s|
  {
    var head := Utf8Char(s[0]);
    QuoteBytesAppend(head, Utf8(s[1..]));
    if i == 0 {
      assert |QuoteByte(head[0])| == 3;
      assert QuoteBytes(head) == QuoteByte(head[0]) + QuoteBytes(head[1..]);
    } else {
      QuoteLonger(s[1..], i - 1);
    }
  }

  /** The examples the catalog helpers rely on. */
  lemma EscapeExamples()
    ensures Quote("/") == "%2F"
    ensures Quote("(") == "%28"
    ensures Quote(",") == "%2C"
    ensures Quote("a b") == "a%20b"
  {
  }
}

=== FILE: rag.dfy ===
/** The retrieval example's context builder and its Markdown file walk:
    search hits become numbered context parts until a character budget would
    be exceeded, and a directory walk collects at most a given number of
    Markdown files. Whether a source file exists, the text read for a hit and
    the order of the directory walk are inputs. */
module Rag {
  import opened Common
  import Text

  const DefaultPreBytes := 500
  const DefaultPostBytes := 2000
  const DefaultMaxTotalChars := 8000
  const DefaultMaxFiles := 1000

  function Max(a: int, b: int): int { if a >= b then a else b }
  function Min(a: int, b: int): int { if a <= b then a else b }

  // ---------------------------------------------------------------- read windows

  /** `preview_mode`: any value other than `rechunk` and `around` reads from
      the offset. */
  datatype PreviewMode = Rechunk | Around | From

  function ParseMode(s: string): (m: PreviewMode)
    ensures m.Rechunk? <==> s == "rechunk"
    ensures m.Around? <==> s == "around"
  {
    if s == "rechunk" then Rechunk else if s == "around" then Around else From
  }

  /** Where a snippet comes from: the re-chunked text of the hit, or a byte
      window of the source file as requested by `build_context`. */
  datatype Snippet = Chunk(text: string) | Window(start: int, length: int)

  /** The snippet request for one hit. Re-chunking falls back to the window
      around the offset when it finds no chunk. */
  function SnippetSource(mode: PreviewMode, offset: int, pre: int, post: int, rechunked: Option<string>): (s: Snippet)
    ensures s.Chunk? <==> mode.Rechunk? && rechunked.Some?
    ensures s.Chunk? ==> s.text == rechunked.value
    ensures s.Window? && !mode.From? ==> s.start == Max(0, offset - pre) && s.length == pre + post
    ensures s.Window? && !mode.From? ==> s.start >= 0 && (offset >= 0 && pre >= 0 ==> s.start <= offset)
    ensures mode.From? ==> s == Window(offset, post)
  {
    match mode
    case Rechunk =>
      if rechunked.Some? then Chunk(rechunked.value) else Window(Max(0, offset - pre), pre + post)
    case Around => Window(Max(0, offset - pre), pre + post)
    case From => Window(offset, post)
  }

  /** `safe_read_utf8_window`: the position actually sought and the number of
      bytes actually read. */
  function ReadRange(start: int, length: int): (r: (nat, nat))
    ensures r.0 >= 0 && r.1 >= 0
    ensures start >= 0 ==> r.0 == start
    ensures length >= 0 ==> r.1 == length
    ensures start < 0 ==> r.0 == 0
    ensures length < 0 ==> r.1 == 0
  {
    (Max(0, start), Max(0, length))
  }

  /** When re-chunking finds nothing the snippet is the one `around` reads. */
  lemma RechunkFallsBackToAround(offset: int, pre: int, post: int, any: Option<string>)
    ensures SnippetSource(Rechunk, offset, pre, post, None) == SnippetSource(Around, offset, pre, post, any)
  {
  }

  /** No mode makes the file read start before the beginning of the file, and
      with the defaults `around` reads 2500 bytes starting up to 500 bytes
      before the hit. */
  lemma WindowNeverNegative(mode: PreviewMode, offset: int, rechunked: Option<string>)
    ensures var s := SnippetSource(mode, offset, DefaultPreBytes, DefaultPostBytes, rechunked);
      s.Window? ==> ReadRange(s.start, s.length).0 >= 0
    ensures var s := SnippetSource(Around, offset, DefaultPreBytes, DefaultPostBytes, rechunked);
      s.length == 2500 && (offset >= 500 ==> s.start == offset - 500)
  {
  }

  // ---------------------------------------------------------------- context

  /** One search hit: its metadata fields as given (absent ones are `None`;
      present ones are taken to be of the expected type), whether the source
      file exists, and the snippet read for it. */
  datatype Hit = Hit(source: Option<string>, sourceExists: bool, offset: Option<int>,
                     filename: Option<string>, snippet: string)

  /** A hit contributes only when it names a source and the file exists. */
  predicate Usable(h: Hit) {
    Truthy(h.source) && h.sourceExists
  }

  function Offset(h: Hit): int { h.offset.GetOr(0) }

  function FileName(h: Hit): string { h.filename.GetOr("") }

  /** The context part of the `n`-th hit (counting from 1). */
  function Part(n: int, h: Hit): string {
    "[Source " + Text.IntToString(n) + "] " + FileName(h) + " @ offset " + Text.IntToString(Offset(h))
      + "\n---\n" + h.snippet + "\n"
  }

  function Citation(h: Hit): string {
    FileName(h) + ":" + Text.IntToString(Offset(h))
  }

  /** The total length of some parts. */
  function SumLen(parts: seq<string>): nat {
    if parts == [] then 0 else |parts[0]| + SumLen(parts[1..])
  }

  predicate Indices<T>(xs: seq<T>, idx: seq<nat>) {
    forall k :: 0 <= k < |idx| ==> idx[k] < |xs|
  }

  /** The parts of the hits at the given positions, each numbered by its
      position among all hits. */
  function PartsOf(hits: seq<Hit>, idx: seq<nat>): (r: seq<string>)
    requires Indices(hits, idx)
    ensures |r| == |idx|
  {
    seq(|idx|, k requires 0 <= k < |idx| => Part(idx[k] + 1, hits[idx[k]]))
  }

  function CitationsOf(hits: seq<Hit>, idx: seq<nat>): (r: seq<string>)
    requires Indices(hits, idx)
    ensures |r| == |idx|
  {
    seq(|idx|, k requires 0 <= k < |idx| => Citation(hits[idx[k]]))
  }

  lemma PartsOfSnoc(hits: seq<Hit>, idx: seq<nat>, i: nat)
    requires Indices(hits, idx) && i < |hits|
    ensures Indices(hits, idx + [i])
    ensures PartsOf(hits, idx + [i]) == PartsOf(hits, idx) + [Part(i + 1, hits[i])]
    ensures CitationsOf(hits, idx + [i]) == CitationsOf(hits, idx) + [Citation(hits[i])]
  {
  }

  /** The length of every hit's part, by position. */
  function PartLens(hits: seq<Hit>): (r: seq<nat>)
    ensures |r| == |hits|
  {
    seq(|hits|, k requires 0 <= k < |hits| => |Part(k + 1, hits[k])|)
  }

  /** The sum of the lengths at the given positions. */
  function SumAt(lens: seq<nat>, idx: seq<nat>): nat
    requires Indices(lens, idx)
  {
    if idx == [] then 0 else lens[idx[0]] + SumAt(lens, idx[1..])
  }

  /** The positions of the hits taken from position `i` on, with `total`
      characters already taken, where `lens` gives each hit's part length:
      unusable hits are passed over, and the first usable hit whose part does
      not fit ends the accumulation. */
  function Taken(hits: seq<Hit>, lens: seq<nat>, i: nat, total: int, budget: int): seq<nat>
    requires |lens| == |hits| && i <= |hits|
    decreases |hits| - i
  {
    if i == |hits| then []
    else if !Usable(hits[i]) then Taken(hits, lens, i + 1, total, budget)
    else if total + lens[i] > budget then []
    else [i] + Taken(hits, lens, i + 1, total + lens[i], budget)
  }

  /** Only positions from `i` on are taken. */
  lemma {:induction false} TakenRange(hits: seq<Hit>, lens: seq<nat>, i: nat, total: int, budget: int)
    requires |lens| == |hits| && i <= |hits|
    ensures forall k :: 0 <= k < |Taken(hits, lens, i, total, budget)| ==> i <= Taken(hits, lens, i, total, budget)[k] < |hits|
    decreases |hits| - i
  {
    if i < |hits| {
      if !Usable(hits[i]) {
        TakenRange(hits, lens, i + 1, total, budget);
      } else if total + lens[i] <= budget {
        var rest := Taken(hits, lens, i + 1, total + lens[i], budget);
        TakenRange(hits, lens, i + 1, total + lens[i], budget);
        assert forall k :: 1 <= k < |[i] + rest| ==> ([i] + rest)[k] == rest[k - 1];
      }
    }
  }

  /** The positions of the hits whose parts make up the context. */
  function Accepted(hits: seq<Hit>, budget: int): (idx: seq<nat>)
    ensures Indices(hits, idx)
  {
    TakenRange(hits, PartLens(hits), 0, 0, budget);
    Taken(hits, PartLens(hits), 0, 0, budget)
  }

  lemma AppendAssoc<T>(a: seq<T>, b: seq<T>, c: seq<T>)
    ensures a + (b + c) == (a + b) + c
  {
  }

  /** One step of the accumulation, as the loop of `BuildContext` takes it. */
  lemma TakenStep(hits: seq<Hit>, lens: seq<nat>, i: nat, total: int, budget: int)
    requires |lens| == |hits| && i < |hits|
    ensures !Usable(hits[i]) ==> Taken(hits, lens, i, total, budget) == Taken(hits, lens, i + 1, total, budget)
    ensures Usable(hits[i]) && total + lens[i] > budget ==> Taken(hits, lens, i, total, budget) == []
    ensures Usable(hits[i]) && total + lens[i] <= budget ==>
      Taken(hits, lens, i, total, budget) == [i] + Taken(hits, lens, i + 1, total + lens[i], budget)
  {
  }

  /** Taking a hit extends the positions taken so far by that hit alone. */
  lemma TakenExtend(hits: seq<Hit>, lens: seq<nat>, idx: seq<nat>, i: nat, total: int, len: nat, budget: int)
    requires |lens| == |hits| && i < |hits| && Usable(hits[i]) && len == lens[i] && total + len <= budget
    requires Taken(hits, lens, 0, 0, budget) == idx + Taken(hits, lens, i, total, budget)
    ensures Taken(hits, lens, 0, 0, budget) == (idx + [i]) + Taken(hits, lens, i + 1, total + len, budget)
  {
    TakenStep(hits, lens, i, total, budget);
    AppendAssoc(idx, [i], Taken(hits, lens, i + 1, total + len, budget));
  }

  /** The state of the loop of `build_context` before the hit at `i`: the
      positions `idx` taken so far, with `total` characters, are those the
      whole accumulation starts with, and `parts` and `citations` are theirs. */
  ghost predicate Progress(hits: seq<Hit>, budget: int, i: nat, total: int, idx: seq<nat>,
                           parts: seq<string>, citations: seq<string>) {
    && i <= |hits|
    && Indices(hits, idx)
    && Taken(hits, PartLens(hits), 0, 0, budget) == idx + Taken(hits, PartLens(hits), i, total, budget)
    && parts == PartsOf(hits, idx) && citations == CitationsOf(hits, idx)
  }

  /** Nothing is taken before the loop starts. */
  lemma ProgressStart(hits: seq<Hit>, budget: int)
    ensures Progress(hits, budget, 0, 0, [], [], [])
  {
    assert [] + Taken(hits, PartLens(hits), 0, 0, budget) == Taken(hits, PartLens(hits), 0, 0, budget);
  }

  /** An unusable hit is passed over. */
  lemma ProgressSkip(hits: seq<Hit>, budget: int, i: nat, total: int, idx: seq<nat>,
                     parts: seq<string>, citations: seq<string>)
    requires Progress(hits, budget, i, total, idx, parts, citations)
    requires i < |hits| && !Usable(hits[i])
    ensures Progress(hits, budget, i + 1, total, idx, parts, citations)
  {
    TakenStep(hits, PartLens(hits), i, total, budget);
  }

  /** A usable hit whose part fits is taken. */
  lemma ProgressTake(hits: seq<Hit>, budget: int, i: nat, total: int, idx: seq<nat>,
                     parts: seq<string>, citations: seq<string>, part: string)
    requires Progress(hits, budget, i, total, idx, parts, citations)
    requires i < |hits| && Usable(hits[i]) && part == Part(i + 1, hits[i]) && total + |part| <= budget
    ensures Progress(hits, budget, i + 1, total + |part|, idx + [i], parts + [part],
                     citations + [Citation(hits[i])])
  {
    var lens := PartLens(hits);
    assert |part| == lens[i];
    TakenExtend(hits, lens, idx, i, total, |part|, budget);
    PartsOfSnoc(hits, idx, i);
  }

  /** A usable hit whose part does not fit ends the accumulation. */
  lemma ProgressRefused(hits: seq<Hit>, budget: int, i: nat, total: int, idx: seq<nat>,
                        parts: seq<string>, citations: seq<string>)
    requires Progress(hits, budget, i, total, idx, parts, citations)
    requires i < |hits| && Usable(hits[i]) && total + |Part(i + 1, hits[i])| > budget
    ensures idx == Accepted(hits, budget)
  {
    var lens := PartLens(hits);
    assert |Part(i + 1, hits[i])| == lens[i];
    TakenStep(hits, lens, i, total, budget);
  }

  /** Past the last hit the accumulation is complete. */
  lemma ProgressDone(hits: seq<Hit>, budget: int, total: int, idx: seq<nat>,
                     parts: seq<string>, citations: seq<string>)
    requires Progress(hits, budget, |hits|, total, idx, parts, citations)
    ensures idx == Accepted(hits, budget)
  {
    assert Taken(hits, PartLens(hits), |hits|, total, budget) == [];
  }

  /** One pass of the loop of `build_context` over the hit at `i`: skip it,
      take it, or stop because its part does not fit. */
  method ContextStep(hits: seq<Hit>, budget: int, i: nat, total: int, ghost idx: seq<nat>,
                     parts: seq<string>, citations: seq<string>)
    returns (stop: bool, total': int, ghost idx': seq<nat>, parts': seq<string>, citations': seq<string>)
    requires i < |hits| && Progress(hits, budget, i, total, idx, parts, citations)
    ensures stop ==> idx == Accepted(hits, budget) && parts' == parts && citations' == citations
    ensures !stop ==> Progress(hits, budget, i + 1, total', idx', parts', citations')
  {
    stop, total', idx', parts', citations' := false, total, idx, parts, citations;
    if !Usable(hits[i]) {
      ProgressSkip(hits, budget, i, total, idx, parts, citations);
      return;
    }
    var part := Part(i + 1, hits[i]);
    if total + |part| > budget {
      ProgressRefused(hits, budget, i, total, idx, parts, citations);
      stop := true;
      return;
    }
    ProgressTake(hits, budget, i, total, idx, parts, citations, part);
    total', idx', parts', citations' := total + |part|, idx + [i], parts + [part], citations + [Citation(hits[i])];
  }

  /** `build_context`: the context text and the citations of the hits taken,
      in hit order. */
  method BuildContext(hits: seq<Hit>, budget: int) returns (context: string, citations: seq<string>)
    ensures context == Text.Join(PartsOf(hits, Accepted(hits, budget)), "\n\n")
    ensures citations == CitationsOf(hits, Accepted(hits, budget))
    ensures |citations| == |PartsOf(hits, Accepted(hits, budget))|
  {
    var parts: seq<string> := [];
    citations := [];
    var total := 0;
    ghost var idx: seq<nat> := [];
    ProgressStart(hits, budget);
    var i: nat := 0;
    while i < |hits|
      invariant Progress(hits, budget, i, total, idx, parts, citations)
      decreases |hits| - i
    {
      var stop;
      stop, total, idx, parts, citations := ContextStep(hits, budget, i, total, idx, parts, citations);
      if stop {
        break;
      }
      i := i + 1;
    }
    if i == |hits| {
      ProgressDone(hits, budget, total, idx, parts, citations);
    }
    context := Text.Join(parts, "\n\n");
  }

  /** The lengths taken never add up to more than the budget. */
  lemma {:induction false} TakenWithinBudget(hits: seq<Hit>, lens: seq<nat>, i: nat, total: int, budget: int)
    requires |lens| == |hits| && i <= |hits| && total <= budget
    ensures Indices(lens, Taken(hits, lens, i, total, budget))
    ensures total + SumAt(lens, Taken(hits, lens, i, total, budget)) <= budget
    decreases |hits| - i
  {
    TakenRange(hits, lens, i, total, budget);
    if i == |hits| {
    } else if !Usable(hits[i]) {
      TakenWithinBudget(hits, lens, i + 1, total, budget);
    } else if total + lens[i] > budget {
    } else {
      var rest := Taken(hits, lens, i + 1, total + lens[i], budget);
      assert ([i] + rest)[1..] == rest;
      TakenWithinBudget(hits, lens, i + 1, total + lens[i], budget);
    }
  }

  /** The length of some parts is the sum of their recorded lengths. */
  lemma {:induction false} SumLenParts(hits: seq<Hit>, idx: seq<nat>)
    requires Indices(hits, idx)
    ensures SumLen(PartsOf(hits, idx)) == SumAt(PartLens(hits), idx)
    decreases |idx|
  {
    if idx != [] {
      var ps := PartsOf(hits, idx);
      assert ps[0] == Part(idx[0] + 1, hits[idx[0]]);
      PartsOfTail(hits, idx);
      assert SumLen(ps) == |ps[0]| + SumLen(ps[1..]);
      assert SumAt(PartLens(hits), idx) == PartLens(hits)[idx[0]] + SumAt(PartLens(hits), idx[1..]);
      SumLenParts(hits, idx[1..]);
    }
  }

  lemma PartsOfTail(hits: seq<Hit>, idx: seq<nat>)
    requires Indices(hits, idx) && idx != []
    ensures PartsOf(hits, idx)[1..] == PartsOf(hits, idx[1..])
  {
    var a := PartsOf(hits, idx)[1..];
    var b := PartsOf(hits, idx[1..]);
    forall k | 0 <= k < |a|
      ensures a[k] == b[k]
    {
      assert idx[1..][k] == idx[k + 1];
    }
  }

  /** With any non-negative budget the parts of the built context add up to
      at most the budget. */
  lemma ContextWithinBudget(hits: seq<Hit>, budget: int)
    requires budget >= 0
    ensures SumLen(PartsOf(hits, Accepted(hits, budget))) <= budget
  {
    TakenWithinBudget(hits, PartLens(hits), 0, 0, budget);
    SumLenParts(hits, Accepted(hits, budget));
  }

  predicate UsableInOrder(hits: seq<Hit>, idx: seq<nat>)
    requires Indices(hits, idx)
  {
    forall k :: 0 <= k < |idx| ==> Usable(hits[idx[k]]) && (k > 0 ==> idx[k - 1] < idx[k])
  }

  /** Only usable hits are taken, in hit order. */
  lemma {:induction false} TakenUsableInOrder(hits: seq<Hit>, lens: seq<nat>, i: nat, total: int, budget: int)
    requires |lens| == |hits| && i <= |hits|
    ensures Indices(hits, Taken(hits, lens, i, total, budget))
    ensures UsableInOrder(hits, Taken(hits, lens, i, total, budget))
    decreases |hits| - i
  {
    TakenRange(hits, lens, i, total, budget);
    if i == |hits| {
    } else if !Usable(hits[i]) {
      assert Taken(hits, lens, i, total, budget) == Taken(hits, lens, i + 1, total, budget);
      TakenUsableInOrder(hits, lens, i + 1, total, budget);
    } else if total + lens[i] > budget {
    } else {
      var rest := Taken(hits, lens, i + 1, total + lens[i], budget);
      TakenUsableInOrder(hits, lens, i + 1, total + lens[i], budget);
      TakenRange(hits, lens, i + 1, total + lens[i], budget);
      UsableInOrderCons(hits, i, rest);
    }
  }

  /** A usable hit put before later usable hits in order keeps them in order. */
  lemma UsableInOrderCons(hits: seq<Hit>, i: nat, rest: seq<nat>)
    requires i < |hits| && Usable(hits[i]) && Indices(hits, rest) && UsableInOrder(hits, rest)
    requires forall k :: 0 <= k < |rest| ==> i < rest[k]
    ensures Indices(hits, [i] + rest) && UsableInOrder(hits, [i] + rest)
  {
    var idx := [i] + rest;
    forall k | 0 <= k < |idx|
      ensures idx[k] < |hits| && Usable(hits[idx[k]]) && (k > 0 ==> idx[k - 1] < idx[k])
    {
      if k > 0 {
        assert idx[k] == rest[k - 1];
        if k > 1 {
          assert idx[k - 1] == rest[k - 2];
        }
      }
    }
  }

  /** Once a usable hit is refused, no later hit is taken, however short its
      part: the accumulation stops rather than skips. */
  lemma {:induction false} RefusalEndsAccumulation(hits: seq<Hit>, lens: seq<nat>, i: nat, total: int, budget: int, j: nat)
    requires |lens| == |hits| && i <= j < |hits| && Usable(hits[j])
    requires j !in Taken(hits, lens, i, total, budget)
    ensures forall k :: 0 <= k < |Taken(hits, lens, i, total, budget)| ==> Taken(hits, lens, i, total, budget)[k] < j
    decreases |hits| - i
  {
    if !Usable(hits[i]) {
      RefusalEndsAccumulation(hits, lens, i + 1, total, budget, j);
    } else if total + lens[i] > budget {
    } else {
      var rest := Taken(hits, lens, i + 1, total + lens[i], budget);
      assert j != i;
      assert j !in rest by {
        assert forall x :: x in rest ==> x in [i] + rest;
      }
      RefusalEndsAccumulation(hits, lens, i + 1, total + lens[i], budget, j);
    }
  }

  /** For the context itself: when a usable hit's part is left out, every
      part in the context belongs to an earlier hit. */
  lemma ContextStopsAtRefusal(hits: seq<Hit>, budget: int, j: nat)
    requires j < |hits| && Usable(hits[j]) && j !in Accepted(hits, budget)
    ensures forall k :: 0 <= k < |Accepted(hits, budget)| ==> Accepted(hits, budget)[k] < j
  {
    RefusalEndsAccumulation(hits, PartLens(hits), 0, 0, budget, j);
  }

  /** A hit that is skipped still uses up its number: when the first hit is
      unusable, the first part is headed `[Source 2]`. */
  lemma SkippedHitKeepsNumber(hits: seq<Hit>, budget: int)
    requires |hits| >= 2 && !Usable(hits[0]) && Usable(hits[1])
    requires |Part(2, hits[1])| <= budget
    ensures Accepted(hits, budget) != []
    ensures PartsOf(hits, Accepted(hits, budget))[0] == Part(2, hits[1])
    ensures CitationsOf(hits, Accepted(hits, budget))[0] == Citation(hits[1])
  {
    var lens := PartLens(hits);
    assert Taken(hits, lens, 0, 0, budget) == Taken(hits, lens, 1, 0, budget);
    assert lens[1] == |Part(2, hits[1])|;
  }

  /** A single usable hit whose part fits is the whole context, with one
      citation; one that does not fit gives an empty context. */
  lemma SingleHit(h: Hit, budget: int)
    requires Usable(h)
    ensures |Part(1, h)| <= budget ==> Text.Join(PartsOf([h], Accepted([h], budget)), "\n\n") == Part(1, h)
    ensures |Part(1, h)| <= budget ==> CitationsOf([h], Accepted([h], budget)) == [Citation(h)]
    ensures |Part(1, h)| > budget ==> Text.Join(PartsOf([h], Accepted([h], budget)), "\n\n") == ""
  {
    var lens := PartLens([h]);
    assert lens[0] == |Part(1, h)|;
    if |Part(1, h)| <= budget {
      assert Taken([h], lens, 1, lens[0], budget) == [];
      assert Accepted([h], budget) == [0];
    }
  }

  // ---------------------------------------------------------------- Markdown walk

  /** A path as its parts; the name is the last one. */
  type Path = seq<string>

  function Name(p: Path): string {
    if p == [] then "" else p[|p| - 1]
  }

  /** `PurePath.suffix`: from the last dot of the name, provided that dot is
      neither the first nor the last character. */
  function Suffix(name: string): (s: string)
    ensures s == [] || (|s| >= 2 && |s| < |name| && s[0] == '.' && s == name[|name| - |s|..] && '.' !in s[1..])
  {
    match Text.LastIndexOf(name, '.')
    case None => ""
    case Some(i) => if 0 < i < |name| - 1 then name[i..] else ""
  }

  predicate IsMarkdown(p: Path) {
    Text.Lower(Suffix(Name(p))) == ".md"
  }

  const Checkpoints := ".ipynb_checkpoints"

  /** The walk's paths without notebook checkpoints, in walk order. */
  function Kept(walk: seq<Path>): (r: seq<Path>)
    ensures forall k :: 0 <= k < |r| ==> Checkpoints !in r[k] && r[k] in walk
    ensures |r| <= |walk|
    decreases |walk|
  {
    if walk == [] then []
    else
      var last := walk[|walk| - 1];
      Kept(walk[..|walk| - 1]) + (if Checkpoints in last then [] else [last])
  }

  lemma {:induction false} KeptPrefix(walk: seq<Path>, i: nat)
    requires i <= |walk|
    ensures Kept(walk[..i]) <= Kept(walk)
    decreases |walk|
  {
    if i < |walk| {
      var init := walk[..|walk| - 1];
      assert init[..i] == walk[..i];
      KeptPrefix(init, i);
    } else {
      assert walk[..i] == walk;
    }
  }

  /** `list_markdown_files`: a file root is listed alone when its suffix is
      `.md` in any case; a directory root lists the walk's Markdown paths
      outside notebook checkpoints, stopping once `maxFiles` are listed. The
      count is checked after a path is added, so the listing always holds at
      least one path when one exists. */
  method ListMarkdownFiles(root: Path, rootIsFile: bool, walk: seq<Path>, maxFiles: int) returns (files: seq<Path>)
    ensures rootIsFile ==> files == (if IsMarkdown(root) then [root] else [])
    ensures !rootIsFile ==> files == Kept(walk)[..Min(|Kept(walk)|, Max(1, maxFiles))]
    ensures |files| <= Max(1, maxFiles)
    ensures !rootIsFile ==> forall k :: 0 <= k < |files| ==> Checkpoints !in files[k]
    ensures !rootIsFile && Kept(walk) != [] ==> files != []
  {
    if rootIsFile {
      return if IsMarkdown(root) then [root] else [];
    }
    files := [];
    var i := 0;
    while i < |walk|
      invariant 0 <= i <= |walk|
      invariant files == Kept(walk[..i])
      invariant |files| < Max(1, maxFiles)
    {
      var p := walk[i];
      KeptSnoc(walk, i);
      if Checkpoints in p {
        i := i + 1;
        continue;
      }
      files := files + [p];
      if |files| >= maxFiles {
        KeptPrefix(walk, i + 1);
        assert |files| == Max(1, maxFiles) && |files| <= |Kept(walk)|;
        return;
      }
      i := i + 1;
    }
    assert walk[..i] == walk;
  }

  /** One more walked path extends the kept list by at most that path. */
  lemma KeptSnoc(walk: seq<Path>, i: nat)
    requires i < |walk|
    ensures Kept(walk[..i + 1]) == Kept(walk[..i]) + (if Checkpoints in walk[i] then [] else [walk[i]])
  {
    assert walk[..i + 1][..i] == walk[..i];
  }

  /** A root file named exactly `.md` has no suffix and is not listed. */
  lemma HiddenNameIsNotMarkdown()
    ensures !IsMarkdown([".md"])
  {
    assert Text.LastIndexOf(".md", '.') == Some(0);
  }

  /** The suffix test ignores case: `README.MD` is listed. */
  lemma UpperCaseSuffixIsMarkdown()
    ensures IsMarkdown(["docs", "README.MD"])
  {
    assert Text.LastIndexOf("README.MD", '.') == Some(6);
    assert Suffix("README.MD") == ".MD";
  }
}

=== FILE: recent_cache.dfy ===
/** The client's memory of datasets it created or updated a moment ago: an
    insertion-ordered map from dataset URN to the monotonic time of the last
    change, bounded in age (30 s) and in size (1024 entries). A schema `PUT`
    for a URN found here is retried while the catalog catches up.

    Time is a natural number of milliseconds read from a monotonic clock that
    the caller passes in. */
module RecentCache {
  import opened Common

  const TtlMs: nat := 30000
  const MaxEntries: nat := 1024

  datatype Entry = Entry(urn: string, ts: nat)

  /** Oldest entry first, as in the ordered dictionary. */
  type Cache = seq<Entry>

  function Keys(c: Cache): set<string> {
    set i | 0 <= i < |c| :: c[i].urn
  }

  /** An entry is still within the time-to-live at `now`. */
  predicate Fresh(e: Entry, now: nat) {
    e.ts + TtlMs >= now
  }

  predicate Distinct(c: Cache) {
    forall i, j :: 0 <= i < j < |c| ==> c[i].urn != c[j].urn
  }

  predicate Sorted(c: Cache) {
    forall i, j :: 0 <= i < j < |c| ==> c[i].ts <= c[j].ts
  }

  /** The shape every reachable cache has at time `now`: one entry per URN,
      ordered by time of change, nothing stamped in the future. */
  predicate Wf(c: Cache, now: nat) {
    && Distinct(c)
    && Sorted(c)
    && (forall i :: 0 <= i < |c| ==> c[i].ts <= now)
  }

  predicate AllFresh(c: Cache, now: nat) {
    forall i :: 0 <= i < |c| ==> Fresh(c[i], now)
  }

  /** The position of `u`, if it is present. */
  function Find(c: Cache, u: string): (r: Option<nat>)
    ensures r.None? <==> u !in Keys(c)
    ensures r.Some? ==> r.value < |c| && c[r.value].urn == u
    ensures r.Some? ==> forall j :: 0 <= j < r.value ==> c[j].urn != u
    decreases |c|
  {
    if c == [] then None
    else if c[0].urn == u then Some(0)
    else
      match Find(c[1..], u)
      case None =>
        assert Keys(c) == {c[0].urn} + Keys(c[1..]) by {
          forall k | k in Keys(c) ensures k in {c[0].urn} + Keys(c[1..]) {
            var i :| 0 <= i < |c| && c[i].urn == k;
            if i > 0 { assert c[1..][i - 1].urn == k; }
          }
        }
        None
      case Some(i) => Some(i + 1)
  }

  /** `pop(urn, None)`: forget one URN, keep the order of the rest. */
  function Remove(c: Cache, u: string): (r: Cache)
    ensures Distinct(c) ==> u !in Keys(r)
    ensures forall k :: k != u ==> (k in Keys(r) <==> k in Keys(c))
    ensures Distinct(c) ==> Distinct(r)
    ensures Sorted(c) ==> Sorted(r)
    ensures u !in Keys(c) ==> r == c
    ensures |r| <= |c|
  {
    match Find(c, u)
    case None => c
    case Some(i) =>
      RemoveAtKeys(c, i);
      RemoveAtShape(c, i);
      c[..i] + c[i + 1..]
  }

  /** Dropping position `i` loses at most the URN stored there. */
  lemma RemoveAtKeys(c: Cache, i: nat)
    requires i < |c|
    ensures forall k :: k != c[i].urn ==> (k in Keys(c[..i] + c[i + 1..]) <==> k in Keys(c))
    ensures Distinct(c) ==> c[i].urn !in Keys(c[..i] + c[i + 1..])
  {
    var r := c[..i] + c[i + 1..];
    assert forall j :: 0 <= j < |r| ==> r[j] == (if j < i then c[j] else c[j + 1]);
    forall k | k != c[i].urn ensures k in Keys(r) <==> k in Keys(c) {
      if k in Keys(c) {
        var j :| 0 <= j < |c| && c[j].urn == k;
        assert r[if j < i then j else j - 1].urn == k;
      }
    }
  }

  /** Dropping position `i` keeps the rest distinct and in order. */
  lemma RemoveAtShape(c: Cache, i: nat)
    requires i < |c|
    ensures Distinct(c) ==> Distinct(c[..i] + c[i + 1..])
    ensures Sorted(c) ==> Sorted(c[..i] + c[i + 1..])
  {
    var r := c[..i] + c[i + 1..];
    assert forall j :: 0 <= j < |r| ==> r[j] == (if j < i then c[j] else c[j + 1]);
  }

  /** `_prune_recent_datasets(now)`: drop the oldest entry while it is stale or
      the cache is over its size bound. */
  function Prune(c: Cache, now: nat): (r: Cache)
    ensures |r| <= |c| && r == c[|c| - |r|..]
    ensures r != [] ==> Fresh(r[0], now) && |r| <= MaxEntries
    decreases |c|
  {
    if c == [] then c
    else if Fresh(c[0], now) && |c| <= MaxEntries then c
    else Prune(c[1..], now)
  }

  /** `_note_recent_dataset_change(urn)`: a URN that is a non-empty string is
      (re)stamped with `now` and moved to the newest end, then the cache is
      pruned. Anything else (`None` stands for a non-string) is ignored. */
  function Touch(c: Cache, urn: Option<string>, now: nat): (r: Cache)
    ensures !Truthy(urn) ==> r == c
    ensures Truthy(urn) ==> |r| >= 1 && r[|r| - 1] == Entry(urn.value, now)
    ensures Truthy(urn) ==> |r| <= MaxEntries
  {
    if !Truthy(urn) then c
    else
      var u := urn.value;
      var s := Remove(c, u) + [Entry(u, now)];
      var r := Prune(s, now);
      assert r != [] by {
        if r == [] { PruneKeepsFreshTail(s, now); }
      }
      r
  }

  /** `_dataset_recently_changed(urn)`: the answer and the cache afterwards. A
      URN found stale is evicted and the cache pruned. */
  function Query(c: Cache, urn: Option<string>, now: nat): (r: (bool, Cache))
    ensures r.0 ==> r.1 == c
    ensures !Truthy(urn) ==> r == (false, c)
  {
    if !Truthy(urn) then (false, c)
    else
      match Find(c, urn.value)
      case None => (false, c)
      case Some(i) =>
        if now - c[i].ts > TtlMs then (false, Prune(Remove(c, urn.value), now))
        else (true, c)
  }

  // ---------------------------------------------------------------- lemmas

  /** Pruning never drops a fresh last entry: a one-entry suffix is always
      within the size bound. */
  lemma {:induction false} PruneKeepsFreshTail(c: Cache, now: nat)
    requires c != [] && Fresh(c[|c| - 1], now)
    ensures Prune(c, now) != []
    decreases |c|
  {
    if Fresh(c[0], now) && |c| <= MaxEntries {
    } else {
      assert |c| > 1 by {
        if |c| == 1 { assert MaxEntries >= 1; }
      }
      PruneKeepsFreshTail(c[1..], now);
    }
  }

  /** In a time-ordered cache, pruning leaves only fresh entries, at most
      `MaxEntries` of them, and it drops exactly the oldest entries up to the
      longest suffix that is fresh and within bound. */
  lemma {:induction false} PruneSorted(c: Cache, now: nat)
    requires Sorted(c)
    ensures AllFresh(Prune(c, now), now)
    ensures |Prune(c, now)| <= MaxEntries
    ensures forall j :: 0 <= j < |c| - |Prune(c, now)| ==>
      !(AllFresh(c[j..], now) && |c| - j <= MaxEntries)
    decreases |c|
  {
    var r := Prune(c, now);
    if c == [] {
    } else if Fresh(c[0], now) && |c| <= MaxEntries {
      assert forall i :: 0 <= i < |c| ==> c[0].ts <= c[i].ts;
    } else {
      PruneSorted(c[1..], now);
      forall j | 0 <= j < |c| - |r|
        ensures !(AllFresh(c[j..], now) && |c| - j <= MaxEntries)
      {
        if j > 0 {
          assert c[j..] == c[1..][j - 1..];
        } else if AllFresh(c[j..], now) {
          assert c[j..][0] == c[0];
        }
      }
    }
  }

  /** A cache that is all fresh and within bound is left alone. */
  lemma PruneNothingToDo(c: Cache, now: nat)
    requires AllFresh(c, now) && |c| <= MaxEntries
    ensures Prune(c, now) == c
  {
  }

  lemma SuffixWf(c: Cache, now: nat, k: nat)
    requires Wf(c, now) && k <= |c|
    ensures Wf(c[k..], now)
    ensures Keys(c[k..]) <= Keys(c)
  {
    assert forall i :: 0 <= i < |c| - k ==> c[k..][i] == c[k + i];
  }

  /** Forgetting a URN keeps the cache well formed. */
  lemma RemoveWf(c: Cache, u: string, now: nat)
    requires Wf(c, now)
    ensures Wf(Remove(c, u), now)
  {
    var rm := Remove(c, u);
    forall i | 0 <= i < |rm| ensures rm[i].ts <= now {
      RemoveSubset(c, u, i);
    }
  }

  /** Appending a new URN stamped `now` keeps the cache well formed. */
  lemma AppendWf(c: Cache, e: Entry, now: nat)
    requires Wf(c, now) && e.urn !in Keys(c) && e.ts == now
    ensures Wf(c + [e], now)
    ensures Keys(c + [e]) == Keys(c) + {e.urn}
  {
    var s := c + [e];
    forall i | 0 <= i < |c| ensures s[i].urn != e.urn {
      assert c[i].urn in Keys(c);
    }
    assert s[|s| - 1] == e;
    forall k | k in Keys(s) ensures k in Keys(c) + {e.urn} {
      var i :| 0 <= i < |s| && s[i].urn == k;
      if i < |c| { assert c[i].urn == k; }
    }
    forall k | k in Keys(c) ensures k in Keys(s) {
      var i :| 0 <= i < |c| && c[i].urn == k;
      assert s[i].urn == k;
    }
  }

  lemma WfLater(c: Cache, t: nat, now: nat)
    requires Wf(c, t) && t <= now
    ensures Wf(c, now)
  {
  }

  /** Stamping a URN keeps the cache well formed, provided the clock has not
      gone backwards; the URN is then present, and nothing that was not in the
      cache appears. */
  lemma TouchWf(c: Cache, u: string, t: nat, now: nat)
    requires Wf(c, t) && t <= now && u != ""
    ensures Wf(Touch(c, Some(u), now), now)
    ensures u in Keys(Touch(c, Some(u), now))
    ensures Keys(Touch(c, Some(u), now)) <= Keys(c) + {u}
  {
    WfLater(c, t, now);
    var rm := Remove(c, u);
    RemoveWf(c, u, now);
    var s := rm + [Entry(u, now)];
    AppendWf(rm, Entry(u, now), now);
    var r := Touch(c, Some(u), now);
    assert r == Prune(s, now);
    SuffixWf(s, now, |s| - |r|);
    assert r[|r| - 1].urn == u;
  }

  /** Every entry `Remove` keeps was an entry of the cache. */
  lemma RemoveSubset(c: Cache, u: string, i: nat)
    requires i < |Remove(c, u)|
    ensures exists j :: 0 <= j < |c| && c[j] == Remove(c, u)[i]
  {
    match Find(c, u)
    case None =>
      assert c[i] == Remove(c, u)[i];
    case Some(k) =>
      if i < k {
        assert c[i] == Remove(c, u)[i];
      } else {
        assert c[i + 1] == Remove(c, u)[i];
      }
  }

  /** Asking keeps the cache well formed, and a URN reported as not recently
      changed is no longer in the cache. */
  lemma QueryWf(c: Cache, u: string, t: nat, now: nat)
    requires Wf(c, t) && t <= now && u != ""
    ensures Wf(Query(c, Some(u), now).1, now)
    ensures !Query(c, Some(u), now).0 ==> u !in Keys(Query(c, Some(u), now).1)
  {
    WfLater(c, t, now);
    var q := Query(c, Some(u), now);
    match Find(c, u)
    case None =>
      assert q.1 == c;
    case Some(i) =>
      if now - c[i].ts > TtlMs {
        var rm := Remove(c, u);
        RemoveWf(c, u, now);
        var r := Prune(rm, now);
        assert q.1 == r;
        SuffixWf(rm, now, |rm| - |r|);
      } else {
        assert q.1 == c;
      }
  }

  /** In a cache with one entry per URN, the answer is "recently changed"
      exactly when the URN has an entry stamped within the time-to-live. */
  lemma QueryAnswer(c: Cache, u: string, now: nat)
    requires Distinct(c) && u != ""
    ensures Query(c, Some(u), now).0 <==>
      exists i :: 0 <= i < |c| && c[i].urn == u && Fresh(c[i], now)
  {
    match Find(c, u)
    case None =>
      forall i | 0 <= i < |c| ensures c[i].urn != u {
        assert c[i].urn in Keys(c);
      }
    case Some(i) =>
  }

  /** The property the retry logic relies on: right after a change to `u` at
      time `t`, asking at time `t2` says "recently changed" exactly when no
      more than the time-to-live has passed. */
  lemma TouchThenQuery(c: Cache, u: string, t: nat, t2: nat)
    requires Wf(c, t) && u != "" && t <= t2
    ensures Query(Touch(c, Some(u), t), Some(u), t2).0 <==> t2 - t <= TtlMs
  {
    var r := Touch(c, Some(u), t);
    TouchWf(c, u, t, t);
    var i := Find(r, u).value;
    assert r[|r| - 1].urn == u;
    assert i == |r| - 1;
  }
}

=== FILE: retry_loop.dfy ===
/** Scenarios of the `_request` loop: what a given script of replies makes
    it send, refresh, sleep and end with — a first answer below 400, two
    401s, a dashboard 404, other error statuses, and a schema 404 retried
    through the whole schedule. */
module RetryLoop {
  import opened Common
  import opened Text
  import opened Client

  function Json404(detail: string): Response {
    Response(404, "application/json", "", Some(JObj(map["detail" := JStr(detail)])))
  }

  /** A first answer below 400 leaves the loop at once: one attempt, no
      refresh, no sleep. */
  lemma FirstAnswerDecides(a: Attempt, resp: Response, rest: seq<Reply>, i: nat, didRefresh: bool)
    requires i <= RetryCount && resp.status < 400
    ensures Loop(a, [Received(resp)] + rest, i, didRefresh) == ([Sent], Through(resp))
  {
  }

  /** With an authenticator, a 401 triggers one refresh and a second 401
      gives up: two attempts, one refresh. */
  lemma TwoUnauthorized(a: Attempt, resp: Response, rest: seq<Reply>, i: nat)
    requires i <= RetryCount && a.authenticator && !a.skipAuth && resp.status == 401
    ensures Loop(a, [Received(resp), Received(resp)] + rest, i, false)
         == ([Sent, Refreshed, Sent], Failed(AuthenticationError(RefreshFailed)))
  {
    var replies := [Received(resp), Received(resp)] + rest;
    assert replies[1..] == [Received(resp)] + rest;
    assert Loop(a, replies[1..], i, true) == ([Sent], Failed(AuthenticationError(RefreshFailed)));
    assert [Sent] + ([Refreshed] + [Sent]) == [Sent, Refreshed, Sent];
  }

  /** A 401 on an unauthenticated call, or with no authenticator, raises at
      once without refreshing. */
  lemma UnauthorizedWithoutRefresh(a: Attempt, resp: Response, rest: seq<Reply>, i: nat, didRefresh: bool)
    requires i <= RetryCount && resp.status == 401 && (a.skipAuth || !a.authenticator)
    ensures Loop(a, [Received(resp)] + rest, i, didRefresh)
         == ([Sent], Failed(AuthenticationError(if a.skipAuth then UnauthenticatedEndpoint else NoAuthenticator)))
  {
  }

  /** A 404 that looks like the dashboard is reported before any retry. */
  lemma DashboardBeforeRetry(a: Attempt, resp: Response, rest: seq<Reply>, i: nat, didRefresh: bool)
    requires i <= |RetryDelaysMs| && resp.status == 404 && LooksLikeDashboard(resp)
    ensures Loop(a, [Received(resp)] + rest, i, didRefresh) == ([Sent], Failed(NonAPIResponseError))
  {
  }

  /** Any other error status: `VectorDBUnavailableError` exactly for a 501 on a
      `vectordb` path, otherwise `APIError` with the status. */
  lemma ErrorStatus(a: Attempt, resp: Response, rest: seq<Reply>, i: nat, didRefresh: bool)
    requires i <= |RetryDelaysMs| && resp.status >= 400 && resp.status != 401
    requires !(resp.status == 404 && LooksLikeDashboard(resp))
    requires !(a.schemaRetry && i < |RetryDelaysMs| && IsSchemaNotFound(resp))
    ensures Loop(a, [Received(resp)] + rest, i, didRefresh).1 ==
      if resp.status == 501 && StartsWith(a.path, "vectordb")
      then Failed(VectorDBUnavailableError(501))
      else Failed(APIError(Some(resp.status)))
  {
  }

  /** One pass on a schema 404 while the retry is armed and delays remain:
      send, sleep the next delay, go round again. */
  lemma RetryPass(a: Attempt, resp: Response, rest: seq<Reply>, i: nat, didRefresh: bool)
    requires a.schemaRetry && i < RetryCount
    requires IsSchemaNotFound(resp) && !LooksLikeDashboard(resp)
    ensures var t := Loop(a, rest, i + 1, didRefresh);
      Loop(a, [Received(resp)] + rest, i, didRefresh) == ([Sent] + ([Slept(RetryDelayMs(i))] + t.0), t.1)
  {
    assert ([Received(resp)] + rest)[1..] == rest;
  }

  /** The same response `n` times over. */
  function Repeated(resp: Response, n: nat): (r: seq<Reply>)
    ensures |r| == n && forall k :: 0 <= k < n ==> r[k] == Received(resp)
  {
    if n == 0 then [] else [Received(resp)] + Repeated(resp, n - 1)
  }

  /** What one retry pass adds to the counts: one send and one sleep. */
  lemma RetryPassCounts(a: Attempt, resp: Response, rest: seq<Reply>, i: nat, didRefresh: bool)
    requires a.schemaRetry && i < RetryCount
    requires IsSchemaNotFound(resp) && !LooksLikeDashboard(resp)
    ensures var t := Loop(a, rest, i + 1, didRefresh);
      var r := Loop(a, [Received(resp)] + rest, i, didRefresh);
      && r.1 == t.1 && Sends(r.0) == 1 + Sends(t.0)
      && Sleeps(r.0) == [RetryDelayMs(i)] + Sleeps(t.0)
  {
    RetryPass(a, resp, rest, i, didRefresh);
    var t := Loop(a, rest, i + 1, didRefresh);
    CountsCons(Slept(RetryDelayMs(i)), t.0);
    CountsCons(Sent, [Slept(RetryDelayMs(i))] + t.0);
  }

  /** A schema 404 once the schedule is used up is `APIError` 404 after one
      more send and no sleep. */
  lemma LastRetryFails(a: Attempt, resp: Response, didRefresh: bool)
    requires IsSchemaNotFound(resp) && !LooksLikeDashboard(resp)
    ensures var r := Loop(a, [Received(resp)], RetryCount, didRefresh);
      r == ([Sent], Failed(APIError(Some(404)))) && Sends(r.0) == 1 && Sleeps(r.0) == []
  {
    assert Decide(a, resp, RetryCount, didRefresh) == Stop(Failed(APIError(Some(404))));
    CountsCons(Sent, []);
  }

  /** The loop's end after a schema 404 on every attempt from index `i`: one
      sleep per remaining delay, in order, one more attempt than sleeps, then
      `APIError` 404. */
  predicate ExhaustedFrom(r: (seq<Event>, LoopEnd), i: nat) {
    && r.1 == Failed(APIError(Some(404)))
    && Sends(r.0) == RetryCount - i + 1
    && |Sleeps(r.0)| == RetryCount - i
    && (forall k :: 0 <= k < |Sleeps(r.0)| ==> Sleeps(r.0)[k] == RetryDelayMs(i + k))
  }

  /** One more schema 404 in front of an exhausted run is an exhausted run
      from one index earlier. */
  lemma ExhaustStep(a: Attempt, resp: Response, i: nat, didRefresh: bool)
    requires a.schemaRetry && i < RetryCount
    requires IsSchemaNotFound(resp) && !LooksLikeDashboard(resp)
    requires ExhaustedFrom(Loop(a, Repeated(resp, RetryCount - i), i + 1, didRefresh), i + 1)
    ensures ExhaustedFrom(Loop(a, [Received(resp)] + Repeated(resp, RetryCount - i), i, didRefresh), i)
  {
    var rest := Repeated(resp, RetryCount - i);
    RetryPassCounts(a, resp, rest, i, didRefresh);
    var t := Loop(a, rest, i + 1, didRefresh);
    var sl := Sleeps(Loop(a, [Received(resp)] + rest, i, didRefresh).0);
    forall k | 0 <= k < |sl| ensures sl[k] == RetryDelayMs(i + k) {
      if k > 0 { assert sl[k] == Sleeps(t.0)[k - 1]; }
    }
  }

  /** A schema 404 on every attempt exhausts the schedule from index `i`. */
  lemma {:induction false} RetriesExhausted(a: Attempt, resp: Response, i: nat, didRefresh: bool)
    requires a.schemaRetry && i <= RetryCount
    requires IsSchemaNotFound(resp) && !LooksLikeDashboard(resp)
    ensures ExhaustedFrom(Loop(a, Repeated(resp, RetryCount - i + 1), i, didRefresh), i)
    decreases RetryCount - i
  {
    if i < RetryCount {
      RetriesExhausted(a, resp, i + 1, didRefresh);
      ExhaustStep(a, resp, i, didRefresh);
    } else {
      assert Repeated(resp, 1) == [Received(resp)];
      LastRetryFails(a, resp, didRefresh);
    }
  }

  /** The schema-not-found reply the server sends: JSON, not the dashboard. */
  lemma SchemaNotFoundReply()
    ensures IsSchemaNotFound(Json404(SchemaNotFoundDetail))
    ensures !LooksLikeDashboard(Json404(SchemaNotFoundDetail))
  {
    var ct := Lower("application/json");
    assert ct == "application/json";
    assert InfixAt(ct, "application/json", 0);
    forall i | 0 <= i <= |ct| - |"text/html"| ensures !InfixAt(ct, "text/html", i) {
      assert ct[i..i + 9][5] == ct[i + 5] != 'h';
    }
  }

  /** An armed retry against a dataset that never appears: nine attempts and
      the full schedule of sleeps, five seconds in all, then `APIError` 404. */
  lemma FullRetryWindow(a: Attempt)
    requires a.schemaRetry
    ensures var r := Loop(a, Repeated(Json404(SchemaNotFoundDetail), RetryCount + 1), 0, false);
      && r.1 == Failed(APIError(Some(404)))
      && Sends(r.0) == 9
      && Sleeps(r.0) == RetryDelaysMs
      && Total(Sleeps(r.0)) == 5000
  {
    SchemaNotFoundReply();
    RetriesExhausted(a, Json404(SchemaNotFoundDetail), 0, false);
    var r := Loop(a, Repeated(Json404(SchemaNotFoundDetail), RetryCount + 1), 0, false);
    FullSchedule(Sleeps(r.0));
  }

  /** A run of sleeps that follows the schedule from its start through all of
      its delays is the schedule itself. */
  lemma FullSchedule(sl: seq<nat>)
    requires |sl| == RetryCount
    requires forall k :: 0 <= k < |sl| ==> sl[k] == RetryDelayMs(0 + k)
    ensures sl == RetryDelaysMs && Total(sl) == 5000
  {
    RetryWindow();
  }

  /** With the retry armed, a schema 404 followed by an answer below 400:
      one retry pass, then the answer goes through after two attempts and
      one sleep of the first delay. */
  lemma RetryThenSuccess(a: Attempt, nf: Response, ok: Response)
    requires a.schemaRetry && IsSchemaNotFound(nf) && !LooksLikeDashboard(nf) && ok.status < 400
    ensures var r := Loop(a, [Received(nf), Received(ok)], 0, false);
      r.1 == Through(ok) && Sends(r.0) == 2 && Sleeps(r.0) == [100]
  {
    var rest := [Received(ok)];
    assert [Received(nf), Received(ok)] == [Received(nf)] + rest;
    assert rest == [Received(ok)] + [];
    RetryPassCounts(a, nf, rest, 0, false);
    FirstAnswerDecides(a, ok, [], 1, false);
    CountsCons(Sent, []);
  }
}

=== FILE: serving.dfy ===
/** Deployment records of the command-line client: which instance of an
    active deployment serves it, and the text box each deployment record
    prints itself as. */
module Serving {
  import opened Common
  import opened Text

  // ---------------------------------------------------------------- records

  /** A model instance; only its status matters here. */
  datatype Instance = Instance(id: string, status: Option<string>)

  predicate IsDeployed(i: Instance) { i.status == Some("DEPLOYED") }

  /** `ActiveModelDeployment`; ids are kept as their string form. */
  datatype ActiveDeployment = ActiveDeployment(
    id: string,
    mId: string,
    mName: string,
    status: string,
    instances: seq<Instance>,
    lbPort: int,
    endpoint: Option<string>)

  /** `UIModelDeployment`. */
  datatype UiDeployment = UiDeployment(
    id: string,
    mId: string,
    mName: string,
    status: string,
    instances: seq<Instance>,
    lbPort: Option<int>,
    hostIp: Option<string>,
    endpoint: Option<string>)

  /** `CreateModelDeployment`, floating-point allocations left out. */
  datatype CreateDeployment = CreateDeployment(
    mId: string,
    mFileId: Option<string>,
    mConfigId: string,
    engineName: Option<string>,
    duration: Option<int>,
    minCopies: int,
    startingCopies: int,
    maxCopies: Option<int>,
    location: Option<string>,
    lbPort: int,
    autoscaling: bool,
    forceCpu: bool,
    nodeResourceType: Option<string>,
    maxConcurrentRequests: Option<int>)

  /** A deployment request with only the two required ids given. */
  function NewCreateDeployment(mId: string, mConfigId: string): (r: CreateDeployment)
    ensures r.mId == mId && r.mConfigId == mConfigId
    ensures r.minCopies == 1 && r.startingCopies == 1 && r.lbPort == 0
    ensures !r.autoscaling && !r.forceCpu
    ensures r.mFileId.None? && r.engineName.None? && r.duration.None? && r.maxCopies.None?
    ensures r.location.None? && r.nodeResourceType.None? && r.maxConcurrentRequests.None?
  {
    CreateDeployment(mId, None, mConfigId, None, None, 1, 1, None, None, 0, false, false, None, None)
  }

  // ---------------------------------------------------------------- selection

  /** `is_available`: some instance is deployed. */
  function AnyDeployed(xs: seq<Instance>): (r: bool)
    ensures r <==> exists i :: 0 <= i < |xs| && IsDeployed(xs[i])
    decreases |xs|
  {
    if xs == [] then false
    else IsDeployed(xs[0]) || AnyDeployed(xs[1..])
  }

  predicate IsAvailable(d: ActiveDeployment) { AnyDeployed(d.instances) }

  /** `active_instance`: the first deployed instance in list order. */
  function FirstDeployed(xs: seq<Instance>): (r: Option<nat>)
    ensures r.None? <==> forall i :: 0 <= i < |xs| ==> !IsDeployed(xs[i])
    ensures r.Some? ==> r.value < |xs| && IsDeployed(xs[r.value])
    ensures r.Some? ==> forall i :: 0 <= i < r.value ==> !IsDeployed(xs[i])
    decreases |xs|
  {
    if xs == [] then None
    else if IsDeployed(xs[0]) then Some(0)
    else
      match FirstDeployed(xs[1..])
      case None => None
      case Some(i) => Some(i + 1)
  }

  function ActiveInstance(d: ActiveDeployment): (r: Option<Instance>)
    ensures r.Some? ==> r.value in d.instances && IsDeployed(r.value)
    ensures FirstDeployed(d.instances).Some? ==> r == Some(d.instances[FirstDeployed(d.instances).value])
    ensures forall i ::
      (0 <= i < |d.instances| && IsDeployed(d.instances[i]) && forall j :: 0 <= j < i ==> !IsDeployed(d.instances[j]))
      ==> r == Some(d.instances[i])
  {
    match FirstDeployed(d.instances)
    case None => None
    case Some(i) => Some(d.instances[i])
  }

  /** There is an active instance exactly when the deployment is available. */
  lemma {:induction false} FirstDeployedExists(xs: seq<Instance>)
    ensures FirstDeployed(xs).None? <==> !AnyDeployed(xs)
    decreases |xs|
  {
    if xs != [] && !IsDeployed(xs[0]) {
      FirstDeployedExists(xs[1..]);
    }
  }

  lemma ActiveInstanceIffAvailable(d: ActiveDeployment)
    ensures ActiveInstance(d).None? <==> !IsAvailable(d)
  {
    FirstDeployedExists(d.instances);
  }

  /** The number of deployed instances, as the box reports it. */
  function DeployedCount(xs: seq<Instance>): (n: nat)
    ensures n <= |xs|
    decreases |xs|
  {
    if xs == [] then 0
    else (if IsDeployed(xs[0]) then 1 else 0) + DeployedCount(xs[1..])
  }

  /** The active count is positive exactly when the deployment is available. */
  lemma {:induction false} DeployedCountPositive(xs: seq<Instance>)
    ensures DeployedCount(xs) > 0 <==> AnyDeployed(xs)
    decreases |xs|
  {
    if xs != [] {
      DeployedCountPositive(xs[1..]);
    }
  }

  /** All instances are counted active exactly when all are deployed. */
  lemma {:induction false} DeployedCountAll(xs: seq<Instance>)
    ensures DeployedCount(xs) == |xs| <==> forall i :: 0 <= i < |xs| ==> IsDeployed(xs[i])
    decreases |xs|
  {
    if xs != [] {
      DeployedCountAll(xs[1..]);
      if !IsDeployed(xs[0]) {
        assert DeployedCount(xs) <= |xs[1..]|;
      }
    }
  }

  // ---------------------------------------------------------------- boxes

  function Max(a: int, b: int): int { if a >= b then a else b }

  function Repeat(c: char, n: nat): (r: string)
    ensures |r| == n
    ensures forall i :: 0 <= i < n ==> r[i] == c
  {
    seq(n, i => c)
  }

  /** `f"{s:<{n}}"`: left-aligned, padded with spaces to at least `n`. */
  function PadRight(s: string, n: int): (r: string)
    ensures |r| == Max(|s|, n)
    ensures r[..|s|] == s
  {
    if |s| >= n then s else s + Repeat(' ', n - |s|)
  }

  /** A content row of a box of the given width. */
  function Row(text: string, width: int): (r: string)
    ensures |r| == Max(|text|, width - 2) + 4
  {
    "│ " + PadRight(text, width - 2) + " │"
  }

  function Border(left: char, right: char, width: nat): (r: string)
    ensures |r| == width + 2
  {
    [left] + Repeat('─', width) + [right]
  }

  /** The text of an optional string field, `x or ""`. */
  function OrEmpty(s: Option<string>): string {
    if s.Some? then s.value else ""
  }

  /** The width of an active deployment's box: the widest of the name, the
      endpoint, the port line and 40, plus 4 of padding. */
  function ActiveWidth(d: ActiveDeployment): (w: nat)
    ensures w >= 44
    ensures w >= |d.mName| + 4 && w >= |OrEmpty(d.endpoint)| + 4
    ensures w >= |IntToString(d.lbPort)| + 24
    ensures w == 44 || w == |d.mName| + 4 || w == |OrEmpty(d.endpoint)| + 4 || w == |IntToString(d.lbPort)| + 24
  {
    Max(Max(Max(|d.mName|, |OrEmpty(d.endpoint)|), |IntToString(d.lbPort)| + 20), 40) + 4
  }

  function StatusIcon(available: bool): (icon: string)
    ensures icon == "●" <==> available
  {
    if available then "●" else "○"
  }

  function ActiveStatusText(d: ActiveDeployment): string {
    StatusIcon(IsAvailable(d)) + " " + d.status
  }

  function ActiveInstancesText(d: ActiveDeployment): string {
    "🔄 Instances: " + NatToString(DeployedCount(d.instances)) + "/" + NatToString(|d.instances|) + " active"
  }

  function ActivePortText(d: ActiveDeployment): string {
    "🔌 Port: " + IntToString(d.lbPort)
  }

  function ActiveEndpointText(d: ActiveDeployment): string {
    if Truthy(d.endpoint) then "🌐 " + d.endpoint.value else "🌐 Not available"
  }

  /** The lines of `str(ActiveModelDeployment)`, which joins them with
      newlines. */
  function ActiveLines(d: ActiveDeployment): (lines: seq<string>)
    ensures |lines| == 8
  {
    var w := ActiveWidth(d);
    [Border('┌', '┐', w),
     Row(d.mName, w),
     Border('├', '┤', w),
     Row(ActiveStatusText(d), w),
     Row(ActiveInstancesText(d), w),
     Row(ActivePortText(d), w),
     Row(ActiveEndpointText(d), w),
     Border('└', '┘', w)]
  }

  /** The box is closed: the borders, the name row, the port row and the
      endpoint row all have the same length, because the width leaves room
      for each of them. Status and instance rows line up whenever their text
      fits in the width. */
  lemma ActiveBoxAligned(d: ActiveDeployment)
    ensures var lines := ActiveLines(d); var n := ActiveWidth(d) + 2;
      && |lines[0]| == n && |lines[2]| == n && |lines[7]| == n
      && |lines[1]| == n && |lines[5]| == n && |lines[6]| == n
      && (|ActiveStatusText(d)| <= ActiveWidth(d) - 2 ==> |lines[3]| == n)
      && (|ActiveInstancesText(d)| <= ActiveWidth(d) - 2 ==> |lines[4]| == n)
  {
    ActiveFixedRows(d);
    ActiveTextRows(d);
  }

  lemma ActiveFixedRows(d: ActiveDeployment)
    ensures var lines := ActiveLines(d); var n := ActiveWidth(d) + 2;
      |lines[0]| == n && |lines[2]| == n && |lines[7]| == n && |lines[1]| == n
  {
  }

  lemma ActiveTextRows(d: ActiveDeployment)
    ensures var lines := ActiveLines(d); var n := ActiveWidth(d) + 2;
      && |lines[5]| == n && |lines[6]| == n
      && (|ActiveStatusText(d)| <= ActiveWidth(d) - 2 ==> |lines[3]| == n)
      && (|ActiveInstancesText(d)| <= ActiveWidth(d) - 2 ==> |lines[4]| == n)
  {
    var w := ActiveWidth(d);
    var lines := ActiveLines(d);
    ActivePortRowFits(d);
    ActiveEndpointRowFits(d);
    assert lines[5] == Row(ActivePortText(d), w);
    assert lines[6] == Row(ActiveEndpointText(d), w);
  }

  lemma ActivePortRowFits(d: ActiveDeployment)
    ensures |ActivePortText(d)| <= ActiveWidth(d) - 2
  {
    assert |ActivePortText(d)| == 8 + |IntToString(d.lbPort)|;
  }

  lemma ActiveEndpointRowFits(d: ActiveDeployment)
    ensures |ActiveEndpointText(d)| <= ActiveWidth(d) - 2
  {
    if Truthy(d.endpoint) {
      assert |ActiveEndpointText(d)| == 2 + |d.endpoint.value|;
    }
  }

  /** A UI deployment's box: the name, the endpoint and 40, plus 4. */
  function UiWidth(d: UiDeployment): (w: nat)
    ensures w >= 44
    ensures w >= |d.mName| + 4 && w >= |OrEmpty(d.endpoint)| + 4
    ensures w == 44 || w == |d.mName| + 4 || w == |OrEmpty(d.endpoint)| + 4
  {
    Max(Max(|d.mName|, |OrEmpty(d.endpoint)|), 40) + 4
  }

  /** Unlike the active deployment, the UI record's icon follows its own
      status field, not its instances. */
  function UiStatusText(d: UiDeployment): (t: string)
    ensures |t| >= 2 && (t[0] == '●' <==> d.status == "DEPLOYED")
  {
    StatusIcon(d.status == "DEPLOYED") + " " + d.status
  }

  function UiEndpointText(d: UiDeployment): (t: string)
    ensures !Truthy(d.endpoint) ==> t == "Not available"
  {
    if Truthy(d.endpoint) then "🌐 " + d.endpoint.value else "Not available"
  }

  function UiLines(d: UiDeployment): (lines: seq<string>)
    ensures |lines| == 7
  {
    var w := UiWidth(d);
    [Border('┌', '┐', w),
     Row(d.mName, w),
     Border('├', '┤', w),
     Row(UiStatusText(d), w),
     Row("🔄 Instances: " + NatToString(|d.instances|), w),
     Row(UiEndpointText(d), w),
     Border('└', '┘', w)]
  }

  /** The UI box's borders, name row and endpoint row line up. */
  lemma UiBoxAligned(d: UiDeployment)
    ensures var lines := UiLines(d); var n := UiWidth(d) + 2;
      |lines[0]| == n && |lines[1]| == n && |lines[2]| == n && |lines[5]| == n && |lines[6]| == n
  {
  }
}

=== FILE: text.dfy ===
/** The handful of Python `str` operations the modelled code relies on:
    `strip`, ASCII `lower`/`upper`, `split`, `join`, `partition`, `replace`,
    `splitlines`, `str(int)` and `int(str)`. */
module Text {
  import opened Common

  /** Python's `str.isspace` for one character. */
  predicate IsSpace(c: char) {
    || c == ' '
    || ('\t' <= c <= '\r')
    || ('\U{1C}' <= c <= '\U{1F}')
    || c == '\U{85}' || c == '\U{A0}' || c == '\U{1680}'
    || ('\U{2000}' <= c <= '\U{200A}')
    || c == '\U{2028}' || c == '\U{2029}' || c == '\U{202F}'
    || c == '\U{205F}' || c == '\U{3000}'
  }

  /** The characters at which Python's `str.splitlines` breaks a line. */
  predicate IsLineBreak(c: char) {
    || ('\n' <= c <= '\r')
    || ('\U{1C}' <= c <= '\U{1E}')
    || c == '\U{85}' || c == '\U{2028}' || c == '\U{2029}'
  }

  lemma LineBreakIsSpace(c: char)
    ensures IsLineBreak(c) ==> IsSpace(c)
  {
  }

  // ---------------------------------------------------------------- strip

  /** `s.lstrip()`: drop leading whitespace. */
  function TrimStart(s: string): (r: string)
    ensures |r| <= |s| && r == s[|s| - |r|..]
    ensures r == [] || !IsSpace(r[0])
    ensures forall i :: 0 <= i < |s| - |r| ==> IsSpace(s[i])
    decreases |s|
  {
    if s != [] && IsSpace(s[0]) then TrimStart(s[1..]) else s
  }

  /** `s.rstrip()`: drop trailing whitespace. */
  function TrimEnd(s: string): (r: string)
    ensures |r| <= |s| && r == s[..|r|]
    ensures r == [] || !IsSpace(r[|r| - 1])
    ensures forall i :: |r| <= i < |s| ==> IsSpace(s[i])
    decreases |s|
  {
    if s != [] && IsSpace(s[|s| - 1]) then TrimEnd(s[..|s| - 1]) else s
  }

  /** `s.strip()`: the longest infix that neither starts nor ends with whitespace. */
  function Strip(s: string): (r: string)
    ensures |r| <= |s|
    ensures r == [] || (!IsSpace(r[0]) && !IsSpace(r[|r| - 1]))
    ensures exists i :: 0 <= i <= |s| - |r| && InfixAt(s, r, i)
  {
    var t := TrimStart(s);
    var r := TrimEnd(t);
    assert InfixAt(s, r, |s| - |t|);
    r
  }

  lemma StripIdempotent(s: string)
    ensures Strip(Strip(s)) == Strip(s)
  {
    var r := Strip(s);
    assert TrimStart(r) == r;
    assert TrimEnd(r) == r;
  }

  /** A string that neither starts nor ends with whitespace is its own strip. */
  lemma StripNoEdgeSpace(s: string)
    requires s == [] || (!IsSpace(s[0]) && !IsSpace(s[|s| - 1]))
    ensures Strip(s) == s
  {
    assert TrimStart(s) == s;
    assert TrimEnd(s) == s;
  }

  /** Characters that were not in a string are not in its strip. */
  lemma StripSub(s: string, c: char)
    requires c !in s
    ensures c !in Strip(s)
  {
    var t := TrimStart(s);
    SuffixKeepsOut(s, |s| - |t|, c);
    PrefixKeepsOut(t, |TrimEnd(t)|, c);
  }

  lemma SuffixKeepsOut(s: string, k: nat, c: char)
    requires k <= |s| && c !in s
    ensures c !in s[k..]
  {
    forall j | 0 <= j < |s| - k ensures s[k..][j] != c {
      assert s[k..][j] == s[k + j];
    }
  }

  lemma PrefixKeepsOut(s: string, k: nat, c: char)
    requires k <= |s| && c !in s
    ensures c !in s[..k]
  {
    forall j | 0 <= j < k ensures s[..k][j] != c {
      assert s[..k][j] == s[j];
    }
  }

  /** Trailing whitespace after text without edge whitespace is stripped. */
  lemma StripTrailingSpace(s: string, c: char)
    requires s != [] && !IsSpace(s[0]) && !IsSpace(s[|s| - 1])
    requires IsSpace(c)
    ensures Strip(s + [c]) == s
  {
    var t := s + [c];
    assert TrimStart(t) == t;
    assert t[..|t| - 1] == s;
    assert TrimEnd(s) == s;
  }

  /** `s.lstrip(c)` for a single character `c`. */
  function LStripChar(s: string, c: char): (r: string)
    ensures |r| <= |s| && r == s[|s| - |r|..]
    ensures r == [] || r[0] != c
    ensures forall i :: 0 <= i < |s| - |r| ==> s[i] == c
    decreases |s|
  {
    if s != [] && s[0] == c then LStripChar(s[1..], c) else s
  }

  /** `s.rstrip(c)` for a single character `c`. */
  function RStripChar(s: string, c: char): (r: string)
    ensures |r| <= |s| && r == s[..|r|]
    ensures r == [] || r[|r| - 1] != c
    ensures forall i :: |r| <= i < |s| ==> s[i] == c
    decreases |s|
  {
    if s != [] && s[|s| - 1] == c then RStripChar(s[..|s| - 1], c) else s
  }

  // ---------------------------------------------------------------- case

  predicate IsUpper(c: char) { 'A' <= c <= 'Z' }
  predicate IsLower(c: char) { 'a' <= c <= 'z' }

  function LowerChar(c: char): (r: char)
    ensures !IsUpper(r)
    ensures !IsUpper(c) ==> r == c
  {
    if IsUpper(c) then (c as int + 32) as char else c
  }

  function UpperChar(c: char): (r: char)
    ensures !IsLower(r)
    ensures !IsLower(c) ==> r == c
  {
    if IsLower(c) then (c as int - 32) as char else c
  }

  /** `s.lower()` restricted to ASCII letters. */
  function Lower(s: string): (r: string)
    ensures |r| == |s|
    ensures forall i :: 0 <= i < |s| ==> r[i] == LowerChar(s[i])
  {
    seq(|s|, i requires 0 <= i < |s| => LowerChar(s[i]))
  }

  /** `s.upper()` restricted to ASCII letters. */
  function Upper(s: string): (r: string)
    ensures |r| == |s|
    ensures forall i :: 0 <= i < |s| ==> r[i] == UpperChar(s[i])
  {
    seq(|s|, i requires 0 <= i < |s| => UpperChar(s[i]))
  }

  predicate NoUpper(s: string) {
    forall i :: 0 <= i < |s| ==> !IsUpper(s[i])
  }

  lemma LowerHasNoUpper(s: string)
    ensures NoUpper(Lower(s))
    ensures Lower(Lower(s)) == Lower(s)
  {
  }

  lemma LowerConcat(a: string, b: string)
    ensures Lower(a + b) == Lower(a) + Lower(b)
  {
  }

  // ---------------------------------------------------------------- search

  predicate StartsWith(s: string, p: string) {
    |p| <= |s| && s[..|p|] == p
  }

  predicate EndsWith(s: string, p: string) {
    |p| <= |s| && s[|s| - |p|..] == p
  }

  /** `sub` occurs in `s` starting at index `i`. */
  predicate InfixAt(s: string, sub: string, i: int) {
    0 <= i <= |s| - |sub| && s[i..i + |sub|] == sub
  }

  /** Python's `sub in s`. */
  predicate Contains(s: string, sub: string) {
    exists i :: 0 <= i <= |s| - |sub| && InfixAt(s, sub, i)
  }

  /** The first index of `c` in `s`. */
  function IndexOf(s: string, c: char): (r: Option<nat>)
    ensures r.None? <==> c !in s
    ensures r.Some? ==> r.value < |s| && s[r.value] == c && c !in s[..r.value]
    decreases |s|
  {
    if s == [] then None
    else if s[0] == c then Some(0)
    else
      match IndexOf(s[1..], c)
      case None => None
      case Some(i) =>
        assert s[..i + 1] == [s[0]] + s[1..][..i];
        Some(i + 1)
  }

  /** The last index of `c` in `s`. */
  function LastIndexOf(s: string, c: char): (r: Option<nat>)
    ensures r.None? <==> c !in s
    ensures r.Some? ==> r.value < |s| && s[r.value] == c && c !in s[r.value + 1..]
    decreases |s|
  {
    if s == [] then None
    else if s[|s| - 1] == c then Some(|s| - 1)
    else
      match LastIndexOf(s[..|s| - 1], c)
      case None => None
      case Some(i) =>
        assert s[i + 1..] == s[..|s| - 1][i + 1..] + [s[|s| - 1]];
        Some(i)
  }

  // ---------------------------------------------------------------- split / join

  /** `s.split(sep)` for a one-character separator: always at least one piece. */
  function Split(s: string, sep: char): (r: seq<string>)
    ensures |r| >= 1
    ensures forall i :: 0 <= i < |r| ==> sep !in r[i]
    decreases |s|
  {
    match IndexOf(s, sep)
    case None => [s]
    case Some(i) => [s[..i]] + Split(s[i + 1..], sep)
  }

  /** `sep.join(parts)`. */
  function Join(parts: seq<string>, sep: string): string
    decreases |parts|
  {
    if parts == [] then ""
    else if |parts| == 1 then parts[0]
    else parts[0] + sep + Join(parts[1..], sep)
  }

  /** Joining the pieces of a split with the same separator restores the text. */
  lemma {:induction false} JoinSplit(s: string, sep: char)
    ensures Join(Split(s, sep), [sep]) == s
    decreases |s|
  {
    match IndexOf(s, sep)
    case None =>
    case Some(i) =>
      var rest := Split(s[i + 1..], sep);
      JoinSplit(s[i + 1..], sep);
      assert Split(s, sep) == [s[..i]] + rest;
      assert s == s[..i] + [sep] + s[i + 1..];
  }

  /** Splitting a join of separator-free pieces gives the pieces back. */
  lemma {:induction false} SplitJoin(parts: seq<string>, sep: char)
    requires |parts| >= 1
    requires forall i :: 0 <= i < |parts| ==> sep !in parts[i]
    ensures Split(Join(parts, [sep]), sep) == parts
    decreases |parts|
  {
    if |parts| == 1 {
      assert Join(parts, [sep]) == parts[0];
    } else {
      var tail := Join(parts[1..], [sep]);
      SplitJoin(parts[1..], sep);
      assert Join(parts, [sep]) == parts[0] + [sep] + tail;
      SplitAtFirst(parts[0], sep, tail);
      assert parts == [parts[0]] + parts[1..];
    }
  }

  /** Splitting at a separator the first piece does not contain cuts there. */
  lemma SplitAtFirst(head: string, sep: char, tail: string)
    requires sep !in head
    ensures Split(head + [sep] + tail, sep) == [head] + Split(tail, sep)
  {
    var s := head + [sep] + tail;
    assert s[|head|] == sep;
    assert s[..|head|] == head;
    assert IndexOf(s, sep) == Some(|head|);
    assert s[|head| + 1..] == tail;
  }

  /** `s.partition(c)`: text before the first `c`, the separator (or ""), the rest. */
  function Partition(s: string, c: char): (r: (string, string, string))
    ensures r.0 + r.1 + r.2 == s
    ensures c !in r.0
    ensures r.1 == [] <==> c !in s
    ensures r.1 != [] ==> r.1 == [c]
    ensures r.1 == [] ==> r.2 == []
  {
    match IndexOf(s, c)
    case None => (s, "", "")
    case Some(i) =>
      assert s == s[..i] + [c] + s[i + 1..];
      (s[..i], [c], s[i + 1..])
  }

  /** The partition of `a + [c] + b` at `c` is `a`, `c`, `b` when `a` has no `c`. */
  lemma PartitionAt(a: string, c: char, b: string)
    requires c !in a
    ensures Partition(a + [c] + b, c) == (a, [c], b)
  {
    var s := a + [c] + b;
    assert s[|a|] == c;
    assert s[..|a|] == a && s[|a| + 1..] == b;
  }

  /** `s.rsplit(c, 1)[-1]`: the text after the last `c` (all of `s` if none). */
  function AfterLast(s: string, c: char): (r: string)
    ensures c !in r
    ensures c in s ==> exists i :: 0 <= i < |s| && s[i] == c && r == s[i + 1..]
    ensures c !in s ==> r == s
  {
    match LastIndexOf(s, c)
    case None => s
    case Some(i) => s[i + 1..]
  }

  /** The text after the last `c` of `a + [c] + b` is `b` when `b` has no `c`. */
  lemma AfterLastSplit(a: string, b: string, c: char)
    requires c !in b
    ensures AfterLast(a + [c] + b, c) == b
  {
    var s := a + [c] + b;
    assert s[|a|] == c;
    var i :| 0 <= i < |s| && s[i] == c && AfterLast(s, c) == s[i + 1..];
    if i < |a| {
      assert s[|a|] in s[i + 1..];
    }
    assert s[|a| + 1..] == b;
  }

  // ---------------------------------------------------------------- replace

  /** `s.replace(pat, rep)`: every leftmost non-overlapping occurrence. */
  function ReplaceAll(s: string, pat: string, rep: string): (r: string)
    requires |pat| > 0
    ensures |rep| <= |pat| ==> |r| <= |s|
    decreases |s|
  {
    if |s| < |pat| then s
    else if s[..|pat|] == pat then rep + ReplaceAll(s[|pat|..], pat, rep)
    else [s[0]] + ReplaceAll(s[1..], pat, rep)
  }

  /** An occurrence of `pat` starts at index `i` of `s`. */
  predicate OccursAt(s: string, pat: string, i: int) {
    0 <= i && i + |pat| <= |s| && s[i..i + |pat|] == pat
  }

  /** Text in which the pattern does not occur comes back unchanged. */
  lemma {:induction false} ReplaceAllAbsent(s: string, pat: string, rep: string)
    requires |pat| > 0
    requires forall i :: 0 <= i < |s| ==> !OccursAt(s, pat, i)
    ensures ReplaceAll(s, pat, rep) == s
    decreases |s|
  {
    if |s| >= |pat| {
      assert !OccursAt(s, pat, 0);
      forall i | 0 <= i < |s[1..]|
        ensures !OccursAt(s[1..], pat, i)
      {
        assert !OccursAt(s, pat, i + 1);
        if i + |pat| <= |s[1..]| {
          assert s[1..][i..i + |pat|] == s[i + 1..i + 1 + |pat|];
        }
      }
      ReplaceAllAbsent(s[1..], pat, rep);
      assert [s[0]] + s[1..] == s;
    }
  }

  /** When no occurrence starts inside `a`, the pattern right after `a` is
      the first one replaced, and replacing goes on after it. */
  lemma {:induction false} ReplaceAllFirst(a: string, b: string, pat: string, rep: string)
    requires |pat| > 0
    requires forall i :: 0 <= i < |a| ==> !OccursAt(a + pat + b, pat, i)
    ensures ReplaceAll(a + pat + b, pat, rep) == a + rep + ReplaceAll(b, pat, rep)
    decreases |a|
  {
    var s := a + pat + b;
    if a == [] {
      assert s[..|pat|] == pat && s[|pat|..] == b;
    } else {
      assert !OccursAt(s, pat, 0);
      assert s[1..] == a[1..] + pat + b;
      forall i | 0 <= i < |a[1..]|
        ensures !OccursAt(a[1..] + pat + b, pat, i)
      {
        assert !OccursAt(s, pat, i + 1);
        assert s[1..][i..i + |pat|] == s[i + 1..i + 1 + |pat|];
      }
      ReplaceAllFirst(a[1..], b, pat, rep);
      assert a + rep + ReplaceAll(b, pat, rep) == [a[0]] + (a[1..] + rep + ReplaceAll(b, pat, rep));
    }
  }

  /** A text ending in its only occurrence of the pattern has just that
      occurrence replaced. */
  lemma ReplaceAllLast(a: string, pat: string, rep: string)
    requires |pat| > 0
    requires forall i :: 0 <= i < |a| ==> !OccursAt(a + pat, pat, i)
    ensures ReplaceAll(a + pat, pat, rep) == a + rep
  {
    assert a + pat + [] == a + pat;
    ReplaceAllFirst(a, [], pat, rep);
    assert a + rep + [] == a + rep;
  }

  /** Text holding no first character of the pattern is copied unchanged. */
  lemma {:induction false} ReplaceAllSkip(a: string, b: string, pat: string, rep: string)
    requires |pat| > 0 && pat[0] !in a
    ensures ReplaceAll(a + b, pat, rep) == a + ReplaceAll(b, pat, rep)
    decreases |a|
  {
    if a == [] {
      assert a + b == b;
    } else {
      var s := a + b;
      if |s| >= |pat| {
        assert s[0] != pat[0];
        assert s[1..] == a[1..] + b;
      }
      ReplaceAllSkip(a[1..], b, pat, rep);
    }
  }

  /** Replacing never introduces a character that neither the text nor the
      replacement holds. */
  lemma {:induction false} ReplaceAllChars(s: string, pat: string, rep: string, c: char)
    requires |pat| > 0
    requires c !in s && c !in rep
    ensures c !in ReplaceAll(s, pat, rep)
    decreases |s|
  {
    if |s| < |pat| {
    } else if s[..|pat|] == pat {
      ReplaceAllChars(s[|pat|..], pat, rep, c);
    } else {
      ReplaceAllChars(s[1..], pat, rep, c);
    }
  }

  /** Replacing with upper-case-free text keeps upper-case-free text so. */
  lemma {:induction false} ReplaceAllNoUpper(s: string, pat: string, rep: string)
    requires |pat| > 0
    requires NoUpper(s) && NoUpper(rep)
    ensures NoUpper(ReplaceAll(s, pat, rep))
    decreases |s|
  {
    if |s| < |pat| {
    } else if s[..|pat|] == pat {
      ReplaceAllNoUpper(s[|pat|..], pat, rep);
    } else {
      ReplaceAllNoUpper(s[1..], pat, rep);
    }
  }

  // ---------------------------------------------------------------- lines

  /** Python's `s.splitlines()`: `\r\n` counts as one break and a final break
      does not open an empty line. */
  function SplitLines(s: string): (r: seq<string>)
    ensures s == [] <==> r == []
    ensures forall i :: 0 <= i < |r| ==> forall j :: 0 <= j < |r[i]| ==> !IsLineBreak(r[i][j])
    ensures s != [] && !IsLineBreak(s[0]) ==> r[0] == FirstLine(s)
    decreases |s|
  {
    if s == [] then []
    else
      var i := LineEnd(s);
      if i == |s| then [s]
      else
        var next := if s[i] == '\r' && i + 1 < |s| && s[i + 1] == '\n' then i + 2 else i + 1;
        [s[..i]] + SplitLines(s[next..])
  }

  /** The index of the first line break, or `|s|`. */
  function LineEnd(s: string): (i: nat)
    ensures i <= |s|
    ensures i < |s| ==> IsLineBreak(s[i])
    ensures forall j :: 0 <= j < i ==> !IsLineBreak(s[j])
    decreases |s|
  {
    if s == [] then 0
    else if IsLineBreak(s[0]) then 0
    else 1 + LineEnd(s[1..])
  }

  /** The text before the first line break. */
  function FirstLine(s: string): string {
    s[..LineEnd(s)]
  }

  // ---------------------------------------------------------------- numbers

  predicate IsDigit(c: char) { '0' <= c <= '9' }

  function DigitChar(d: nat): (c: char)
    requires d < 10
    ensures IsDigit(c)
  {
    ('0' as int + d) as char
  }

  function DigitValue(c: char): (d: nat)
    requires IsDigit(c)
    ensures d < 10
  {
    c as int - '0' as int
  }

  /** `str(n)` for a natural number. */
  function NatToString(n: nat): (r: string)
    ensures |r| >= 1
    ensures forall i :: 0 <= i < |r| ==> IsDigit(r[i])
    decreases n
  {
    if n < 10 then [DigitChar(n)] else NatToString(n / 10) + [DigitChar(n % 10)]
  }

  /** `str(i)` for an integer. */
  function IntToString(i: int): (r: string)
    ensures |r| >= 1
    ensures forall k :: 0 <= k < |r| ==> IsDigit(r[k]) || r[k] == '-'
    ensures IsDigit(r[|r| - 1])
  {
    if i < 0 then "-" + NatToString(-i) else NatToString(i)
  }

  /** A body of digits in the form Python's `int()` accepts: digits, with single
      underscores allowed between digits. */
  predicate DigitGroups(s: string) {
    && |s| >= 1
    && IsDigit(s[0]) && IsDigit(s[|s| - 1])
    && (forall i :: 0 <= i < |s| ==> IsDigit(s[i]) || s[i] == '_')
    && (forall i :: 0 <= i < |s| - 1 ==> !(s[i] == '_' && s[i + 1] == '_'))
  }

  /** The decimal value of the digits of `s`, underscores skipped. */
  function DigitsValue(s: string): nat
    requires forall i :: 0 <= i < |s| ==> IsDigit(s[i]) || s[i] == '_'
    decreases |s|
  {
    if s == [] then 0
    else if s[|s| - 1] == '_' then DigitsValue(s[..|s| - 1])
    else DigitsValue(s[..|s| - 1]) * 10 + DigitValue(s[|s| - 1])
  }

  /** Python's `int(s)` on a string: surrounding whitespace, an optional sign and
      a decimal digit body; `None` stands for the `ValueError`. */
  function ParseInt(s: string): (r: Option<int>)
    ensures r.Some? ==> SignedDigits(Strip(s))
    ensures r.Some? && r.value < 0 ==> Strip(s)[0] == '-'
  {
    SignedShape(Strip(s));
    ParseSigned(Strip(s))
  }

  /** Digits and underscores, with an optional leading sign, ending in a
      digit. */
  predicate SignedDigits(t: string) {
    && t != [] && IsDigit(t[|t| - 1])
    && forall i :: 0 <= i < |t| ==> IsDigit(t[i]) || t[i] == '_' || (i == 0 && (t[i] == '-' || t[i] == '+'))
  }

  /** `int()` once the whitespace is gone: an optional sign and a digit body. */
  function ParseSigned(t: string): (r: Option<int>)
    ensures r.Some? ==> t != []
  {
    if t == [] then None
    else
      var neg := t[0] == '-';
      var body := if t[0] == '-' || t[0] == '+' then t[1..] else t;
      if DigitGroups(body) then
        var v: int := DigitsValue(body);
        Some(if neg then -v else v)
      else None
  }

  /** What `int()` accepts once the whitespace is gone: a sign only in
      front, then digits and underscores ending in a digit; a negative value
      needs the minus sign. */
  lemma SignedShape(t: string)
    ensures ParseSigned(t).Some? ==> SignedDigits(t)
    ensures ParseSigned(t).Some? && ParseSigned(t).value < 0 ==> t[0] == '-'
  {
  }

  lemma {:induction false} NatToStringValue(n: nat)
    ensures DigitGroups(NatToString(n))
    ensures DigitsValue(NatToString(n)) == n
    decreases n
  {
    var s := NatToString(n);
    if n >= 10 {
      NatToStringValue(n / 10);
      assert s[..|s| - 1] == NatToString(n / 10);
      assert DigitValue(s[|s| - 1]) == n % 10;
    }
  }

  /** `int(str(i)) == i` for every integer. */
  lemma ParseIntToString(i: int)
    ensures ParseInt(IntToString(i)) == Some(i)
  {
    var s := IntToString(i);
    if i < 0 {
      ParseNegative(i);
      assert s == "-" + NatToString(-i);
    } else {
      ParseNatural(i);
      assert s == NatToString(i);
    }
  }

  /** `int()` ignores whitespace around the number: `int(w1 + str(i) + w2) == i`
      for any whitespace `w1` and `w2`. */
  lemma ParsePadded(w1: string, i: int, w2: string)
    requires forall k :: 0 <= k < |w1| ==> IsSpace(w1[k])
    requires forall k :: 0 <= k < |w2| ==> IsSpace(w2[k])
    ensures ParseInt(w1 + IntToString(i) + w2) == Some(i)
  {
    var x := IntToString(i);
    StripPadded(w1, x, w2);
    StripNoEdgeSpace(x);
    ParseIntToString(i);
  }

  /** Stripping removes exactly the whitespace around a text that neither
      starts nor ends with whitespace. */
  lemma StripPadded(w1: string, x: string, w2: string)
    requires forall k :: 0 <= k < |w1| ==> IsSpace(w1[k])
    requires forall k :: 0 <= k < |w2| ==> IsSpace(w2[k])
    requires x != [] && !IsSpace(x[0]) && !IsSpace(x[|x| - 1])
    ensures Strip(w1 + x + w2) == x
  {
    assert w1 + x + w2 == w1 + (x + w2);
    TrimStartPadding(w1, x + w2);
    TrimEndPadding(x, w2);
  }

  lemma {:induction false} TrimStartPadding(w: string, y: string)
    requires forall k :: 0 <= k < |w| ==> IsSpace(w[k])
    requires y != [] && !IsSpace(y[0])
    ensures TrimStart(w + y) == y
    decreases |w|
  {
    if w == [] {
      assert w + y == y;
    } else {
      var s := w + y;
      assert s[0] == w[0] && IsSpace(s[0]);
      assert s[1..] == w[1..] + y;
      TrimStartPadding(w[1..], y);
      assert TrimStart(s) == TrimStart(s[1..]);
    }
  }

  lemma {:induction false} TrimEndPadding(y: string, w: string)
    requires forall k :: 0 <= k < |w| ==> IsSpace(w[k])
    requires y != [] && !IsSpace(y[|y| - 1])
    ensures TrimEnd(y + w) == y
    decreases |w|
  {
    if w == [] {
      assert y + w == y;
    } else {
      assert (y + w)[..|y + w| - 1] == y + w[..|w| - 1];
      TrimEndPadding(y, w[..|w| - 1]);
    }
  }

  lemma ParseNatural(n: nat)
    ensures ParseInt(NatToString(n)) == Some(n)
  {
    var s := NatToString(n);
    assert !IsSpace(s[0]) && !IsSpace(s[|s| - 1]);
    StripNoEdgeSpace(s);
    SignedNatural(n);
  }

  lemma SignedNatural(n: nat)
    ensures ParseSigned(NatToString(n)) == Some(n)
  {
    NatToStringValue(n);
  }

  lemma ParseNegative(i: int)
    requires i < 0
    ensures ParseInt("-" + NatToString(-i)) == Some(i)
  {
    var s := "-" + NatToString(-i);
    assert !IsSpace(s[0]) && !IsSpace(s[|s| - 1]);
    StripNoEdgeSpace(s);
    SignedNegative(i);
  }

  lemma SignedNegative(i: int)
    requires i < 0
    ensures ParseSigned("-" + NatToString(-i)) == Some(i)
  {
    var d := NatToString(-i);
    NatToStringValue(-i);
    NegatedDigits(d);
    assert -(DigitsValue(d) as int) == i;
  }

  lemma NegatedDigits(d: string)
    requires DigitGroups(d)
    ensures ParseSigned("-" + d) == Some(-(DigitsValue(d) as int))
  {
    assert ("-" + d)[1..] == d;
  }
}

=== FILE: workrooms.dfy ===
/** `WorkroomService` and its request schemas: which fields a create or a
    partial update sends, the list and admin-list queries, the calls of the
    id-based operations and their 404 guard. UUIDs are an opaque type: the
    string parser is a parameter, and a UUID is rendered by its canonical
    text. The HTTP client is a parameter from calls to results. */
module Workrooms {
  import opened Common
  import Text

  // ---------------------------------------------------------------- schemas

  /** `WorkroomType`. */
  datatype WorkroomType = Ephemeral | Persistent

  function TypeName(t: WorkroomType): (s: string)
    ensures ParseType(s) == Some(t)
  {
    match t
    case Ephemeral => "ephemeral"
    case Persistent => "persistent"
  }

  /** Validation of the `type` field: exactly the two value strings. */
  function ParseType(s: string): (t: Option<WorkroomType>)
    ensures t.Some? <==> s == "ephemeral" || s == "persistent"
  {
    if s == "ephemeral" then Some(Ephemeral)
    else if s == "persistent" then Some(Persistent)
    else None
  }

  /** `WorkroomStatus`: exactly four lifecycle states. */
  datatype WorkroomStatus = Active | Archived | Purging | Deleted

  function StatusName(st: WorkroomStatus): string {
    match st
    case Active => "active"
    case Archived => "archived"
    case Purging => "purging"
    case Deleted => "deleted"
  }

  function ParseStatus(s: string): (st: Option<WorkroomStatus>)
    ensures st.Some? <==> s in {"active", "archived", "purging", "deleted"}
  {
    if s == "active" then Some(Active)
    else if s == "archived" then Some(Archived)
    else if s == "purging" then Some(Purging)
    else if s == "deleted" then Some(Deleted)
    else None
  }

  /** Status names and parsing are inverse to each other. */
  lemma StatusRoundTrip(st: WorkroomStatus, s: string)
    ensures ParseStatus(StatusName(st)) == Some(st)
    ensures ParseStatus(s).Some? ==> StatusName(ParseStatus(s).value) == s
  {
  }

  /** The optional fields shared by create and update. */
  datatype Details = Details(
    description: Option<string>,
    labels: Option<seq<string>>,
    classification: Option<string>,
    attributes: Option<map<string, Json>>,
    scgReferences: Option<seq<string>>)

  /** No optional field given. */
  const NoDetails := Details(None, None, None, None, None)

  /** The bounds on the optional fields: description at most 1024 characters,
      classification at most 255. */
  predicate DetailsValid(d: Details) {
    (d.description.None? || |d.description.value| <= 1024)
    && (d.classification.None? || |d.classification.value| <= 255)
  }

  /** A name of 1 to 255 characters. */
  predicate NameValid(name: string) {
    1 <= |name| <= 255
  }

  /** The field `CreateWorkroom` validation reports, in field order, or none. */
  function CreateProblem(name: string, workroomType: string, d: Details): (f: Option<string>)
    ensures f.None? <==> NameValid(name) && ParseType(workroomType).Some? && DetailsValid(d)
  {
    if !NameValid(name) then Some("name")
    else if ParseType(workroomType).None? then Some("type")
    else if d.description.Some? && |d.description.value| > 1024 then Some("description")
    else if d.classification.Some? && |d.classification.value| > 255 then Some("classification")
    else None
  }

  /** `UpdateWorkroom`: every field optional, with the bounds of create. */
  predicate UpdateValid(name: Option<string>, d: Details) {
    (name.None? || NameValid(name.value)) && DetailsValid(d)
  }

  /** Whatever create accepts, update accepts too. */
  lemma CreateValidIsUpdateValid(name: string, workroomType: string, d: Details)
    requires CreateProblem(name, workroomType, d).None?
    ensures UpdateValid(Some(name), d)
    ensures UpdateValid(None, NoDetails)
  {
  }

  const DetailKeys: set<string> := {"description", "labels", "classification", "attributes", "scg_references"}

  /** The wire value of an optional field, `None` when it was not given. */
  function DetailValue(d: Details, key: string): (v: Option<Json>)
    ensures v.Some? ==> key in DetailKeys && v.value != JNull
  {
    if key == "description" then OptStr(d.description)
    else if key == "labels" then OptStrList(d.labels)
    else if key == "classification" then OptStr(d.classification)
    else if key == "attributes" then (if d.attributes.Some? then Some(JObj(d.attributes.value)) else None)
    else if key == "scg_references" then OptStrList(d.scgReferences)
    else None
  }

  /** The optional fields that were given, under their wire names: the
      top-level `exclude_none` dump of those fields. */
  function DetailFields(d: Details): (r: map<string, Json>)
    ensures forall k :: k in r <==> DetailValue(d, k).Some?
    ensures forall k :: k in r ==> r[k] == DetailValue(d, k).value
    ensures r == map[] <==> d == NoDetails
  {
    var r := map k | k in DetailKeys && DetailValue(d, k).Some? :: DetailValue(d, k).value;
    assert d != NoDetails ==> r != map[] by {
      if d.description.Some? { assert "description" in r; }
      else if d.labels.Some? { assert "labels" in r; }
      else if d.classification.Some? { assert "classification" in r; }
      else if d.attributes.Some? { assert "attributes" in r; }
      else if d.scgReferences.Some? { assert "scg_references" in r; }
    }
    r
  }

  /** `create`: the model is validated first, then posted with its `None`
      fields dropped; `type` is sent as its value string. */
  function Create(name: string, workroomType: string, d: Details): (r: Result<Call, Error>)
    ensures r.Err? <==> CreateProblem(name, workroomType, d).Some?
    ensures r.Err? ==> r.error == ValidationError(CreateProblem(name, workroomType, d).value)
    ensures r.Ok? ==> r.value.verb == Post && r.value.path == "/workrooms/"
    ensures r.Ok? ==> r.value.body.Pass? && r.value.body.value.JObj?
    ensures r.Ok? ==> var b := BodyFields(r.value);
      "name" in b && b["name"] == JStr(name) && "type" in b && b["type"] == JStr(workroomType)
      && (forall k :: k in b ==> b[k] != JNull)
      && (forall k :: k != "name" && k != "type" ==> (k in b <==> DetailValue(d, k).Some?))
      && (forall k :: k in b && k != "name" && k != "type" ==> b[k] == DetailValue(d, k).value)
  {
    var problem := CreateProblem(name, workroomType, d);
    if problem.Some? then Err(ValidationError(problem.value))
    else
      var t := ParseType(workroomType).value;
      var fields := DetailFields(d)["name" := JStr(name)]["type" := JStr(TypeName(t))];
      Ok(Bare(Post, "/workrooms/").(body := Pass(JObj(fields))))
  }

  /** The minimal create sends only `name` and `type`. */
  lemma MinimalCreate(name: string, workroomType: string)
    requires NameValid(name) && ParseType(workroomType).Some?
    ensures Create(name, workroomType, NoDetails).Ok?
    ensures BodyFields(Create(name, workroomType, NoDetails).value).Keys == {"name", "type"}
  {
    var b := BodyFields(Create(name, workroomType, NoDetails).value);
    assert b.Keys == {"name", "type"};
  }

  // ---------------------------------------------------------------- ids

  /** A parsed UUID, known by its canonical text. */
  datatype Uuid = Uuid(canonical: string)

  /** An id argument: a string still to be parsed, or a UUID. */
  datatype IdArg = IdText(text: string) | IdValue(uuid: Uuid)

  /** `_ensure_uuid`: strings are parsed, raising `ValueError` when they are
      not UUIDs; UUID values pass through unchanged. */
  function EnsureUuid(id: IdArg, parse: string -> Option<Uuid>): (r: Result<Uuid, Error>)
    ensures id.IdValue? ==> r == Ok(id.uuid)
    ensures id.IdText? ==> (r.Ok? <==> parse(id.text).Some?)
    ensures r.Ok? && id.IdText? ==> r.value == parse(id.text).value
    ensures r.Err? ==> r.error == ValueError
  {
    match id
    case IdValue(u) => Ok(u)
    case IdText(t) => if parse(t).Some? then Ok(parse(t).value) else Err(ValueError)
  }

  /** A UUID handed back in is accepted unchanged, so a string and the UUID it
      parses to name the same workroom. */
  lemma EnsureUuidStable(text: string, parse: string -> Option<Uuid>)
    requires parse(text).Some?
    ensures EnsureUuid(IdText(text), parse) == EnsureUuid(IdValue(EnsureUuid(IdText(text), parse).value), parse)
  {
  }

  // ---------------------------------------------------------------- id-based calls

  /** The operations addressed by a workroom id. */
  datatype IdOp =
    | GetWorkroom
    | UpdateWorkroom(name: Option<string>, details: Details)
    | DeleteWorkroom
    | Archive
    | ExportManifest
    | ExportBundle
    | IngestionSummary
    | AdminDelete

  /** `update`'s body: exactly the keyword fields that are not `None`. No
      model validation happens on this path. */
  function UpdatePayload(name: Option<string>, d: Details): (p: map<string, Json>)
    ensures "name" in p <==> name.Some?
    ensures name.Some? ==> p["name"] == JStr(name.value)
    ensures forall k :: k != "name" ==> (k in p <==> DetailValue(d, k).Some?)
    ensures forall k :: k in p && k != "name" ==> p[k] == DetailValue(d, k).value
    ensures p == map[] <==> name.None? && d == NoDetails
  {
    if name.Some? then DetailFields(d)["name" := JStr(name.value)] else DetailFields(d)
  }

  /** The unit test's update: `name` and `labels` go, nothing else does. */
  lemma UpdateSendsOnlyGiven()
    ensures UpdatePayload(Some("X"), NoDetails.(labels := Some(["a"]))).Keys == {"name", "labels"}
  {
    var p := UpdatePayload(Some("X"), NoDetails.(labels := Some(["a"])));
    assert "name" in p && "labels" in p;
  }

  /** The call of each id-based operation. */
  function IdCall(op: IdOp, wid: Uuid): (c: Call)
    ensures c.params.Omitted? && c.headers.Omitted? && c.files.None?
    ensures c.rawResponse <==> op.ExportBundle?
    ensures c.body.Pass? <==> op.UpdateWorkroom?
    ensures op.UpdateWorkroom? ==> c.verb == Patch && c.body == Pass(JObj(UpdatePayload(op.name, op.details)))
    ensures c.verb == Post <==> op.Archive? || op.ExportBundle?
    ensures c.verb == Delete <==> op.DeleteWorkroom? || op.AdminDelete?
    ensures op.AdminDelete? ==> c.path == "/admin/workrooms/" + wid.canonical
    ensures !op.AdminDelete? ==> "/workrooms/" + wid.canonical <= c.path
  {
    var base := "/workrooms/" + wid.canonical;
    match op
    case GetWorkroom => Bare(Get, base)
    case UpdateWorkroom(name, d) => Bare(Patch, base).(body := Pass(JObj(UpdatePayload(name, d))))
    case DeleteWorkroom => Bare(Delete, base)
    case Archive => Bare(Post, base + "/archive")
    case ExportManifest => Bare(Get, base + "/export/manifest")
    case ExportBundle => Bare(Post, base + "/export").(rawResponse := true)
    case IngestionSummary => Bare(Get, base + "/ingestion/summary")
    case AdminDelete => Bare(Delete, "/admin/workrooms/" + wid.canonical)
  }

  function NotFoundMessage(wid: Uuid): string {
    "Workroom " + wid.canonical + " not found"
  }

  /** One id-based operation end to end: the id is parsed before anything is
      sent, the client is called once, and its 404 becomes `NotFoundError`
      naming the workroom while any other error propagates unchanged. */
  function Perform(op: IdOp, id: IdArg, parse: string -> Option<Uuid>, send: Call -> Result<Json, Error>): (r: Result<Json, Error>)
    ensures EnsureUuid(id, parse).Err? ==> r == Err(ValueError)
    ensures EnsureUuid(id, parse).Ok? ==>
      var wid := EnsureUuid(id, parse).value;
      var sent := send(IdCall(op, wid));
      (sent.Ok? ==> r == sent)
      && (sent == Err(APIError(Some(404))) ==> r == Err(NotFoundError(NotFoundMessage(wid))))
      && (sent.Err? && sent.error != APIError(Some(404)) ==> r == sent)
    ensures r != Err(APIError(Some(404)))
  {
    var u := EnsureUuid(id, parse);
    if u.Err? then Err(u.error)
    else
      var wid := u.value;
      Guarded(send(IdCall(op, wid)), NotFoundMessage(wid))
  }

  /** The guard is applied once: a `NotFoundError` the client raised itself,
      or any error other than a 404, comes out as it went in. */
  lemma GuardIdempotent(e: Error, m1: string, m2: string)
    ensures NotFoundAs(NotFoundAs(e, m1), m2) == NotFoundAs(e, m1)
  {
  }

  // ---------------------------------------------------------------- listing

  /** `list`: `include_archived="true"` only when asked for; the (possibly
      empty) query is always passed. */
  function List(includeArchived: bool): (c: Call)
    ensures c.verb == Get && c.path == "/workrooms/"
    ensures c.params.Pass?
    ensures "include_archived" in ParamsSent(c) <==> includeArchived
    ensures includeArchived ==> ParamsSent(c) == map["include_archived" := JStr("true")]
    ensures !includeArchived ==> ParamsSent(c) == map[]
  {
    var p: map<string, Json> := if includeArchived then map["include_archived" := JStr("true")] else map[];
    Bare(Get, "/workrooms/").(params := Pass(p))
  }

  /** `admin_list`: `skip` and `limit` always (defaults 0 and 100), and
      `include_deleted="true"` only when asked for. */
  function AdminList(includeDeleted: bool, skip: int, limit: int): (c: Call)
    ensures c.verb == Get && c.path == "/admin/workrooms/"
    ensures c.params.Pass?
    ensures var p := ParamsSent(c);
      "skip" in p && p["skip"] == JInt(skip) && "limit" in p && p["limit"] == JInt(limit)
    ensures "include_deleted" in ParamsSent(c) <==> includeDeleted
    ensures includeDeleted ==> ParamsSent(c)["include_deleted"] == JStr("true")
    ensures |ParamsSent(c)| == if includeDeleted then 3 else 2
  {
    var p := map["skip" := JInt(skip), "limit" := JInt(limit)];
    var q := if includeDeleted then p["include_deleted" := JStr("true")] else p;
    Bare(Get, "/admin/workrooms/").(params := Pass(q))
  }

  /** The defaults send exactly `skip=0` and `limit=100`. */
  lemma AdminListDefaults()
    ensures ParamsSent(AdminList(false, 0, 100)) == map["skip" := JInt(0), "limit" := JInt(100)]
  {
  }

  /** `[Workroom.model_validate(item) for item in response["items"]]`;
      `items` is `None` when the response has no such key. */
  function ListResult<W>(items: Option<seq<Json>>, validate: Json -> Result<W, Error>): (r: Result<seq<W>, Error>)
    ensures items.None? ==> r == Err(KeyError("items"))
    ensures items == Some([]) ==> r == Ok([])
    ensures items.Some? && r.Ok? ==> (|r.value| == |items.value|
      && forall i :: 0 <= i < |items.value| ==> validate(items.value[i]).Ok? && r.value[i] == validate(items.value[i]).value)
  {
    if items.None? then Err(KeyError("items")) else ValidateAll(items.value, validate)
  }

  // ---------------------------------------------------------------- ingestion summary

  /** The counters of `IngestionSummary`; the id and the dates are not
      modelled. */
  datatype Summary = Summary(
    totalSources: int,
    countsBySourceType: map<string, int>,
    errorCount: int,
    warningCount: int,
    catalogEntries: int)

  /** Pydantic's lax `int`: an integer as it is, a boolean as 1 or 0, a
      float only when it has no fractional part, and a text only when,
      without its surrounding whitespace, it is an optional sign and a run
      of decimal digits. `null`, lists and objects never validate. */
  function LaxInt(j: Json): (r: Option<int>)
    ensures j.JInt? ==> r == Some(j.i)
    ensures j.JBool? ==> r == Some(if j.b then 1 else 0)
    ensures j.JReal? ==> (r.Some? <==> j.r.Floor as real == j.r)
    ensures j.JReal? && r.Some? ==> r.value as real == j.r
    ensures j.JStr? && r.Some? ==> Text.SignedDigits(Text.Strip(j.s)) && '_' !in j.s
    ensures j.JNull? || j.JArr? || j.JObj? ==> r.None?
  {
    match j
    case JInt(i) => Some(i)
    case JBool(b) => Some(if b then 1 else 0)
    case JReal(x) => if x.Floor as real == x then Some(x.Floor) else None
    case JStr(t) => if '_' in t then None else Text.ParseInt(t)
    case _ => None
  }

  /** The same number sent as an integer, as an integral float or as its
      decimal text, with any whitespace around it, validates to itself. */
  lemma LaxIntForms(w1: string, i: int, w2: string)
    requires forall k :: 0 <= k < |w1| ==> Text.IsSpace(w1[k])
    requires forall k :: 0 <= k < |w2| ==> Text.IsSpace(w2[k])
    ensures LaxInt(JInt(i)) == Some(i)
    ensures LaxInt(JReal(i as real)) == Some(i)
    ensures LaxInt(JStr(w1 + Text.IntToString(i) + w2)) == Some(i)
  {
    var t := w1 + Text.IntToString(i) + w2;
    Text.ParsePadded(w1, i, w2);
    forall k | 0 <= k < |t|
      ensures t[k] != '_'
    {
      if k < |w1| {
        assert t[k] == w1[k];
      } else if k < |w1| + |Text.IntToString(i)| {
        assert t[k] == Text.IntToString(i)[k - |w1|];
      } else {
        assert t[k] == w2[k - |w1| - |Text.IntToString(i)|];
      }
    }
  }

  /** A counter: 0 when the response leaves it out, otherwise its lax
      integer value. */
  function Counter(fields: map<string, Json>, key: string): (r: Result<int, Error>)
    ensures key !in fields ==> r == Ok(0)
    ensures key in fields && fields[key].JInt? ==> r == Ok(fields[key].i)
    ensures key in fields && r.Ok? ==> LaxInt(fields[key]) == Some(r.value)
    ensures r.Err? <==> key in fields && LaxInt(fields[key]).None?
    ensures r.Err? ==> r.error == ValidationError(key)
  {
    if key !in fields then Ok(0)
    else if LaxInt(fields[key]).Some? then Ok(LaxInt(fields[key]).value)
    else Err(ValidationError(key))
  }

  /** `counts_by_source_type`: empty when left out, otherwise an object
      whose every value is a lax integer. */
  function Counts(fields: map<string, Json>): (r: Result<map<string, int>, Error>)
    ensures "counts_by_source_type" !in fields ==> r == Ok(map[])
    ensures r.Ok? && "counts_by_source_type" in fields ==>
      var v := fields["counts_by_source_type"];
      v.JObj? && r.value.Keys == v.fields.Keys && forall k :: k in v.fields ==> LaxInt(v.fields[k]) == Some(r.value[k])
    ensures r.Err? <==> ("counts_by_source_type" in fields &&
      var v := fields["counts_by_source_type"];
      !v.JObj? || exists k :: k in v.fields && LaxInt(v.fields[k]).None?)
    ensures r.Err? ==> r.error == ValidationError("counts_by_source_type")
  {
    if "counts_by_source_type" !in fields then Ok(map[])
    else
      var v := fields["counts_by_source_type"];
      if v.JObj? && forall k :: k in v.fields ==> LaxInt(v.fields[k]).Some? then
        Ok(map k | k in v.fields :: LaxInt(v.fields[k]).value)
      else Err(ValidationError("counts_by_source_type"))
  }

  /** Validation of the summary's counters, in field order. */
  function ParseSummary(fields: map<string, Json>): (r: Result<Summary, Error>)
    ensures r.Ok? ==> (Counter(fields, "total_sources") == Ok(r.value.totalSources)
      && Counter(fields, "error_count") == Ok(r.value.errorCount)
      && Counter(fields, "warning_count") == Ok(r.value.warningCount)
      && Counter(fields, "catalog_entries") == Ok(r.value.catalogEntries)
      && Counts(fields) == Ok(r.value.countsBySourceType))
    ensures r.Err? <==> (Counter(fields, "total_sources").Err? || Counts(fields).Err?
      || Counter(fields, "error_count").Err? || Counter(fields, "warning_count").Err?
      || Counter(fields, "catalog_entries").Err?)
  {
    var total := Counter(fields, "total_sources");
    var counts := Counts(fields);
    var errors := Counter(fields, "error_count");
    var warnings := Counter(fields, "warning_count");
    var entries := Counter(fields, "catalog_entries");
    if total.Err? then Err(total.error)
    else if counts.Err? then Err(counts.error)
    else if errors.Err? then Err(errors.error)
    else if warnings.Err? then Err(warnings.error)
    else if entries.Err? then Err(entries.error)
    else Ok(Summary(total.value, counts.value, errors.value, warnings.value, entries.value))
  }

  /** A response that reports no counters gives zeros and no counts. */
  lemma SummaryDefaults(fields: map<string, Json>)
    requires forall k :: k in fields ==>
      k !in {"total_sources", "counts_by_source_type", "error_count", "warning_count", "catalog_entries"}
    ensures ParseSummary(fields) == Ok(Summary(0, map[], 0, 0, 0))
  {
  }
}
